=== FILE: README.md ===
# eth-info: search, checksum, query keys, transaction tables and graph helpers

This project models the deterministic core of eth-info, a web front end for
browsing Ethereum addresses, transactions and blocks. The model covers:

- **the search-hit highlighter** (`Highlight`): it reads a backend `matched_value`
  with `<mark>…</mark>` tags into highlighted and plain segments, then makes the
  `match_positions` ranges bold by re-splitting the segments;
- **EIP-55 checksum casing** (`Checksum`), with Keccak-256 as a function parameter;
- **the search dropdown** (`Dropdown`, `SearchResults`, `SearchInput`):
  - the decision table from loading/error/status code/query to the sections shown;
  - the rows and their click values;
  - the debounce, focus and outside-click state machine of the search box;
- **the query-key builders** (`QueryKeys`), including the order-free context key of the neighbour queries;
- **the four transaction tables** (`TxCells`, `ExternalTransactionsTable`,
  `InternalTransactionsTable`, `BlockTxTable`, `TxInternalTxTable`):
  - page arithmetic, 1-based pages against the table's 0-based index, and the prev/next guards;
  - cell truncation, placeholders for missing addresses, and row keys;
- **the neighbour-graph helpers** (`NeighborGraph`): address truncation,
  colour and size defaults, and the container dimensions kept by a resize handler.

Shared modules:
- `Wrappers` holds `Option`.
- `JsString` holds the JavaScript string primitives the source relies on:
  - `substring` with its clamping;
  - `indexOf`, and `replace` of the first occurrence;
  - ASCII case mapping, decimal printing, and the default `sort` order of strings.

Code that changes state step by step is written imperatively, each part proved
against a specification function:

- The `<mark>` loop is `Highlight.ParseMarks`, and the bold pass is
  `Highlight.ApplyPosition` / `Highlight.ApplyPositions`.
- The checksum loop is `Checksum.ToChecksumAddress`.
- The search box is the class `SearchInput.SearchBox`. Its state is tied to
  the event function `SearchInput.Step`.
- The external table's pagination state is the class
  `ExternalTransactionsTable.ExternalTransactionsTable`.
- The graph container's dimensions are the class `NeighborGraph.GraphContainer`.

Rendering is modelled as data: sections, rows, cells and footers.

Two behaviours of the code worth noting:

- **Status 1000 with a non-empty query** (`src/feat/search/search-results-list.tsx:339-344`):
  nothing at all is drawn. Status 1000 is one of the codes the last branch excludes,
  so it does not fall back to the no-match message.
- **Match positions** (`src/feat/search/highlight-text.tsx:95`): the highlighter reads
  `match_positions`, while the type at `src/types/query-result.ts:4` declares `match_position`.
  The model follows the highlighter.

## Model

| member | source | states |
|---|---|---|
| JsString.Substring | src/feat/address/external-transactions-table.tsx:46-48 | `substring` on in-range arguments is the slice; the result is never longer than the input |
| JsString.SubstringFrom | src/feat/graph/neighbor-graph.tsx:40-42 | `substring(start)` is the suffix from `start`, the whole text for a negative start, empty past the end |
| JsString.IndexOfSpec | src/feat/search/highlight-text.tsx:40-41 | `indexOf` returns the first occurrence at or after the clamped start, or -1 exactly when there is none |
| JsString.ContainsIff | src/feat/search/highlight-text.tsx:32 | `includes` holds exactly when the pattern occurs somewhere |
| JsString.ToLower | src/lib/utils.ts:20 | lower-casing keeps the length and maps each character on its own |
| JsString.DecimalRoundTrip | src/feat/search/search-results-list.tsx:152 | the decimal text of a block number reads back as that number |
| JsString.DecimalInjective | src/feat/tx/tx-internal-tx-table.tsx:201 | two numbers with the same decimal text are equal, so index-based row ids never collide |
| JsString.SortStrings | src/lib/query-options.ts:103-107 | the default `sort` yields a sorted permutation of its input |
| JsString.SortIgnoresOrder | src/lib/query-options.ts:103-107 | sorting two permutations of one list gives the same list |
| JsString.SortedUnique | src/lib/query-options.ts:103-107 | two sorted lists with the same elements are equal |
| JsString.LexLeqTotal | src/lib/query-options.ts:106 | the string order of `sort` compares any two strings |
| JsString.LexLeqAntisymmetric | src/lib/query-options.ts:106 | strings ordered both ways are equal |
| JsString.LexLeqTransitive | src/lib/query-options.ts:106 | the string order is transitive |
| Highlight.ParseMarks | src/feat/search/highlight-text.tsx:38-85 | the `<mark>` loop yields the segments of its reading of `matched_value`, counts their text length in `textLengthForPositions` and advances the key counter once per segment |
| Highlight.ParseStep | src/feat/search/highlight-text.tsx:61-82 | one round on a closed tag pair pushes the prefix and the highlighted text, then continues after `</mark>` |
| Highlight.ParseKeys | src/feat/search/highlight-text.tsx:47-81 | every segment the parser pushes is keyed `mark-i` at position i and is not bold |
| Highlight.ParseEncoded | src/feat/search/highlight-text.tsx:38-85 | round trip: reading well-formed marked text returns each non-empty plain stretch as a plain segment and each hit as a highlighted one, then the tail verbatim (tags included) when its `<mark>` is never closed |
| Highlight.ParsedText | src/feat/search/highlight-text.tsx:38-85 | the parsed segments spell `matched_value` with every matched tag pair removed |
| Highlight.Decompose | src/feat/search/highlight-text.tsx:37-82 | every string is well-formed marked text: cut at each first `<mark>` and the first `</mark>` after it, it is runs of plain text and a hit free of tags, then a tail whose `<mark>` is never closed |
| Highlight.MarkedText | src/feat/search/highlight-text.tsx:37-82 | for every `matched_value`, the parsed segments are those of its decomposition and spell it with each matched tag pair removed |
| Highlight.ExpectedText | src/feat/search/highlight-text.tsx:40-82 | the text of the expected segments is the input with the tag pairs taken out |
| Highlight.ParseTail | src/feat/search/highlight-text.tsx:39-60 | a rest with no `<mark>`, or with an unclosed one, becomes one plain segment, or nothing when empty |
| Highlight.FirstRun | src/feat/search/highlight-text.tsx:40-82 | reading text that starts with a well-formed run consumes exactly that run |
| Highlight.FindAfter | src/feat/search/highlight-text.tsx:50-51 | the first `</mark>` after a hit free of `</mark>` is the one that ends it |
| Highlight.RunSegments | src/feat/search/highlight-text.tsx:61-81 | a run gives one segment, or two when its plain stretch is non-empty |
| Highlight.CellsSpellText | src/feat/search/highlight-text.tsx:150-165 | the per-character view of the segments spells their text |
| Highlight.MarkBoldClamp | src/feat/search/highlight-text.tsx:102-104 | only the part of a range inside the text counts, and an empty or inverted clamped range changes nothing |
| Highlight.SplitCells | src/feat/search/highlight-text.tsx:115-138 | cutting a segment at a and b and bolding the middle bolds exactly characters [a, b) and keeps text and `highlighted` |
| Highlight.SplitSegment | src/feat/search/highlight-text.tsx:109-143 | a segment the range misses is kept; one it meets becomes non-empty lead, bold middle and non-empty trail pieces with fresh `split-n` keys, whose characters are the segment's with the range bold |
| Highlight.ApplyPosition | src/feat/search/highlight-text.tsx:101-145 | one position bolds exactly the characters of its clamped range across the segments, keeps keys distinct, and creates no empty segment |
| Highlight.PositionCells | src/feat/search/highlight-text.tsx:106-143 | the text cursor's invariant: the segments so far are the earlier ones with the range bold |
| Highlight.PositionKeys | src/feat/search/highlight-text.tsx:106-143 | appending one segment's pieces keeps the keys distinct and every split key below the counter |
| Highlight.BoldAllAt | src/feat/search/highlight-text.tsx:101-145 | after the bold pass a character keeps its text and `highlighted` flag, and is bold exactly when it already was or some position's clamped range covers it |
| Highlight.BoldAllIgnoresOrder | src/feat/search/highlight-text.tsx:95-98 | the bold pass gives the same result for any order of the positions |
| Highlight.SortByStart | src/feat/search/highlight-text.tsx:95-98 | the positions are sorted by start into a fresh permutation of the input list |
| Highlight.ApplyPositions | src/feat/search/highlight-text.tsx:100-147 | the bold pass over the sorted positions equals the reference `BoldAll`, keeps keys distinct and adds no empty segment |
| Highlight.BaseSegments | src/feat/search/highlight-text.tsx:86-92 | without marks, the base is the original text as one plain, non-bold segment keyed `base-0` |
| Highlight.TextLengthForPositions | src/feat/search/highlight-text.tsx:28-90 | the length the positions index into is the total text length of the base segments, and the original text's length when there are no marks |
| Highlight.HighlightText | src/feat/search/highlight-text.tsx:14-165 | with no match info the original text is shown unchanged; otherwise every character of the base reading is bold exactly when a clamped position covers it, whatever the position order, and the React keys are distinct |
| Checksum.Body | src/lib/utils.ts:11-20 | the body of a valid address is its 40 hex digits |
| Checksum.HexValueOfHexChar | src/lib/utils.ts:23-28 | a nibble printed in hex parses back to itself |
| Checksum.DigestHex | src/lib/utils.ts:23 | the hash text is `0x` and one lowercase hex digit per nibble |
| Checksum.StripIsBody | src/lib/utils.ts:20 | lower-casing and dropping the first `0x` leaves the lowercase body |
| Checksum.StripDigest | src/lib/utils.ts:23 | dropping `0x` from the hash text leaves 64 digits whose values are the nibbles |
| Checksum.ToChecksumAddress | src/lib/utils.ts:10-36 | the loop computes the checksummed form, and an input that fails the format test comes back unchanged |
| Checksum.ChecksumShape | src/lib/utils.ts:20-34 | a valid input gives `0x` and 40 hex digits, 42 characters, itself a valid address |
| Checksum.ChecksumCasing | src/lib/utils.ts:22-33 | body character i is upper-case exactly when it is a letter and hash nibble i is 8 or more; otherwise it is the lowercase input character |
| Checksum.ChecksumKeepsDigits | src/lib/utils.ts:28-33 | decimal digits of the body are never altered |
| Checksum.ChecksumLowered | src/lib/utils.ts:20-34 | lower-casing the result gives `0x` and the lowercase body of the input |
| Checksum.ChecksumIgnoresCase | src/lib/utils.ts:20-23 | inputs that agree on the lowercase body, whatever their case or prefix, give the same output |
| Checksum.ChecksumIdempotent | src/lib/utils.ts:11-34 | checksumming a checksummed address returns it unchanged |
| QueryKeys.ContextEntries | src/lib/query-options.ts:104-105 | one `b_address-t1_block_number` entry per context item, in order |
| QueryKeys.OptionsFor | src/lib/query-options.ts:22-166 | every builder's `queryFn` sends exactly the request its parameters describe, and its key starts with the tag of that kind |
| QueryKeys.TagsDistinct | src/lib/query-options.ts:24-148 | no two kinds of request share a tag |
| QueryKeys.KeyIdentifiesRequest | src/lib/query-options.ts:22-92 | apart from the neighbour queries, two keys are equal exactly when the requests are equal, so a different page or page size gives a different key |
| QueryKeys.ContextKeyEntries | src/lib/query-options.ts:103-107 | the context key lists one entry per context item, duplicates kept, sorted |
| QueryKeys.EntriesPermute | src/lib/query-options.ts:104-105 | reordering the context reorders its entries |
| QueryKeys.ContextKeyOrderFree | src/lib/query-options.ts:103-144 | the context key does not depend on the order of `interactions_context` |
| QueryKeys.NeighborKeysEqual | src/lib/query-options.ts:95-166 | two neighbour keys are equal exactly when the kinds and all scalar parameters agree and the contexts have the same entries up to order |
| QueryKeys.NeighborKindsApart | src/lib/query-options.ts:111-148 | external and internal neighbour keys never coincide |
| Dropdown.MapRows | src/feat/search/search-results-list.tsx:267-269 | one row per item, in order, each drawn by the kind's renderer |
| Dropdown.CategorySectionsShown | src/feat/search/search-results-list.tsx:261-312 | each category section shows exactly when its list is non-empty, and the no-match message exactly when all four are empty |
| Dropdown.CategoryShown | src/feat/search/search-results-list.tsx:261-312 | a single category's section is present exactly when that category's list is non-empty |
| Dropdown.FallbackRows | src/feat/search/search-results-list.tsx:326-328 | the suggestion list has at most one row per item |
| Dropdown.FallbackDispatch | src/feat/search/search-results-list.tsx:178-194 | an item dispatches on `type` to the transaction, address, label or block renderer, and any other type draws nothing |
| Dropdown.FallbackRowsFrom | src/feat/search/search-results-list.tsx:178-194 | every suggestion row comes from some item; no row shows when no type is known, and one per item when every item renders |
| Dropdown.FallbackRowsInOrder | src/feat/search/search-results-list.tsx:326-328 | when every item renders, the rows keep the items' order: row k is the k-th item's row |
| Dropdown.FallbackRowsOne | src/feat/search/search-results-list.tsx:178-194 | a single item gives its row when its type renders and nothing otherwise |
| Dropdown.FallbackRowsConcat | src/feat/search/search-results-list.tsx:326-328 | the rows of two item lists are the first list's rows followed by the second's, so the rows are the in-order filter of the items that render |
| SearchResults.MatchFor | src/feat/search/search-results-list.tsx:40-63 | a field is given the match info exactly when `matched_field` names it, and then the item's own |
| SearchResults.LoadingThenError | src/feat/search/search-results-list.tsx:234-242 | loading shows only the skeleton, an error (when not loading) only the failure message; otherwise neither shows |
| SearchResults.CategoriesOnly | src/feat/search/search-results-list.tsx:261-312 | the category block holds only category lists and the no-match message |
| SearchResults.NonEmptyQuery | src/feat/search/search-results-list.tsx:245-344 | with a non-empty query, 1001 shows the categories, 1002 the suggestions or no-match, 9999 the recommendations, 1000 nothing, and any other code, a missing one included, no-match |
| SearchResults.EmptyQuery | src/feat/search/search-results-list.tsx:245-339 | with an empty query, 1000 or 9999 shows the recommendation block and any other code nothing |
| SearchResults.ResultPartsOnly | src/feat/search/search-results-list.tsx:258-346 | the prefix-hit, fallback and other-status cases never show the skeleton, the failure message or any recommendation section |
| SearchResults.RecommendationsShown | src/feat/search/search-results-list.tsx:245-256 | the recommendation list shows exactly when asked for (empty query and 1000, or 9999) with a non-empty list; "no recommendations" shows exactly when asked for with an empty or absent list |
| SearchResults.ClickValues | src/feat/search/search-results-list.tsx:32-152 | a click emits the hash, the checksummed address of an address or label, or the block number in decimal, which reads back as the number |
| SearchResults.RowHighlighting | src/feat/search/search-results-list.tsx:40-161 | transaction, address and block rows highlight only the field the match names, so at most one; a label row always passes its match info |
| SearchResults.LabelText | src/feat/search/search-results-list.tsx:118 | a label row shows the first non-empty of `display`, `name` and `label`, and `label` when all are empty |
| SearchInput.StepSettled | src/feat/search/search-input.tsx:27-72 | every event keeps the debounce invariant: a pending timer holds the current non-empty input, and with none pending the debounced value is the input |
| SearchInput.RunSettled | src/feat/search/search-input.tsx:27-41 | every reachable state keeps the debounce invariant |
| SearchInput.ClearIsImmediate | src/feat/search/search-input.tsx:29-32 | clearing the input clears the debounced value at once and leaves no timer |
| SearchInput.TimerStoresCurrentInput | src/feat/search/search-input.tsx:35-40 | from any reachable state a firing timer stores the current input, never a stale one, and changes nothing else |
| SearchInput.ChangeReschedules | src/feat/search/search-input.tsx:35-40 | a change to a new non-empty value replaces any pending timer with one for that value and leaves the debounced value as it was |
| SearchInput.ClickSettles | src/feat/search/search-input.tsx:68-72 | a click sets the input and the debounced value to the clicked value, closes the dropdown, and the timer it triggers stores that same value |
| SearchInput.OutsideClickEvicts | src/feat/search/search-input.tsx:75-92 | an outside click unfocuses and evicts exactly the key `["search", "", 5]`, keeping every other cached key |
| SearchInput.EvictedIsEmptySearch | src/feat/search/search-input.tsx:24-85 | the evicted key is the box's own query key exactly when the debounced value is empty |
| SearchInput.LoadNeedsFocus | src/feat/search/search-input.tsx:44-51 | the query is enabled only while the box is focused; a load is modelled as completing at once, under the current key `["search", debounced, 5]` |
| SearchInput.SearchBox.constructor | src/feat/search/search-input.tsx:18-21 | the box starts empty, unfocused, with no timer and nothing cached |
| SearchInput.SearchBox.Focus | src/feat/search/search-input.tsx:65 | focusing sets the state the focus event gives |
| SearchInput.SearchBox.InputChange | src/feat/search/search-input.tsx:27-41 | an input change sets the input and re-runs the debounce effect as the step function says |
| SearchInput.SearchBox.TimerFires | src/feat/search/search-input.tsx:35-37 | the timer copies the pending value into the debounced value |
| SearchInput.SearchBox.ItemClick | src/feat/search/search-input.tsx:68-72 | a click sets the input and the debounced value and closes the dropdown |
| SearchInput.SearchBox.OutsideClick | src/feat/search/search-input.tsx:75-92 | an outside click unfocuses and evicts the recommendations' key |
| SearchInput.SearchBox.QueryLoaded | src/feat/search/search-input.tsx:44-51 | the query is enabled only while the box is focused; a load completes at once and caches the box's current key |
| SearchInput.DropdownNeedsFocus | src/feat/search/search-input.tsx:187-204 | the dropdown shows exactly while focused; pending wins over error |
| SearchInput.EmptyQueryRecommends | src/feat/search/search-input.tsx:207-225 | with an empty debounced query the recommendations or "no recommendations" show, whatever the status code |
| SearchInput.NonEmptyQueryBlocks | src/feat/search/search-input.tsx:228-315 | with a non-empty query exactly one block shows: 1001 the categories, 1002 the suggestions or no-match, any other code no-match |
| SearchInput.ClickValues | src/feat/search/search-input.tsx:98-147 | a click here emits the raw hash, the address as sent, or the block number in decimal |
| SearchInput.NoHighlighting | src/feat/search/search-input.tsx:95-157 | this box's rows never carry match highlighting |
| TxCells.AbbreviateShape | src/feat/address/external-transactions-table.tsx:46-48 | the short form is the first six characters, `...` and the last four: 13 characters for a text of ten or more |
| TxCells.AbbreviateIdempotent | src/feat/address/external-transactions-table.tsx:46-48 | abbreviating a long text twice is abbreviating it once |
| TxCells.AddressCellShape | src/feat/address/external-transactions-table.tsx:96-112 | an address cell links to the checksummed address, which equals the input's body up to case, and shows its first six and last four characters |
| TxCells.NullableFallback | src/feat/address/external-transactions-table.tsx:117-136 | a missing or empty address shows the placeholder and any other shows the address link |
| TxCells.BlockCellRoundTrip | src/feat/address/external-transactions-table.tsx:63-74 | a block link carries the number in decimal, which reads back as the number |
| TxCells.PagerGuards | src/feat/address/internal-transactions-table.tsx:262-289 | the footer shows exactly when there are pages; an enabled previous asks for a page of at least 1 and an enabled next for one of at most `pageCount`; nothing is clickable while fetching |
| TxCells.TableBody | src/feat/address/internal-transactions-table.tsx:230-256 | the body is the empty message exactly when there are no items, and otherwise one row per item in order |
| TxCells.RowIdsDistinct | src/feat/address/internal-transactions-table.tsx:235 | default row ids are equal exactly when the positions are |
| InternalTransactionsTable.MillisRoundTrip | src/feat/address/internal-transactions-table.tsx:83-85 | the milliseconds are a multiple of 1000 and divide back to the seconds |
| InternalTransactionsTable.Paging | src/feat/address/internal-transactions-table.tsx:194-289 | the table gets `currentPage - 1`; the footer shows exactly when `pageCount > 0` and names `currentPage`; enabled buttons stay within `[1, pageCount]`; both are disabled while fetching and never spin |
| InternalTransactionsTable.Rows | src/feat/address/internal-transactions-table.tsx:43-256 | missing or empty data shows "无结果。"; otherwise one row per transaction with distinct position keys, whose time cell holds the transaction's timestamp as whole milliseconds that read back to it, where a missing receiver shows "未知" and a missing contract "-" |
| BlockTxTable.Paging | src/feat/block/block-tx-table.tsx:171-271 | the table gets `currentPage - 1`; the footer shows exactly when `pageCount > 0`; enabled buttons stay within `[1, pageCount]`; while fetching both are disabled and spin |
| BlockTxTable.Rows | src/feat/block/block-tx-table.tsx:111-234 | missing or empty data shows the block's no-transactions message; otherwise one row per transaction, two rows sharing a key exactly when their hashes agree, and a missing receiver shows the contract-creation marker |
| TxInternalTxTable.Paging | src/feat/tx/tx-internal-tx-table.tsx:158-264 | the table gets `currentPage - 1`; the footer shows exactly when `pageCount > 0`; enabled buttons stay within `[1, pageCount]`; while fetching both are disabled and spin |
| TxInternalTxTable.Rows | src/feat/tx/tx-internal-tx-table.tsx:102-222 | missing or empty data shows "无内部交易记录。"; otherwise a row is keyed by its `uniqueId`, or its position when it has none, so rows without ids never share a key; a missing receiver shows "未知" |
| ExternalTransactionsTable.PageCountSpec | src/feat/address/external-transactions-table.tsx:181-183 | the page count is the least number of pages of `pageSize` rows holding `total` rows; it is 0 without a valid page size, and positive exactly when there are rows |
| ExternalTransactionsTable.PagingSteps | src/feat/address/external-transactions-table.tsx:164-306 | an enabled previous or next moves exactly one page; the requested 1-based page stays in `[1, pageCount]`; a disabled move changes nothing; the page size never changes |
| ExternalTransactionsTable.RenderRules | src/feat/address/external-transactions-table.tsx:177-312 | missing data is an empty table with no footer; the footer shows exactly when the page count is positive and names page `pageIndex + 1`; both buttons are disabled while loading; the table proper shows only when neither loading nor failed, and a failure always has a message |
| ExternalTransactionsTable.Rows | src/feat/address/external-transactions-table.tsx:40-280 | the table proper is the no-results message exactly when the page has no transactions; otherwise one row per transaction with distinct position keys, hash and block links first, and `合约创建` exactly when the receiver is missing or empty |
| ExternalTransactionsTable.FooterMoves | src/feat/address/external-transactions-table.tsx:287-306 | from an in-range index, previous is enabled iff not loading and the library can go back, next iff not loading and it can go forward, and an enabled button leads to the page `previousPage`/`nextPage` reaches |
| ExternalTransactionsTable.ExternalTransactionsTable.constructor | src/feat/address/external-transactions-table.tsx:158-162 | the initial pagination is page index 0 with 10 rows |
| ExternalTransactionsTable.ExternalTransactionsTable.PreviousPage | src/feat/address/external-transactions-table.tsx:297-298 | the previous-page move sets the state as the library's clamped `previousPage` does |
| ExternalTransactionsTable.ExternalTransactionsTable.NextPage | src/feat/address/external-transactions-table.tsx:305-306 | the next-page move sets the state as the library's clamped `nextPage` does |
| ExternalTransactionsTable.MovesKeepShape | src/feat/address/external-transactions-table.tsx:158-168 | any sequence of page moves from the initial state keeps the page size 10 and asks for a page of at least 1 |
| NeighborGraph.TruncateAddressSpec | src/feat/graph/neighbor-graph.tsx:38-43 | text under 10 characters is kept; longer text becomes its first six characters, `...` and its last four, 13 characters, which truncation keeps; only text over 13 characters gets shorter |
| NeighborGraph.Styling | src/feat/graph/neighbor-graph.tsx:133-170 | exactly the target node gets the primary colour; a label is the truncated id; node size and link width are never 0, and a link keeps its own non-empty colour |
| NeighborGraph.ResizeAsWrittenAlwaysUpdates | src/feat/graph/neighbor-graph.tsx:62-115 | as written, every positive size is an update, including the size already shown |
| NeighborGraph.ResizeSpec | src/feat/graph/neighbor-graph.tsx:66-71 | the intended handler updates exactly on a positive, different size, leaves the same dimensions as the written one, and keeps the dimensions unmeasured or positive |
| NeighborGraph.GraphContainer.constructor | src/feat/graph/neighbor-graph.tsx:53 | the container starts at `{0, 0}` |
| NeighborGraph.GraphContainer.Measure | src/feat/graph/neighbor-graph.tsx:88-103 | the first measurement is taken only when both sides are positive |
| NeighborGraph.GraphContainer.HandleResize | src/feat/graph/neighbor-graph.tsx:62-78 | as written, a resize callback calls `setDimensions` exactly when its first entry is positive and differs from the `{0, 0}` captured at mount; the dimensions it leaves are those of the intended handler, and stay unmeasured or positive |
| NeighborGraph.DrawsOnceMeasured | src/feat/graph/neighbor-graph.tsx:156-181 | the waiting message shows until the first positive size arrives; then the graph is drawn and stays drawn |

## Left out

- Keccak-256 and `TextEncoder` are not implemented. The hash is a function parameter `keccak` from the ASCII bytes of the body to 32 nibble values. Every checksum property holds for any such function.
- `cn` (class-name merging) is not modelled: it only styles.
- React rendering, TanStack Query caching and TanStack Table internals are not modelled. The model keeps only what these pieces decide:
  - which sections, rows, cells and footers appear;
  - which keys a load completing at once caches;
  - which page is requested.
- The cache is a set of keys; no fetch is modelled.
- The external table's previous/next guards come from the table library. They are modelled as the library defines them for a manual page count: previous from an index above 0, next while `pageIndex + 1 < pageCount`, and indices clamped into `[0, pageCount - 1]`.
- SearchInput.LoadNeedsFocus and SearchInput.SearchBox.QueryLoaded: a fetch is modelled as starting and completing in one step, under the current key and only while the box is focused. In the source, disabling the query on blur or changing the debounced value does not cancel a fetch already running, and its result is still cached under the key it started with. Such a late result is not represented. The removal of `["search", "", 5]` on an outside click is the only eviction the source performs.
- Real debounce timing is not modelled. The 300 ms timer is a pending value and a `TimerFires` event.
- Focus and outside clicks are events, not DOM listeners.
- ResizeObserver, `getBoundingClientRect` and ForceGraph2D are not modelled. Measured sizes are inputs, and the graph is a predicate on positive dimensions.
- JsString.DecimalString: JavaScript numbers are IEEE doubles, while the model's block numbers, transaction indices, page numbers, page counts, totals, timestamps and match positions are mathematical integers. A fractional match position, which `substring` truncates, is not represented. The model agrees with the source for integers below 2^53, where double arithmetic (`timestamp * 1000`, `Math.ceil(total / pageSize)`, `currentPage ± 1`) is exact, and `toString` agrees below 10^21, from where JavaScript switches to exponent notation (`"1e+21"`).
- Floating-point value formatting is not modelled: `formatEther`, `toFixed`, the value and fee columns.
- Dates and locale formatting are not modelled: relative times and `toLocaleString`. The internal-transactions table's time cell is modelled as the instant it hands `new Date` (`timestamp * 1000`); the other tables hand `new Date` a date string, whose parsing is not modelled, so their time cells are left out.
- Console output is not modelled: the `console.warn` of `toChecksumAddress` on an invalid address, and the `console.log`/`console.warn`/`console.error` calls of the graph's measure and resize paths. Only the values returned and the state set are.
- JsString and Highlight.HighlightText: strings are sequences of Unicode scalar values, while JavaScript's `length`, `substring`, `indexOf` and default `sort` count UTF-16 code units. Positions, lengths and the order of sorted strings therefore agree with the source only for text inside the Basic Multilingual Plane. For example, in `"😀ab"` the source bolds `"a"` for the range `{2, 3}`, and the model bolds `"b"`; `JsString.SortStrings` also orders a character above U+FFFF after one in U+E000–U+FFFF, where JavaScript orders it before.
- `externalTxQueryOptions` is used by the external table but is not defined in `src/lib/query-options.ts`, so that call is not part of this model. The table's page request (`page = pageIndex + 1`, `page_size`) is modelled instead.
- The backend fetch functions (`search`, `getExternalTx`, …) are not defined in `src/lib/api.ts`. Each `queryFn` is modelled as the request it sends.
- `JSON.stringify` of the sorted context entries is modelled structurally, as the sorted list itself. Serialisation is injective on string arrays, so key equality is unchanged.
- NeighborGraph.NodeVal and NeighborGraph.LinkWidth: `val || 2` and `width || 1` also fall back for `NaN`. Node values and link widths are modelled as reals, where `NaN` does not exist.
- Dropdown.FallbackRow: a fallback item whose `type` and payload disagree draws nothing in the model. The source would pass the payload to the renderer unchecked; the type system of the model keeps the payload and the tag together.
- SearchResults.ListRenderer: the category header texts and icons are not modelled; only the section kind and its rows are.
- Highlight.HighlightText: React's rendering of `<mark>`/`<strong>` elements is reduced to the per-character flags `highlighted` and `bold`.
- Address display components, route components, the router tree, the HTTP client and the Vite configuration are not part of this model.

## Findings

| source | as written | input that shows it | evidently intended | confidence | as-written member | corrected member |
|---|---|---|---|---|---|---|
| src/feat/graph/neighbor-graph.tsx:62-115 | `handleResize` is created once at mount (the effect has an empty dependency list). Its test "size changed" compares with the dimensions captured then, `{0, 0}`, so every positive size counts as a change | a container already shown at 800×600 reported again at 800×600: the handler issues an update | update only when the new size differs from the current dimensions | not executed | NeighborGraph.ResizeAsWrittenAlwaysUpdates | NeighborGraph.ResizeSpec |

=== FILE: block_tx_table.dfy ===
/**
 * The transactions table of a block page (`BlockTxTable`): driven by a
 * `currentPage` prop, rows keyed by transaction hash, page labels replaced by
 * a spinner while fetching.
 */
module BlockTxTable {
  import opened Wrappers
  import opened JsString
  import opened TxCells

  /** A block transaction as the table reads it; the date, value and fee texts are not modelled. */
  datatype BlockTx = BlockTx(hash: string, transactionIndex: nat, from: string, to: Option<string>)

  datatype Props = Props(
    data: Option<seq<BlockTx>>,
    pageCount: int,
    currentPage: int,
    pageSize: int,
    totalTransactions: int,
    isFetching: bool)

  const EmptyMessage := "该区块无交易记录。"

  /** The cells of a row: hash, index, sender, receiver (the contract-creation marker when missing). */
  function Cells(tx: BlockTx, keccak: Keccak): seq<Cell> {
    [HashCell(tx.hash), Text(DecimalString(tx.transactionIndex)), AddressCell(tx.from, keccak),
     NullableAddressCell(tx.to, ContractCreation, keccak)]
  }

  function View(props: Props, keccak: Keccak): TableView {
    TableView(props.currentPage - 1,
              TableBody(props.data.GetOr([]), (tx: BlockTx, i: nat) => tx.hash, tx => Cells(tx, keccak), EmptyMessage),
              PagerFooter(props.pageCount, props.currentPage, props.totalTransactions, props.isFetching, true))
  }

  /**
   * The table is handed `currentPage - 1`; the footer shows exactly when
   * `pageCount > 0`; an enabled previous button asks for `currentPage - 1 >= 1`,
   * an enabled next one for `currentPage + 1 <= pageCount`; while fetching
   * both are disabled and show the spinner instead of their labels.
   */
  lemma Paging(props: Props, keccak: Keccak)
    ensures var v := View(props, keccak);
            && v.pageIndex + 1 == props.currentPage
            && (v.footer.Some? <==> props.pageCount > 0)
            && (v.footer.Some? ==>
                  && (Click(v.footer.value.prev).Some? ==> Click(v.footer.value.prev) == Some(props.currentPage - 1)
                                                           && props.currentPage - 1 >= 1)
                  && (Click(v.footer.value.next).Some? ==> Click(v.footer.value.next) == Some(props.currentPage + 1)
                                                           && props.currentPage + 1 <= props.pageCount)
                  && (v.footer.value.prev.spinner <==> props.isFetching)
                  && (v.footer.value.next.spinner <==> props.isFetching)
                  && (props.isFetching ==> !v.footer.value.prev.enabled && !v.footer.value.next.enabled))
  {
    PagerGuards(props.pageCount, props.currentPage, props.totalTransactions, props.isFetching, true);
  }

  /**
   * Missing or empty data shows the block's no-transactions message; otherwise
   * one row per transaction keyed by its hash (two rows share a key exactly
   * when they share a hash), a missing receiver showing the contract-creation marker.
   */
  lemma Rows(props: Props, keccak: Keccak)
    ensures var b := View(props, keccak).body;
            var data := props.data.GetOr([]);
            && (b == Empty(EmptyMessage) <==> |data| == 0)
            && (b.Rows? ==>
                  && |b.rows| == |data|
                  && (forall i, j :: 0 <= i < |data| && 0 <= j < |data| ==>
                        (b.rows[i].key == b.rows[j].key <==> data[i].hash == data[j].hash))
                  && forall i :: 0 <= i < |data| ==>
                       && b.rows[i].cells[0] == HashCell(data[i].hash)
                       && (b.rows[i].cells[3] == Muted(ContractCreation) <==> data[i].to.None? || data[i].to.value == ""))
  {
    var b := View(props, keccak).body;
    var data := props.data.GetOr([]);
    if b.Rows? {
      forall i | 0 <= i < |data|
        ensures b.rows[i].cells[3] == Muted(ContractCreation) <==> data[i].to.None? || data[i].to.value == ""
      {
        NullableFallback(data[i].to, ContractCreation, keccak);
      }
    }
  }
}

=== FILE: checksum.dfy ===
/**
 * EIP-55 mixed-case checksum addresses (`toChecksumAddress`).
 *
 * Keccak-256 is not modelled: it is the parameter `keccak`, any function from
 * bytes to 64 hexadecimal nibbles. Every property below holds for every such
 * function.
 */
module Checksum {
  import opened JsString

  newtype byte = x: int | 0 <= x < 256
  type Nibble = x: int | 0 <= x < 16
  type Digest = d: seq<Nibble> | |d| == 64 witness seq(64, _ => 0 as Nibble)

  predicate IsHexChar(c: char) {
    IsDigit(c) || 'a' <= c <= 'f' || 'A' <= c <= 'F'
  }

  predicate AllHex(s: string) {
    forall i :: 0 <= i < |s| ==> IsHexChar(s[i])
  }

  /** The test `/^(0x)?[0-9a-f]{40}$/i`: 40 hex digits in either case, optionally after `0x` or `0X`. */
  predicate ValidAddress(s: string) {
    || (|s| == 40 && AllHex(s))
    || (|s| == 42 && s[0] == '0' && (s[1] == 'x' || s[1] == 'X') && AllHex(s[2..]))
  }

  /** The 40 hex digits of a valid address, without its prefix. */
  function Body(s: string): (r: string)
    requires ValidAddress(s)
    ensures |r| == 40 && AllHex(r)
  {
    if |s| == 42 then s[2..] else s
  }

  /** The ASCII bytes of a string of hex digits (`TextEncoder.encode` on such text). */
  function Ascii(s: string): (r: seq<byte>)
    requires AllHex(s)
    ensures |r| == |s|
    ensures forall i :: 0 <= i < |s| ==> r[i] as int == s[i] as int
  {
    seq(|s|, i requires 0 <= i < |s| => s[i] as int as byte)
  }

  /** The lowercase hex digit of a nibble. */
  function HexChar(n: Nibble): (c: char)
    ensures IsHexChar(c) && !IsUpperAscii(c)
  {
    if n < 10 then ('0' as int + n) as char else ('a' as int + n - 10) as char
  }

  /** `parseInt(c, 16)` for a single hex digit of either case. */
  function HexValue(c: char): (n: Nibble)
    requires IsHexChar(c)
  {
    if IsDigit(c) then c as int - '0' as int
    else if 'a' <= c <= 'f' then c as int - 'a' as int + 10
    else c as int - 'A' as int + 10
  }

  lemma HexValueOfHexChar(n: Nibble)
    ensures HexValue(HexChar(n)) == n
  {
  }

  /** The string `keccak256` returns: `0x` and the 64 lowercase hex digits of the digest. */
  function DigestHex(d: Digest): (r: string)
    ensures |r| == 66 && r[..2] == "0x"
    ensures forall i :: 0 <= i < 64 ==> r[i + 2] == HexChar(d[i])
  {
    "0x" + seq(64, i requires 0 <= i < 64 => HexChar(d[i]))
  }

  /** One character of the checksummed body: raised when its hash nibble is 8 or more. */
  function CaseBy(c: char, n: Nibble): char {
    if n >= 8 then ToUpperChar(c) else c
  }

  /**
   * The reference definition: an invalid input is returned as it is; a valid
   * one becomes `0x` followed by its lowercase body with each character cased
   * by the matching nibble of the hash of that body.
   */
  function Checksummed(address: string, keccak: seq<byte> -> Digest): (r: string)
  {
    if !ValidAddress(address) then address
    else
      var body := ToLower(Body(address));
      "0x" + CasedBody(body, keccak(Ascii(body)))
  }

  /** The 40 body characters, each cased by the matching nibble of `d`. */
  function CasedBody(body: string, d: Digest): string
    requires |body| == 40
  {
    seq(40, i requires 0 <= i < 40 => CaseBy(body[i], d[i]))
  }

  /** Appending the next character of `x` to a prefix of it. */
  lemma AppendNext(pre: string, x: string, i: nat, c: char)
    requires i < |x| && c == x[i]
    ensures pre + x[..i] + [c] == pre + x[..i + 1]
  {
    assert x[..i + 1] == x[..i] + [x[i]];
  }

  /** The lowercase body is still 40 hex digits, now with no uppercase letter. */
  lemma LowerBodyHex(s: string)
    requires AllHex(s)
    ensures AllHex(ToLower(s))
    ensures forall i :: 0 <= i < |s| ==> !IsUpperAscii(ToLower(s)[i])
  {
  }

  /** A string `pat + rest` with a two-character `pat` has its first `pat` at index 0. */
  lemma ReplacePrefix(pat: string, rest: string)
    requires |pat| == 2
    ensures ReplaceFirst(pat + rest, pat, "") == rest
  {
    var s := pat + rest;
    assert OccursAt(s, pat, 0);
    IndexOfIs(s, pat, 0, 0);
    assert s[2..] == rest;
  }

  /** Text without the letter `x` holds no `0x`. */
  lemma NoPrefixInside(s: string)
    requires forall i :: 0 <= i < |s| ==> s[i] != 'x'
    ensures ReplaceFirst(s, "0x", "") == s
  {
    forall k | 0 <= k && k + 2 <= |s|
      ensures !OccursAt(s, "0x", k)
    {
      assert s[k + 1] != "0x"[1];
    }
    ContainsIff(s, "0x");
  }

  /** `address.toLowerCase().replace("0x", "")` of a valid address is its lowercase body. */
  lemma StripIsBody(address: string)
    requires ValidAddress(address)
    ensures ReplaceFirst(ToLower(address), "0x", "") == ToLower(Body(address))
  {
    var lower := ToLower(address);
    if |address| == 42 {
      assert lower == "0x" + ToLower(address[2..]);
      ReplacePrefix("0x", ToLower(address[2..]));
    } else {
      NoPrefixInside(lower);
    }
  }

  /** `keccak256(...).replace("0x", "")`: the 64 lowercase digits of the digest. */
  lemma StripDigest(d: Digest)
    ensures var hash := ReplaceFirst(DigestHex(d), "0x", "");
            |hash| == 64 && forall i :: 0 <= i < 64 ==> IsHexChar(hash[i]) && HexValue(hash[i]) == d[i]
  {
    var hex := DigestHex(d);
    assert hex == "0x" + hex[2..];
    ReplacePrefix("0x", hex[2..]);
    forall i | 0 <= i < 64
      ensures IsHexChar(hex[2..][i]) && HexValue(hex[2..][i]) == d[i]
    {
      HexValueOfHexChar(d[i]);
    }
  }

  /**
   * `toChecksumAddress`: the format test, the lowercase body, its hash, and a
   * loop that appends each body character, raised where the hash nibble is 8
   * or more.
   */
  method ToChecksumAddress(address: string, keccak: seq<byte> -> Digest) returns (r: string)
    ensures r == Checksummed(address, keccak)
    ensures !ValidAddress(address) ==> r == address
  {
    if !ValidAddress(address) {
      return address;
    }
    var addr := ReplaceFirst(ToLower(address), "0x", "");
    StripIsBody(address);
    LowerBodyHex(Body(address));
    var d := keccak(Ascii(addr));
    var hash := ReplaceFirst(DigestHex(d), "0x", "");
    StripDigest(d);
    ghost var cased := CasedBody(addr, d);
    var checksumAddress := "0x";
    for i := 0 to |addr|
      invariant checksumAddress == "0x" + cased[..i]
    {
      assert HexValue(hash[i]) == d[i];
      if HexValue(hash[i]) >= 8 {
        AppendNext("0x", cased, i, ToUpperChar(addr[i]));
        checksumAddress := checksumAddress + [ToUpperChar(addr[i])];
      } else {
        AppendNext("0x", cased, i, addr[i]);
        checksumAddress := checksumAddress + [addr[i]];
      }
    }
    assert cased[..|addr|] == cased;
    r := checksumAddress;
  }

  // ---------------------------------------------------------------------------
  // Properties of the checksummed form
  // ---------------------------------------------------------------------------

  /** A valid input gives `0x` and 40 hex digits: 42 characters, itself a valid address. */
  lemma ChecksumShape(address: string, keccak: seq<byte> -> Digest)
    requires ValidAddress(address)
    ensures var r := Checksummed(address, keccak);
            && |r| == 42 && r[..2] == "0x" && AllHex(r[2..]) && ValidAddress(r) && Body(r) == r[2..]
  {
    LowerBodyHex(Body(address));
    var r := Checksummed(address, keccak);
    assert forall i :: 0 <= i < 40 ==> r[2..][i] == r[i + 2];
  }

  /**
   * Character `i` of the checksummed body is an uppercase letter exactly when
   * the input's character `i` is a letter and nibble `i` of the hash of the
   * lowercase body is 8 or more; otherwise it is the lowercase input character.
   */
  lemma ChecksumCasing(address: string, keccak: seq<byte> -> Digest, i: int)
    requires ValidAddress(address) && 0 <= i < 40
    ensures var body := ToLower(Body(address));
            var d := keccak(Ascii(body));
            var r := Checksummed(address, keccak);
            && (IsUpperAscii(r[i + 2]) <==> (IsLowerAscii(body[i]) && d[i] >= 8))
            && (!IsUpperAscii(r[i + 2]) ==> r[i + 2] == body[i])
            && ToLowerChar(r[i + 2]) == body[i]
  {
    LowerBodyHex(Body(address));
    LowerOfUpper(ToLower(Body(address))[i]);
  }

  /** Decimal digits of the body are copied unchanged. */
  lemma ChecksumKeepsDigits(address: string, keccak: seq<byte> -> Digest, i: int)
    requires ValidAddress(address) && 0 <= i < 40 && IsDigit(Body(address)[i])
    ensures Checksummed(address, keccak)[i + 2] == Body(address)[i]
  {
  }

  /** Lowercasing the result gives `0x` and the lowercase body of the input. */
  lemma ChecksumLowered(address: string, keccak: seq<byte> -> Digest)
    requires ValidAddress(address)
    ensures ToLower(Checksummed(address, keccak)) == "0x" + ToLower(Body(address))
  {
    var r := Checksummed(address, keccak);
    ChecksumShape(address, keccak);
    var lowered, expected := ToLower(r), "0x" + ToLower(Body(address));
    assert |lowered| == |expected| == 42;
    forall i | 0 <= i < 42
      ensures lowered[i] == expected[i]
    {
      if i >= 2 {
        ChecksumCasing(address, keccak, i - 2);
      } else {
        assert r[i] == "0x"[i];
      }
    }
  }

  /** The result depends on the lowercase body only: letter case and the `0x`/`0X` prefix do not matter. */
  lemma ChecksumIgnoresCase(a: string, b: string, keccak: seq<byte> -> Digest)
    requires ValidAddress(a) && ValidAddress(b) && ToLower(Body(a)) == ToLower(Body(b))
    ensures Checksummed(a, keccak) == Checksummed(b, keccak)
  {
  }

  /** Checksumming a checksummed address changes nothing. */
  lemma ChecksumIdempotent(address: string, keccak: seq<byte> -> Digest)
    requires ValidAddress(address)
    ensures Checksummed(Checksummed(address, keccak), keccak) == Checksummed(address, keccak)
  {
    var r := Checksummed(address, keccak);
    ChecksumShape(address, keccak);
    ChecksumLowered(address, keccak);
    assert ToLower(Body(r)) == ToLower(Body(address)) by {
      assert ToLower(r) == "0x" + ToLower(Body(r));
    }
    ChecksumIgnoresCase(r, address, keccak);
  }
}

=== FILE: dropdown.dfy ===
/**
 * What the two search dropdowns are made of: the result items a search
 * returns, the rows they are shown as, and the sections of the list.
 * A row records the value a click on it emits and the texts it shows, each
 * with the match information handed to the highlighter (if any).
 */
module Dropdown {
  import opened Wrappers
  import Highlight

  type MatchInfo = Highlight.MatchInfo

  datatype TxItem = TxItem(id: string, hash: string, from: string, to: string, matchInfo: Option<MatchInfo>)
  datatype AddressItem = AddressItem(id: string, address: string, name: string, matchInfo: Option<MatchInfo>)
  datatype LabelItem = LabelItem(id: string, address: string, labelText: string, display: string, name: string,
                                 matchInfo: Option<MatchInfo>)
  datatype BlockItem = BlockItem(id: string, number: nat, miner: string, matchInfo: Option<MatchInfo>)

  /** The record behind a fallback item; its `type` field is kept apart in `FallbackItem`. */
  datatype Shape = TxShape(tx: TxItem) | AddressShape(addr: AddressItem) | LabelShape(lab: LabelItem) | BlockShape(blk: BlockItem)

  datatype FallbackItem = FallbackItem(typ: string, shape: Shape)

  /** The `results` object; every list may be absent. */
  datatype Results = Results(
    recommendations: Option<seq<AddressItem>>,
    transactions: Option<seq<TxItem>>,
    addresses: Option<seq<AddressItem>>,
    labels: Option<seq<LabelItem>>,
    blocks: Option<seq<BlockItem>>,
    fallback: Option<seq<FallbackItem>>)

  datatype QueryResult = QueryResult(statusCode: int, results: Results)

  /** One text of a row and the match information the highlighter gets for it (`None`: shown plain). */
  datatype Field = Field(text: string, matchInfo: Option<MatchInfo>)

  /** A list row: the value its click emits and the texts it shows. */
  datatype Row = Row(click: string, fields: seq<Field>)

  datatype Category = Transactions | Addresses | Labels | Blocks

  /** The blocks a dropdown can show, in the order they appear. */
  datatype Section =
    | Loading
    | LoadFailed
    | Recommendations(rows: seq<Row>)
    | NoRecommendations
    | CategoryList(category: Category, rows: seq<Row>)
    | NoMatch
    | DidYouMean(rows: seq<Row>)

  /** How a component renders each kind of item. */
  datatype Renderer = Renderer(
    txRow: TxItem -> Row,
    addressRow: AddressItem -> Row,
    labelRow: LabelItem -> Row,
    blockRow: BlockItem -> Row)

  /** `list && list.length > 0` */
  predicate NonEmpty<T>(list: Option<seq<T>>) {
    list.Some? && |list.value| > 0
  }

  function MapRows<T>(items: seq<T>, render: T -> Row): (rows: seq<Row>)
    ensures |rows| == |items|
    ensures forall i :: 0 <= i < |items| ==> rows[i] == render(items[i])
  {
    seq(|items|, i requires 0 <= i < |items| => render(items[i]))
  }

  /** One category's section when its list is non-empty, nothing otherwise. */
  function CategorySection<T>(category: Category, list: Option<seq<T>>, render: T -> Row): seq<Section> {
    if NonEmpty(list) then [CategoryList(category, MapRows(list.value, render))] else []
  }

  /**
   * The prefix-hit block (status 1001): the section of each non-empty category
   * in the order transactions, addresses, labels, blocks, and the no-match
   * message when all four are empty.
   */
  function CategorySections(results: Results, r: Renderer): seq<Section> {
    CategorySection(Transactions, results.transactions, r.txRow)
    + CategorySection(Addresses, results.addresses, r.addressRow)
    + CategorySection(Labels, results.labels, r.labelRow)
    + CategorySection(Blocks, results.blocks, r.blockRow)
    + (if !NonEmpty(results.transactions) && !NonEmpty(results.addresses)
          && !NonEmpty(results.labels) && !NonEmpty(results.blocks)
       then [NoMatch] else [])
  }

  /** Whether `results` holds a non-empty list for `category`. */
  predicate HasCategory(results: Results, category: Category) {
    match category
    case Transactions => NonEmpty(results.transactions)
    case Addresses => NonEmpty(results.addresses)
    case Labels => NonEmpty(results.labels)
    case Blocks => NonEmpty(results.blocks)
  }

  /** Whether `sections` holds the list section of category `c`. */
  predicate Shows(sections: seq<Section>, c: Category) {
    exists sec :: sec in sections && sec.CategoryList? && sec.category == c
  }

  /**
   * Under a prefix hit each category's section appears exactly when its list
   * is non-empty; the no-match message appears exactly when all four are
   * empty, and then it is all that is shown.
   */
  lemma CategorySectionsShown(results: Results, r: Renderer)
    ensures forall c: Category :: Shows(CategorySections(results, r), c) <==> HasCategory(results, c)
    ensures NoMatch in CategorySections(results, r) <==> forall c: Category :: !HasCategory(results, c)
    ensures (forall c: Category :: !HasCategory(results, c)) ==> CategorySections(results, r) == [NoMatch]
  {
    forall c: Category
      ensures Shows(CategorySections(results, r), c) <==> HasCategory(results, c)
    {
      CategoryShown(results, r, c);
    }
    var t := CategorySection(Transactions, results.transactions, r.txRow);
    var a := CategorySection(Addresses, results.addresses, r.addressRow);
    var l := CategorySection(Labels, results.labels, r.labelRow);
    var b := CategorySection(Blocks, results.blocks, r.blockRow);
    assert NoMatch !in t + a + l + b;
    if forall c: Category :: !HasCategory(results, c) {
      assert !HasCategory(results, Transactions) && !HasCategory(results, Addresses);
      assert !HasCategory(results, Labels) && !HasCategory(results, Blocks);
    }
  }

  /** One category's section is shown exactly when its list is non-empty. */
  lemma CategoryShown(results: Results, r: Renderer, c: Category)
    ensures Shows(CategorySections(results, r), c) <==> HasCategory(results, c)
  {
    var t := CategorySection(Transactions, results.transactions, r.txRow);
    var a := CategorySection(Addresses, results.addresses, r.addressRow);
    var l := CategorySection(Labels, results.labels, r.labelRow);
    var b := CategorySection(Blocks, results.blocks, r.blockRow);
    var nm: seq<Section> := if !NonEmpty(results.transactions) && !NonEmpty(results.addresses)
                                  && !NonEmpty(results.labels) && !NonEmpty(results.blocks)
                               then [NoMatch] else [];
    assert CategorySections(results, r) == t + a + l + b + nm;
    assert !Shows(nm, c);
    ShowsConcat(t, a, c);
    ShowsConcat(t + a, l, c);
    ShowsConcat(t + a + l, b, c);
    ShowsConcat(t + a + l + b, nm, c);
    SectionShows(Transactions, results.transactions, r.txRow, c);
    SectionShows(Addresses, results.addresses, r.addressRow, c);
    SectionShows(Labels, results.labels, r.labelRow, c);
    SectionShows(Blocks, results.blocks, r.blockRow, c);
  }

  lemma ShowsConcat(s1: seq<Section>, s2: seq<Section>, c: Category)
    ensures Shows(s1 + s2, c) <==> Shows(s1, c) || Shows(s2, c)
  {
    if Shows(s1 + s2, c) {
      var sec :| sec in s1 + s2 && sec.CategoryList? && sec.category == c;
      assert sec in s1 || sec in s2;
    }
    if Shows(s1, c) {
      var sec :| sec in s1 && sec.CategoryList? && sec.category == c;
      assert sec in s1 + s2;
    }
    if Shows(s2, c) {
      var sec :| sec in s2 && sec.CategoryList? && sec.category == c;
      assert sec in s1 + s2;
    }
  }

  lemma SectionShows<T>(category: Category, list: Option<seq<T>>, render: T -> Row, c: Category)
    ensures Shows(CategorySection(category, list, render), c) <==> c == category && NonEmpty(list)
  {
    if c == category && NonEmpty(list) {
      assert CategorySection(category, list, render)[0].category == c;
    }
  }

  /**
   * `renderFallbackItem`: the row for the renderer `type` names, or nothing for
   * any other type. A record whose shape disagrees with its `type` is given no row.
   */
  function FallbackRow(item: FallbackItem, r: Renderer): Option<Row> {
    match item.typ
    case "transaction" => if item.shape.TxShape? then Some(r.txRow(item.shape.tx)) else None
    case "address" => if item.shape.AddressShape? then Some(r.addressRow(item.shape.addr)) else None
    case "label" => if item.shape.LabelShape? then Some(r.labelRow(item.shape.lab)) else None
    case "block" => if item.shape.BlockShape? then Some(r.blockRow(item.shape.blk)) else None
    case _ => None
  }

  /** `type` values the fallback list knows how to render. */
  predicate KnownType(typ: string) {
    typ == "transaction" || typ == "address" || typ == "label" || typ == "block"
  }

  /** The rows of a fallback list: one per item that renders, in order (`null` renders nothing). */
  function FallbackRows(items: seq<FallbackItem>, r: Renderer): (rows: seq<Row>)
    ensures |rows| <= |items|
  {
    if items == [] then [] else RowList(FallbackRow(items[0], r)) + FallbackRows(items[1..], r)
  }

  /** The row an item renders as a list: one row, or none for `null`. */
  function RowList(row: Option<Row>): seq<Row> {
    match row case Some(x) => [x] case None => []
  }

  /** A fallback item of an unknown type never yields a row; a well-shaped one of a known type always does. */
  lemma FallbackDispatch(item: FallbackItem, r: Renderer)
    ensures !KnownType(item.typ) ==> FallbackRow(item, r) == None
    ensures item.typ == "transaction" && item.shape.TxShape? ==> FallbackRow(item, r) == Some(r.txRow(item.shape.tx))
    ensures item.typ == "address" && item.shape.AddressShape? ==> FallbackRow(item, r) == Some(r.addressRow(item.shape.addr))
    ensures item.typ == "label" && item.shape.LabelShape? ==> FallbackRow(item, r) == Some(r.labelRow(item.shape.lab))
    ensures item.typ == "block" && item.shape.BlockShape? ==> FallbackRow(item, r) == Some(r.blockRow(item.shape.blk))
  {
  }

  /** Every fallback row comes from an item, and items with unknown types are skipped. */
  lemma {:induction false} FallbackRowsFrom(items: seq<FallbackItem>, r: Renderer)
    ensures forall row :: row in FallbackRows(items, r) ==> exists i :: 0 <= i < |items| && FallbackRow(items[i], r) == Some(row)
    ensures (forall i :: 0 <= i < |items| ==> !KnownType(items[i].typ)) ==> FallbackRows(items, r) == []
    ensures (forall i :: 0 <= i < |items| ==> FallbackRow(items[i], r).Some?) ==> |FallbackRows(items, r)| == |items|
    decreases |items|
  {
    if items != [] {
      FallbackRowsFrom(items[1..], r);
      var head := RowList(FallbackRow(items[0], r));
      assert FallbackRows(items, r) == head + FallbackRows(items[1..], r);
      forall row | row in FallbackRows(items, r)
        ensures exists i :: 0 <= i < |items| && FallbackRow(items[i], r) == Some(row)
      {
        if row in FallbackRows(items[1..], r) {
          var j :| 0 <= j < |items[1..]| && FallbackRow(items[1..][j], r) == Some(row);
          assert items[j + 1] == items[1..][j];
        } else {
          assert FallbackRow(items[0], r) == Some(row);
        }
      }
      if forall i :: 0 <= i < |items| ==> FallbackRow(items[i], r).Some? {
        assert forall i :: 0 <= i < |items[1..]| ==> items[1..][i] == items[i + 1];
      }
      if forall i :: 0 <= i < |items| ==> !KnownType(items[i].typ) {
        assert forall i :: 0 <= i < |items[1..]| ==> items[1..][i] == items[i + 1];
        FallbackDispatch(items[0], r);
      }
    }
  }

  /** When every item renders, the rows keep the items' order: row k is the k-th item's row. */
  lemma {:induction false} FallbackRowsInOrder(items: seq<FallbackItem>, r: Renderer)
    ensures (forall i :: 0 <= i < |items| ==> FallbackRow(items[i], r).Some?) ==>
              && |FallbackRows(items, r)| == |items|
              && forall k :: 0 <= k < |items| ==> Some(FallbackRows(items, r)[k]) == FallbackRow(items[k], r)
    decreases |items|
  {
    if items != [] && forall i :: 0 <= i < |items| ==> FallbackRow(items[i], r).Some? {
      assert forall i :: 0 <= i < |items[1..]| ==> items[1..][i] == items[i + 1];
      FallbackRowsInOrder(items[1..], r);
      var row := FallbackRow(items[0], r).value;
      assert FallbackRows(items, r) == [row] + FallbackRows(items[1..], r);
      forall k | 0 <= k < |items|
        ensures Some(FallbackRows(items, r)[k]) == FallbackRow(items[k], r)
      {
        if k > 0 {
          assert items[k] == items[1..][k - 1];
        }
      }
    }
  }

  /** One item gives its row, or nothing when it does not render. */
  lemma FallbackRowsOne(item: FallbackItem, r: Renderer)
    ensures FallbackRow(item, r).Some? ==> FallbackRows([item], r) == [FallbackRow(item, r).value]
    ensures FallbackRow(item, r).None? ==> FallbackRows([item], r) == []
  {
    assert [item][1..] == [];
  }

  /**
   * The rows of two lists are the rows of the first followed by those of the
   * second; with `FallbackRowsOne` this makes the rows the in-order filter of
   * the items that render.
   */
  lemma {:induction false} FallbackRowsConcat(a: seq<FallbackItem>, b: seq<FallbackItem>, r: Renderer)
    ensures FallbackRows(a + b, r) == FallbackRows(a, r) + FallbackRows(b, r)
    decreases |a|
  {
    if a != [] {
      var head := RowList(FallbackRow(a[0], r));
      assert (a + b)[0] == a[0];
      assert (a + b)[1..] == a[1..] + b;
      assert FallbackRows(a + b, r) == head + FallbackRows(a[1..] + b, r);
      FallbackRowsConcat(a[1..], b, r);
      assert FallbackRows(a, r) == head + FallbackRows(a[1..], r);
    } else {
      assert a + b == b;
    }
  }
}

=== FILE: external_transactions_table.dfy ===
/**
 * The external-transactions table of an address page
 * (`ExternalTransactionsTable`). Unlike the other tables it owns its
 * pagination: a 0-based `pageIndex` and a `pageSize` it keeps as state and
 * changes through the table library's `previousPage`/`nextPage`, and it
 * fetches the 1-based page `pageIndex + 1` itself.
 *
 * The table library's pagination for a manual, known page count is modelled
 * as that library defines it: previous is possible from an index above 0,
 * next while `pageIndex + 1 < pageCount`, and a new index is clamped into
 * `[0, pageCount - 1]` (to 0 when there is no page).
 */
module ExternalTransactionsTable {
  import opened Wrappers
  import opened JsString
  import opened TxCells

  /** An external transaction as the table reads it; the date and value texts are not modelled. */
  datatype ExternalTx = ExternalTx(hash: string, blockNumber: nat, fromAddress: string, toAddress: Option<string>)

  /** The `data` of a fetched page. */
  datatype TxPage = TxPage(transactions: seq<ExternalTx>, total: int)

  /** `PaginationState` */
  datatype Pagination = Pagination(pageIndex: int, pageSize: int)

  const InitialPagination := Pagination(0, 10)
  const EmptyMessage := "无结果。"
  const UnknownError := "未知错误"

  /** `Math.ceil(a / b)` for integers and `b > 0`. */
  function CeilDiv(a: int, b: int): int
    requires b > 0
  {
    -((-a) / b)
  }

  /** `pageSize > 0 ? Math.ceil(total / pageSize) : 0` */
  function PageCount(total: int, pageSize: int): int {
    if pageSize > 0 then CeilDiv(total, pageSize) else 0
  }

  /**
   * The page count is the least number of pages of `pageSize` rows that
   * hold `total` rows: the last page is neither empty nor overfull. With no
   * rows, or no valid page size, there is no page.
   */
  lemma PageCountSpec(total: int, pageSize: int)
    ensures pageSize > 0 ==> var n := PageCount(total, pageSize);
                             (n - 1) * pageSize < total <= n * pageSize
    ensures pageSize <= 0 ==> PageCount(total, pageSize) == 0
    ensures pageSize > 0 && total >= 0 ==>
              PageCount(total, pageSize) >= 0 && (PageCount(total, pageSize) > 0 <==> total > 0)
  {
    if pageSize > 0 {
      var q, m := (-total) / pageSize, (-total) % pageSize;
      assert -total == q * pageSize + m && 0 <= m < pageSize;
      var n := PageCount(total, pageSize);
      assert n == -q;
      assert n * pageSize == total + m by {
        assert n * pageSize == -(q * pageSize);
      }
      assert (n - 1) * pageSize == total + m - pageSize;
      if total >= 0 {
        assert n * pageSize >= 0;
        if total > 0 {
          assert n > 0;
        } else {
          assert n * pageSize < pageSize;
          assert n < 1;
        }
      }
    }
  }

  /**
   * The index the library settles on when asked for index `i`. The library
   * leaves the index unclamped for a page count of -1 ("unknown"); that count
   * does not arise here, since totals are non-negative and the page size stays 10.
   */
  function ClampIndex(i: int, pageCount: int): int {
    Max(0, Min(i, pageCount - 1))
  }

  predicate CanPreviousPage(p: Pagination) {
    p.pageIndex > 0
  }

  predicate CanNextPage(p: Pagination, pageCount: int) {
    p.pageIndex + 1 < pageCount
  }

  /** `table.previousPage()` */
  function PrevPagination(p: Pagination, pageCount: int): Pagination {
    p.(pageIndex := ClampIndex(p.pageIndex - 1, pageCount))
  }

  /** `table.nextPage()` */
  function NextPagination(p: Pagination, pageCount: int): Pagination {
    p.(pageIndex := ClampIndex(p.pageIndex + 1, pageCount))
  }

  /** `page: pageIndex + 1`: the page the table asks the backend for. */
  function RequestedPage(p: Pagination): int {
    p.pageIndex + 1
  }

  /**
   * An enabled previous or next moves exactly one page, the index stays
   * within `[0, pageCount - 1]` whenever there are pages, so the page asked
   * for stays within `[1, pageCount]`; the page size never changes.
   */
  lemma PagingSteps(p: Pagination, pageCount: int)
    requires 0 <= p.pageIndex < pageCount
    ensures CanPreviousPage(p) ==> PrevPagination(p, pageCount).pageIndex == p.pageIndex - 1
    ensures CanNextPage(p, pageCount) ==> NextPagination(p, pageCount).pageIndex == p.pageIndex + 1
    ensures 1 <= RequestedPage(PrevPagination(p, pageCount)) <= pageCount
    ensures 1 <= RequestedPage(NextPagination(p, pageCount)) <= pageCount
    ensures PrevPagination(p, pageCount).pageSize == p.pageSize == NextPagination(p, pageCount).pageSize
    ensures !CanNextPage(p, pageCount) ==> NextPagination(p, pageCount) == p
    ensures !CanPreviousPage(p) ==> PrevPagination(p, pageCount) == p
  {
  }

  /** What the table draws. */
  datatype View = View(
    skeletonRows: Option<nat>,  // the loading skeleton and its number of rows
    error: Option<string>,      // the failure message
    body: Option<Body>,         // the table proper
    footer: Option<Footer>)

  function Cells(tx: ExternalTx, keccak: Keccak): seq<Cell> {
    [HashCell(tx.hash), BlockCell(tx.blockNumber), AddressCell(tx.fromAddress, keccak),
     NullableAddressCell(tx.toAddress, ContractCreation, keccak)]
  }

  /** The table proper: one row per transaction, keyed by position, or the no-results message. */
  function TableProper(transactions: seq<ExternalTx>, keccak: Keccak): Body {
    TableBody(transactions, (tx: ExternalTx, i: nat) => RowId(i), tx => Cells(tx, keccak), EmptyMessage)
  }

  /**
   * The table for pagination `p`, the fetched page (if any), the loading and
   * error flags, the error's message, and the hash.
   * Footer buttons carry the 1-based page their click leads to.
   */
  function Render(p: Pagination, data: Option<TxPage>, isLoading: bool, isError: bool,
                  errorMessage: Option<string>, keccak: Keccak): View
  {
    // `Array(pageSize)` throws for a negative size; the size stays 10 (see `MovesKeepShape`).
    var transactions := if data.Some? then data.value.transactions else [];
    var total := if data.Some? then data.value.total else 0;
    var pageCount := PageCount(total, p.pageSize);
    View(
      if isLoading then Some(if p.pageSize >= 0 then p.pageSize else 0) else None,
      if isError then Some(if errorMessage.Some? && errorMessage.value != "" then errorMessage.value else UnknownError)
      else None,
      if !isLoading && !isError
      then Some(TableProper(transactions, keccak))
      else None,
      if pageCount > 0
      then Some(Footer(total, p.pageIndex + 1, pageCount,
                       Button(!(isLoading || !CanPreviousPage(p)), p.pageIndex, false),
                       Button(!(isLoading || !CanNextPage(p, pageCount)), p.pageIndex + 2, false)))
      else None)
  }

  /**
   * Missing data is an empty table with no footer; the footer shows exactly
   * when the page count is positive and names page `pageIndex + 1`; both
   * buttons are disabled while loading; the table proper shows only when
   * neither loading nor failed.
   */
  lemma RenderRules(p: Pagination, data: Option<TxPage>, isLoading: bool, isError: bool,
                    errorMessage: Option<string>, keccak: Keccak)
    ensures var v := Render(p, data, isLoading, isError, errorMessage, keccak);
            var total := if data.Some? then data.value.total else 0;
            && (data.None? && !isLoading && !isError ==> v.body == Some(Empty(EmptyMessage)) && v.footer.None?)
            && (v.footer.Some? <==> PageCount(total, p.pageSize) > 0)
            && (v.footer.Some? ==>
                  v.footer.value.page == RequestedPage(p) && v.footer.value.pageCount == PageCount(total, p.pageSize))
            && (isLoading ==> v.footer.None? || (!v.footer.value.prev.enabled && !v.footer.value.next.enabled))
            && (v.body.Some? <==> !isLoading && !isError)
            && (isError ==> v.error.Some? && v.error.value != "")
  {
  }

  /**
   * When the table proper shows, it is the no-results message exactly when
   * the page has no transactions; otherwise one row per transaction, keyed by
   * its position (so no two rows share a key), whose first cells link the
   * hash and the block, and whose receiver cell reads `合约创建` exactly when
   * the receiver is missing or empty.
   */
  lemma Rows(p: Pagination, data: Option<TxPage>, isLoading: bool, isError: bool,
             errorMessage: Option<string>, keccak: Keccak)
    ensures var v := Render(p, data, isLoading, isError, errorMessage, keccak);
            var txs := if data.Some? then data.value.transactions else [];
            v.body.Some? ==>
              && (v.body.value == Empty(EmptyMessage) <==> |txs| == 0)
              && (v.body.value.Rows? ==>
                    && |v.body.value.rows| == |txs|
                    && (forall i, j :: 0 <= i < |txs| && 0 <= j < |txs| ==>
                          (v.body.value.rows[i].key == v.body.value.rows[j].key <==> i == j))
                    && forall i :: 0 <= i < |txs| ==>
                         && v.body.value.rows[i].cells[0] == HashCell(txs[i].hash)
                         && v.body.value.rows[i].cells[1] == BlockCell(txs[i].blockNumber)
                         && (v.body.value.rows[i].cells[3] == Muted(ContractCreation) <==>
                               txs[i].toAddress.None? || txs[i].toAddress.value == ""))
  {
    var txs := if data.Some? then data.value.transactions else [];
    BodyRows(txs, keccak);
  }

  /** `Rows` for the table proper alone. */
  lemma BodyRows(txs: seq<ExternalTx>, keccak: Keccak)
    ensures var b := TableProper(txs, keccak);
            && (b == Empty(EmptyMessage) <==> |txs| == 0)
            && (b.Rows? ==>
                  && |b.rows| == |txs|
                  && (forall i, j :: 0 <= i < |txs| && 0 <= j < |txs| ==> (b.rows[i].key == b.rows[j].key <==> i == j))
                  && forall i :: 0 <= i < |txs| ==>
                       && b.rows[i].cells[0] == HashCell(txs[i].hash)
                       && b.rows[i].cells[1] == BlockCell(txs[i].blockNumber)
                       && (b.rows[i].cells[3] == Muted(ContractCreation) <==> txs[i].toAddress.None? || txs[i].toAddress.value == ""))
  {
    var b := TableProper(txs, keccak);
    if b.Rows? {
      forall i, j | 0 <= i < |txs| && 0 <= j < |txs|
        ensures b.rows[i].key == b.rows[j].key <==> i == j
      {
        RowIdsDistinct(i, j);
      }
      forall i | 0 <= i < |txs|
        ensures b.rows[i].cells[3] == Muted(ContractCreation) <==> txs[i].toAddress.None? || txs[i].toAddress.value == ""
      {
        NullableFallback(txs[i].toAddress, ContractCreation, keccak);
      }
    }
  }

  /**
   * The footer's buttons agree with the library's moves: from an index within
   * `[0, pageCount - 1]`, previous is enabled exactly when not loading and the
   * library can go back, next exactly when not loading and it can go forward,
   * and an enabled button asks for the 1-based page that `previousPage` or
   * `nextPage` leads to.
   */
  lemma FooterMoves(p: Pagination, data: Option<TxPage>, isLoading: bool, isError: bool,
                    errorMessage: Option<string>, keccak: Keccak)
    requires var total := if data.Some? then data.value.total else 0;
             0 <= p.pageIndex < PageCount(total, p.pageSize)
    ensures var v := Render(p, data, isLoading, isError, errorMessage, keccak);
            var n := PageCount(if data.Some? then data.value.total else 0, p.pageSize);
            && v.footer.Some?
            && (Click(v.footer.value.prev).Some? <==> !isLoading && CanPreviousPage(p))
            && (Click(v.footer.value.next).Some? <==> !isLoading && CanNextPage(p, n))
            && (Click(v.footer.value.prev).Some? ==> Click(v.footer.value.prev).value == RequestedPage(PrevPagination(p, n)))
            && (Click(v.footer.value.next).Some? ==> Click(v.footer.value.next).value == RequestedPage(NextPagination(p, n)))
  {
    var n := PageCount(if data.Some? then data.value.total else 0, p.pageSize);
    PagingSteps(p, n);
  }

  /** The state the component keeps. */
  class ExternalTransactionsTable {
    var pageIndex: int
    var pageSize: int

    function State(): Pagination
      reads this
    {
      Pagination(pageIndex, pageSize)
    }

    /** The initial pagination is page index 0 of 10 rows. */
    constructor ()
      ensures State() == InitialPagination
    {
      pageIndex, pageSize := 0, 10;
    }

    method PreviousPage(pageCount: int)
      modifies this
      ensures State() == PrevPagination(old(State()), pageCount)
    {
      pageIndex := Max(0, Min(pageIndex - 1, pageCount - 1));
    }

    method NextPage(pageCount: int)
      modifies this
      ensures State() == NextPagination(old(State()), pageCount)
    {
      pageIndex := Max(0, Min(pageIndex + 1, pageCount - 1));
    }
  }

  /** From the initial state any sequence of page moves keeps the page size 10 and asks for a page of at least 1. */
  lemma {:induction false} MovesKeepShape(p: Pagination, moves: seq<bool>, pageCount: int)
    requires p.pageIndex >= 0 && p.pageSize == 10
    ensures var q := Moves(p, moves, pageCount); q.pageIndex >= 0 && q.pageSize == 10 && RequestedPage(q) >= 1
    decreases |moves|
  {
    if moves != [] {
      var next := if moves[0] then NextPagination(p, pageCount) else PrevPagination(p, pageCount);
      MovesKeepShape(next, moves[1..], pageCount);
    }
  }

  /** A sequence of clicks: `true` for next, `false` for previous. */
  function Moves(p: Pagination, moves: seq<bool>, pageCount: int): Pagination
    decreases |moves|
  {
    if moves == [] then p
    else Moves(if moves[0] then NextPagination(p, pageCount) else PrevPagination(p, pageCount), moves[1..], pageCount)
  }
}

=== FILE: highlight.dfy ===
/**
 * The search-hit highlighter (`HighlightText`). It reads a backend `matched_value`
 * in which hits are wrapped in `<mark>`…`</mark>`, cuts it into highlighted and
 * plain segments, then re-splits those segments so that the character ranges of
 * `match_positions` are bold. Rendering the segments as React nodes is not
 * modelled; the result here is the list of segments the component maps over.
 */
module Highlight {
  import opened Wrappers
  import opened JsString

  /** One `{start, end}` entry of `match_positions`. */
  datatype Position = Position(start: int, end: int)

  /**
   * The backend's description of a hit. The highlighter reads a field named
   * `match_positions`; the declared type spells it `match_position`, so at run
   * time the field may be absent, which is what `None` stands for.
   */
  datatype MatchInfo = MatchInfo(matchedField: string, matchedValue: string, matchPositions: Option<seq<Position>>)

  /** React keys: `mark-n`, `base-n` and `split-n`. */
  datatype SegmentKey = MarkKey(n: nat) | BaseKey(n: nat) | SplitKey(n: nat)

  datatype Segment = Segment(text: string, highlighted: bool, bold: bool, key: SegmentKey)

  /** What the component renders: the bare text, or the list of segments. */
  datatype Rendering = Plain(text: string) | Segments(segs: seq<Segment>)

  const Open: string := "<mark>"
  const Close: string := "</mark>"

  // ---------------------------------------------------------------------------
  // Views of a segment list: its text, and its characters with their flags
  // ---------------------------------------------------------------------------

  /** The concatenated text of the segments. */
  function Text(segs: seq<Segment>): string
  {
    if segs == [] then [] else Text(segs[..|segs| - 1]) + segs[|segs| - 1].text
  }

  lemma TextAppend(segs: seq<Segment>, s: Segment)
    ensures Text(segs + [s]) == Text(segs) + s.text
  {
    assert (segs + [s])[..|segs|] == segs;
  }

  /** One rendered character with the flags of the segment it sits in. */
  datatype Cell = Cell(ch: char, highlighted: bool, bold: bool)

  /** The cells of a text painted with the given flags. */
  function Paint(text: string, highlighted: bool, bold: bool): (r: seq<Cell>)
    ensures |r| == |text|
  {
    seq(|text|, k requires 0 <= k < |text| => Cell(text[k], highlighted, bold))
  }

  /** The cells of one segment; its key plays no part. */
  function SegCells(s: Segment): (r: seq<Cell>)
    ensures |r| == |s.text|
  {
    Paint(s.text, s.highlighted, s.bold)
  }

  /** The character-by-character view of the segments. */
  function Cells(segs: seq<Segment>): seq<Cell>
  {
    if segs == [] then [] else Cells(segs[..|segs| - 1]) + SegCells(segs[|segs| - 1])
  }

  lemma CellsAppend(segs: seq<Segment>, s: Segment)
    ensures Cells(segs + [s]) == Cells(segs) + SegCells(s)
  {
    assert (segs + [s])[..|segs|] == segs;
  }

  /** The characters of the cell view spell the text of the segments. */
  lemma {:induction false} CellsSpellText(segs: seq<Segment>)
    ensures |Cells(segs)| == |Text(segs)|
    ensures forall k :: 0 <= k < |Text(segs)| ==> Cells(segs)[k].ch == Text(segs)[k]
  {
    if segs != [] {
      CellsSpellText(segs[..|segs| - 1]);
    }
  }

  // ---------------------------------------------------------------------------
  // Step 1: the <mark> parser
  // ---------------------------------------------------------------------------

  /**
   * The segments one tag pair contributes, keyed from `mark-k`: the text before
   * the `<mark>` when there is any, then the text between the tags, highlighted.
   */
  function PairSegments(s: string, ms: int, me: int, k: nat): seq<Segment>
  {
    (if ms > 0 then [Segment(Substring(s, 0, ms), false, false, MarkKey(k))] else [])
    + [Segment(Substring(s, ms + |Open|, me), true, false, MarkKey(k + (if ms > 0 then 1 else 0)))]
  }

  /**
   * The `<mark>` reading of `s`, appended to the segments `acc` already read
   * (keys go on from `mark-|acc|`): a string with no `<mark>`, or whose first
   * `<mark>` has no `</mark>` after it, is one plain segment kept verbatim;
   * otherwise the first tag pair's segments, then the reading of what follows
   * the `</mark>`.
   */
  function Parse(s: string, acc: seq<Segment>): seq<Segment>
    decreases |s|
  {
    if |s| == 0 then acc
    else
      var ms := IndexOf(s, Open, 0);
      var me := if ms == -1 then -1 else IndexOf(s, Close, ms);
      if me == -1 then acc + [Segment(s, false, false, MarkKey(|acc|))]
      else Parse(SubstringFrom(s, me + |Close|), acc + PairSegments(s, ms, me, |acc|))
  }

  /** The segments `matched_value` is cut into. */
  function MarkSegments(s: string): seq<Segment> {
    Parse(s, [])
  }

  /** One round of the reading, when the first `<mark>` has a `</mark>` after it. */
  lemma ParseStep(s: string, acc: seq<Segment>, ms: int, me: int, rest: string, pair: seq<Segment>)
    requires |s| > 0 && ms == IndexOf(s, Open, 0) && ms != -1
    requires me == IndexOf(s, Close, ms) && me != -1
    requires rest == SubstringFrom(s, me + |Close|) && pair == PairSegments(s, ms, me, |acc|)
    ensures Parse(s, acc) == Parse(rest, acc + pair)
  {
  }

  /** Segments keyed `mark-0`, `mark-1`, … in order, none of them bold. */
  predicate MarkKeyed(segs: seq<Segment>) {
    forall i :: 0 <= i < |segs| ==> segs[i].key == MarkKey(i) && !segs[i].bold
  }

  /** Reading keeps the numbering: every segment the parser pushes is `mark-i` at index `i`, and none is bold. */
  lemma {:induction false} ParseKeys(s: string, acc: seq<Segment>)
    requires MarkKeyed(acc)
    ensures MarkKeyed(Parse(s, acc))
    decreases |s|
  {
    if |s| > 0 {
      var ms := IndexOf(s, Open, 0);
      var me := if ms == -1 then -1 else IndexOf(s, Close, ms);
      if me != -1 {
        PairKeyed(s, acc, ms, me);
        ParseKeys(SubstringFrom(s, me + |Close|), acc + PairSegments(s, ms, me, |acc|));
        ParseStep(s, acc, ms, me, SubstringFrom(s, me + |Close|), PairSegments(s, ms, me, |acc|));
      } else {
        assert Parse(s, acc) == acc + [Segment(s, false, false, MarkKey(|acc|))];
        PlainKeyed(s, acc);
      }
    }
  }

  lemma PairKeyed(s: string, acc: seq<Segment>, ms: int, me: int)
    requires MarkKeyed(acc)
    ensures MarkKeyed(acc + PairSegments(s, ms, me, |acc|))
  {
  }

  lemma PlainKeyed(s: string, acc: seq<Segment>)
    requires MarkKeyed(acc)
    ensures MarkKeyed(acc + [Segment(s, false, false, MarkKey(|acc|))])
  {
  }

  /**
   * The parsing loop of `HighlightText`: consumes `remainingMarkedValue` one
   * tag pair at a time, pushing segments keyed `mark-0`, `mark-1`, …, and adds
   * up the lengths of their texts in `currentParsedLength`.
   */
  method ParseMarks(markedValue: string) returns (segs: seq<Segment>, parsedLength: nat, segmentKeyIndex: nat)
    ensures segs == MarkSegments(markedValue)
    ensures parsedLength == |Text(segs)|
    ensures segmentKeyIndex == |segs|
  {
    segs := [];
    parsedLength := 0;
    segmentKeyIndex := 0;
    var remaining := markedValue;
    while |remaining| > 0
      invariant segmentKeyIndex == |segs|
      invariant Parse(remaining, segs) == Parse(markedValue, [])
      invariant parsedLength == |Text(segs)|
      decreases |remaining|
    {
      var markStart := IndexOf(remaining, Open, 0);
      var markEnd := if markStart == -1 then -1 else IndexOf(remaining, Close, markStart);
      if markEnd == -1 {
        // no `<mark>`, or a `<mark>` never closed: the rest is one plain segment
        var seg := Segment(remaining, false, false, MarkKey(segmentKeyIndex));
        TextAppend(segs, seg);
        segs := segs + [seg];
        segmentKeyIndex := segmentKeyIndex + 1;
        parsedLength := parsedLength + |remaining|;
        break;
      }
      ParseStep(remaining, segs, markStart, markEnd, SubstringFrom(remaining, markEnd + |Close|),
                PairSegments(remaining, markStart, markEnd, |segs|));
      segs, parsedLength, segmentKeyIndex := PushPair(segs, parsedLength, remaining, markStart, markEnd);
      remaining := SubstringFrom(remaining, markEnd + |Close|);
    }
  }

  /** The pushes for one tag pair: the prefix when `markStart > 0`, then the highlighted text. */
  method PushPair(segs: seq<Segment>, parsedLength: nat, remaining: string, markStart: int, markEnd: int)
    returns (next: seq<Segment>, nextLength: nat, nextKeyIndex: nat)
    requires parsedLength == |Text(segs)|
    ensures next == segs + PairSegments(remaining, markStart, markEnd, |segs|)
    ensures nextLength == |Text(next)| && nextKeyIndex == |next|
  {
    next, nextLength, nextKeyIndex := segs, parsedLength, |segs|;
    if markStart > 0 {
      var prefix := Segment(Substring(remaining, 0, markStart), false, false, MarkKey(nextKeyIndex));
      TextAppend(next, prefix);
      next := next + [prefix];
      nextKeyIndex := nextKeyIndex + 1;
      nextLength := nextLength + |prefix.text|;
    }
    var hit := Segment(Substring(remaining, markStart + |Open|, markEnd), true, false, MarkKey(nextKeyIndex));
    TextAppend(next, hit);
    next := next + [hit];
    nextKeyIndex := nextKeyIndex + 1;
    nextLength := nextLength + |hit.text|;
  }

  // ---------------------------------------------------------------------------
  // The reading of well-formed marked text, stated independently of the parser
  // ---------------------------------------------------------------------------

  /** A stretch of plain text followed by one `<mark>`-wrapped hit. */
  datatype Run = Run(plain: string, marked: string)

  /** Marked text written out: each run as `plain<mark>marked</mark>`, then the tail. */
  function Encode(runs: seq<Run>, tail: string): string
  {
    if runs == [] then tail else runs[0].plain + Open + runs[0].marked + Close + Encode(runs[1..], tail)
  }

  /** A tail with no `<mark>`, or whose first `<mark>` is never closed. */
  predicate TailUnmatched(t: string) {
    var ms := IndexOf(t, Open, 0);
    ms == -1 || IndexOf(t, Close, ms) == -1
  }

  /** Plain stretches hold no `<mark>` and hits hold no `</mark>`, so every tag pair is a real one. */
  predicate WellFormed(runs: seq<Run>, tail: string) {
    && (forall i :: 0 <= i < |runs| ==> !Contains(runs[i].plain, Open) && !Contains(runs[i].marked, Close))
    && TailUnmatched(tail)
  }

  /** The segments one run stands for, keyed from `mark-k`: its plain stretch when non-empty, then its hit. */
  function RunSegments(run: Run, k: nat): (r: seq<Segment>)
    ensures |r| == if run.plain == [] then 1 else 2
  {
    (if run.plain == [] then [] else [Segment(run.plain, false, false, MarkKey(k))])
    + [Segment(run.marked, true, false, MarkKey(k + (if run.plain == [] then 0 else 1)))]
  }

  /** The segments marked text stands for: the segments of each run, then the tail when non-empty. */
  function Expected(runs: seq<Run>, tail: string, k: nat): seq<Segment>
  {
    if runs == [] then
      (if tail == [] then [] else [Segment(tail, false, false, MarkKey(k))])
    else
      RunSegments(runs[0], k) + Expected(runs[1..], tail, k + |RunSegments(runs[0], k)|)
  }

  /** The text left once every tag pair is taken out. */
  function Stripped(runs: seq<Run>, tail: string): string
  {
    if runs == [] then tail else runs[0].plain + runs[0].marked + Stripped(runs[1..], tail)
  }

  /** Shifting an occurrence past a prefix. */
  lemma OccursShift(a: string, b: string, pat: string, k: int)
    requires 0 <= k
    ensures OccursAt(a + b, pat, |a| + k) <==> OccursAt(b, pat, k)
  {
  }

  /** A pattern whose first character does not recur inside it cannot start in `x` and run into a `y` that begins with that character. */
  lemma NoStraddle(x: string, y: string, pat: string, k: int)
    requires |pat| > 0 && forall j :: 0 < j < |pat| ==> pat[j] != pat[0]
    requires !Contains(x, pat)
    requires |y| > 0 && y[0] == pat[0]
    requires 0 <= k < |x|
    ensures !OccursAt(x + y, pat, k)
  {
    ContainsIff(x, pat);
    if k + |pat| <= |x| {
      assert !OccursAt(x, pat, k);
    } else if k + |pat| <= |x + y| {
      var d := |x| - k;
      assert 0 < d < |pat| && pat[d] != pat[0];
      assert (x + y)[k + d] == y[0];
    }
  }

  /** Behind a `<mark>`, a hit with no `</mark>` gives none either. */
  lemma NoCloseInOpenedHit(m: string)
    requires !Contains(m, Close)
    ensures !Contains(Open + m, Close)
  {
    ContainsIff(m, Close);
    ContainsIff(Open + m, Close);
    forall k | 0 <= k ensures !OccursAt(Open + m, Close, k) {
      if k >= |Open| {
        OccursShift(Open, m, Close, k - |Open|);
      } else if k + |Close| <= |Open + m| {
        assert (Open + m)[k + 0] != Close[0] || (Open + m)[k + 1] != Close[1];
      }
    }
  }

  /** After `z`, the first occurrence of `pat` is the one that ends a stretch `x` free of it. */
  lemma FindAfter(z: string, x: string, pat: string, rest: string)
    requires |pat| > 0 && forall j :: 0 < j < |pat| ==> pat[j] != pat[0]
    requires !Contains(x, pat)
    ensures IndexOf(z + x + pat + rest, pat, |z|) == |z| + |x|
  {
    var s := z + x + pat + rest;
    var t := x + (pat + rest);
    assert s == z + t;
    forall k | |z| <= k < |z| + |x| ensures !OccursAt(s, pat, k) {
      NoStraddle(x, pat + rest, pat, k - |z|);
      OccursShift(z, t, pat, k - |z|);
    }
    OccursShift(x, pat + rest, pat, 0);
    OccursShift(z, t, pat, |x|);
    IndexOfIs(s, pat, |z|, |z| + |x|);
  }

  /** In an encoded text the parser finds the first `<mark>` right after the first plain stretch… */
  lemma FirstOpenAt(s: string, p: string, m: string, rest: string)
    requires s == p + Open + m + Close + rest
    requires !Contains(p, Open)
    ensures IndexOf(s, Open, 0) == |p|
  {
    var z: string := [];
    var t := m + Close + rest;
    assert z + p + Open + t == s;
    FindAfter(z, p, Open, t);
  }

  /** … and the `</mark>` that closes it right after the first hit. */
  lemma FirstCloseAt(s: string, p: string, m: string, rest: string)
    requires s == p + Open + m + Close + rest
    requires !Contains(m, Close)
    ensures IndexOf(s, Close, |p|) == |p| + |Open| + |m|
  {
    var om := Open + m;
    NoCloseInOpenedHit(m);
    FindAfter(p, om, Close, rest);
    assert p + om + Close + rest == s;
  }

  /** Reading a text that starts with one well-formed run consumes exactly that run. */
  lemma FirstRun(s: string, run: Run, rest: string, acc: seq<Segment>)
    requires s == run.plain + Open + run.marked + Close + rest
    requires !Contains(run.plain, Open) && !Contains(run.marked, Close)
    ensures Parse(s, acc) == Parse(rest, acc + RunSegments(run, |acc|))
  {
    var me := |run.plain| + |Open| + |run.marked|;
    FirstRunFound(s, run, rest, |acc|);
    ParseStep(s, acc, |run.plain|, me, rest, RunSegments(run, |acc|));
  }

  /** Where the parser finds the tags of a text that starts with one well-formed run, and what it pushes. */
  lemma FirstRunFound(s: string, run: Run, rest: string, k: nat)
    requires s == run.plain + Open + run.marked + Close + rest
    requires !Contains(run.plain, Open) && !Contains(run.marked, Close)
    ensures var me := |run.plain| + |Open| + |run.marked|;
            && |s| > 0 && IndexOf(s, Open, 0) == |run.plain| && IndexOf(s, Close, |run.plain|) == me
            && PairSegments(s, |run.plain|, me, k) == RunSegments(run, k)
            && SubstringFrom(s, me + |Close|) == rest
  {
    var p, m := run.plain, run.marked;
    FirstOpenAt(s, p, m, rest);
    FirstCloseAt(s, p, m, rest);
    FirstPair(s, run, rest, k);
  }

  /** The tag pair that opens `s` is the run, and what follows its `</mark>` is the rest. */
  lemma FirstPair(s: string, run: Run, rest: string, k: nat)
    requires s == run.plain + Open + run.marked + Close + rest
    ensures var me := |run.plain| + |Open| + |run.marked|;
            && PairSegments(s, |run.plain|, me, k) == RunSegments(run, k)
            && SubstringFrom(s, me + |Close|) == rest
  {
    var me := |run.plain| + |Open| + |run.marked|;
    SliceParts(s, run.plain, Open, run.marked, Close, rest);
    PairIsRun(s, run, me, k);
  }

  lemma SliceParts(s: string, p: string, o: string, m: string, c: string, rest: string)
    requires s == p + o + m + c + rest
    ensures s[..|p|] == p
    ensures s[|p| + |o|..|p| + |o| + |m|] == m
    ensures s[|p| + |o| + |m| + |c|..] == rest
  {
  }

  /** The segments the parser pushes for one tag pair are the run's segments. */
  lemma PairIsRun(s: string, run: Run, me: int, k: nat)
    requires me == |run.plain| + |Open| + |run.marked| <= |s|
    requires s[..|run.plain|] == run.plain && s[|run.plain| + |Open|..me] == run.marked
    ensures PairSegments(s, |run.plain|, me, k) == RunSegments(run, k)
  {
  }

  lemma WellFormedTail(runs: seq<Run>, tail: string)
    requires WellFormed(runs, tail) && runs != []
    ensures WellFormed(runs[1..], tail)
    ensures !Contains(runs[0].plain, Open) && !Contains(runs[0].marked, Close)
  {
    forall i | 0 <= i < |runs[1..]|
      ensures !Contains(runs[1..][i].plain, Open) && !Contains(runs[1..][i].marked, Close)
    {
      assert runs[1..][i] == runs[i + 1];
    }
  }

  /** A tail with no complete tag pair is read as one plain segment, or nothing when empty. */
  lemma ParseTail(tail: string, acc: seq<Segment>)
    requires TailUnmatched(tail)
    ensures Parse(tail, acc) == acc + Expected([], tail, |acc|)
  {
    if tail == [] {
      assert acc + [] == acc;
    }
  }

  /**
   * Round trip: reading well-formed marked text yields exactly its runs, each
   * non-empty plain stretch as a plain segment and each hit as a highlighted
   * one, then the tail (kept verbatim, tags included, when its `<mark>` is
   * never closed).
   */
  lemma {:induction false} ParseEncoded(runs: seq<Run>, tail: string, acc: seq<Segment>)
    requires WellFormed(runs, tail)
    ensures Parse(Encode(runs, tail), acc) == acc + Expected(runs, tail, |acc|)
    decreases |runs|
  {
    if runs == [] {
      ParseTail(tail, acc);
    } else {
      WellFormedTail(runs, tail);
      var rest := Encode(runs[1..], tail);
      var pair := RunSegments(runs[0], |acc|);
      var later := Expected(runs[1..], tail, |acc| + |pair|);
      calc {
        Parse(Encode(runs, tail), acc);
        { FirstRun(Encode(runs, tail), runs[0], rest, acc); }
        Parse(rest, acc + pair);
        { ParseEncoded(runs[1..], tail, acc + pair); }
        (acc + pair) + later;
        acc + (pair + later);
      }
    }
  }

  lemma {:induction false} ExpectedText(runs: seq<Run>, tail: string, k: nat)
    ensures Text(Expected(runs, tail, k)) == Stripped(runs, tail)
    decreases |runs|
  {
    if runs == [] {
      if tail != [] {
        TextAppend([], Segment(tail, false, false, MarkKey(k)));
      }
    } else {
      var head := RunSegments(runs[0], k);
      var rest := Expected(runs[1..], tail, k + |head|);
      assert Text(head) == runs[0].plain + runs[0].marked by {
        var hit := head[|head| - 1];
        assert head == head[..|head| - 1] + [hit];
        TextAppend(head[..|head| - 1], hit);
        if runs[0].plain != [] {
          TextAppend([], head[0]);
          assert [] + [head[0]] == head[..1];
        }
      }
      calc {
        Text(Expected(runs, tail, k));
        { TextConcat(head, rest); }
        Text(head) + Text(rest);
        { ExpectedText(runs[1..], tail, k + |head|); }
        runs[0].plain + runs[0].marked + Stripped(runs[1..], tail);
      }
    }
  }

  lemma {:induction false} TextConcat(a: seq<Segment>, b: seq<Segment>)
    ensures Text(a + b) == Text(a) + Text(b)
    decreases |b|
  {
    if b != [] {
      var b', last := b[..|b| - 1], b[|b| - 1];
      assert b == b' + [last];
      assert a + b == (a + b') + [last];
      calc {
        Text(a + b);
        { TextAppend(a + b', last); }
        Text(a + b') + last.text;
        { TextConcat(a, b'); }
        Text(a) + Text(b') + last.text;
        { TextAppend(b', last); }
        Text(a) + Text(b);
      }
    } else {
      assert a + b == a;
    }
  }

  /** Reading well-formed marked text gives its segments and, as text, the input with every tag pair taken out. */
  lemma ParsedText(runs: seq<Run>, tail: string)
    requires WellFormed(runs, tail)
    ensures MarkSegments(Encode(runs, tail)) == Expected(runs, tail, 0)
    ensures Text(MarkSegments(Encode(runs, tail))) == Stripped(runs, tail)
  {
    ParseEncoded(runs, tail, []);
    assert [] + Expected(runs, tail, 0) == Expected(runs, tail, 0);
    ExpectedText(runs, tail, 0);
  }

  /**
   * Every string is well-formed marked text: cut at its first `<mark>` and the
   * first `</mark>` after it, again and again, it is a sequence of runs and a
   * tail whose `<mark>` (if any) is never closed.
   */
  function Decompose(s: string): (d: (seq<Run>, string))
    ensures WellFormed(d.0, d.1) && Encode(d.0, d.1) == s
    decreases |s|
  {
    var ms := IndexOf(s, Open, 0);
    var me := if ms == -1 then -1 else IndexOf(s, Close, ms);
    if me == -1 then ([], s)
    else
      FirstPairParts(s, ms, me);
      var run := Run(s[..ms], s[ms + |Open|..me]);
      var rest := Decompose(s[me + |Close|..]);
      EncodeCons(run, rest.0, rest.1);
      WellFormedCons(run, rest.0, rest.1);
      ([run] + rest.0, rest.1)
  }

  /**
   * The first `<mark>` and the first `</mark>` after it cut `s` into a plain
   * stretch free of `<mark>`, the tags, a hit free of `</mark>` and the rest:
   * the `</mark>` cannot begin inside the `<mark>` it closes.
   */
  lemma FirstPairParts(s: string, ms: int, me: int)
    requires ms == IndexOf(s, Open, 0) && ms != -1
    requires me == IndexOf(s, Close, ms) && me != -1
    ensures 0 <= ms && ms + |Open| <= me && me + |Close| <= |s|
    ensures !Contains(s[..ms], Open) && !Contains(s[ms + |Open|..me], Close)
    ensures s == s[..ms] + Open + s[ms + |Open|..me] + Close + s[me + |Close|..]
  {
    FoundAt(s, Open, 0, ms);
    FoundAt(s, Close, ms, me);
    CloseAfterOpen(s, ms, me);
    NoneBetween(s, Open, 0, ms);
    NoneBetween(s, Close, ms + |Open|, me);
    CutAt(s, Open, Close, ms, me);
  }

  /** What `indexOf` from an in-range start reports when it finds something. */
  lemma FoundAt(s: string, pat: string, from: int, r: int)
    requires 0 <= from <= |s| && r == IndexOf(s, pat, from) && r != -1
    ensures from <= r && OccursAt(s, pat, r)
    ensures forall k :: from <= k < r ==> !OccursAt(s, pat, k)
  {
    IndexOfSpec(s, pat, from);
  }

  /** The first `</mark>` after a `<mark>` lies past its end. */
  lemma CloseAfterOpen(s: string, ms: int, me: int)
    requires OccursAt(s, Open, ms) && OccursAt(s, Close, me) && ms <= me
    requires forall k :: ms <= k < me ==> !OccursAt(s, Close, k)
    ensures ms + |Open| <= me
  {
    NoCloseInOpen(s, ms);
  }

  /** A `</mark>` cannot begin inside a `<mark>`. */
  lemma NoCloseInOpen(s: string, ms: int)
    requires OccursAt(s, Open, ms)
    ensures forall k :: ms <= k < ms + |Open| ==> !OccursAt(s, Close, k)
  {
    assert Close[0] == '<' && Close[1] == '/' && Open[1] == 'm';
    assert forall d :: 1 <= d < |Open| ==> Open[d] != '<';
    forall k | ms <= k < ms + |Open| ensures !OccursAt(s, Close, k) {
      if k == ms {
        assert s[ms + 1] == Open[1];
        assert s[k + 1] != Close[1];
      } else {
        assert s[ms + (k - ms)] == Open[k - ms];
        assert s[k + 0] != Close[0];
      }
    }
  }

  /** A stretch in which `pat` starts nowhere does not contain it. */
  lemma NoneBetween(s: string, pat: string, lo: int, hi: int)
    requires |pat| > 0 && 0 <= lo <= hi <= |s|
    requires forall k :: lo <= k < hi ==> !OccursAt(s, pat, k)
    ensures !Contains(s[lo..hi], pat)
  {
    var t := s[lo..hi];
    ContainsIff(t, pat);
    forall k ensures !OccursAt(t, pat, k) {
      if 0 <= k && k + |pat| <= |t| {
        assert !OccursAt(s, pat, lo + k);
        var j :| 0 <= j < |pat| && s[lo + k + j] != pat[j];
        assert t[k + j] == s[lo + k + j];
      }
    }
  }

  /** `s` cut around an occurrence of `o` at `i` and a later one of `c` at `j`. */
  lemma CutAt(s: string, o: string, c: string, i: int, j: int)
    requires OccursAt(s, o, i) && OccursAt(s, c, j) && i + |o| <= j
    ensures s == s[..i] + o + s[i + |o|..j] + c + s[j + |c|..]
  {
    assert s[i..i + |o|] == o;
    assert s[j..j + |c|] == c;
    assert s == s[..i] + s[i..i + |o|] + s[i + |o|..j] + s[j..j + |c|] + s[j + |c|..];
  }

  lemma EncodeCons(run: Run, runs: seq<Run>, tail: string)
    ensures Encode([run] + runs, tail) == run.plain + Open + run.marked + Close + Encode(runs, tail)
  {
    assert ([run] + runs)[1..] == runs;
  }

  lemma WellFormedCons(run: Run, runs: seq<Run>, tail: string)
    requires WellFormed(runs, tail) && !Contains(run.plain, Open) && !Contains(run.marked, Close)
    ensures WellFormed([run] + runs, tail)
  {
    forall i | 0 <= i < |[run] + runs|
      ensures !Contains(([run] + runs)[i].plain, Open) && !Contains(([run] + runs)[i].marked, Close)
    {
      if i > 0 {
        assert ([run] + runs)[i] == runs[i - 1];
      }
    }
  }

  /**
   * For every `matched_value`, the parser returns the segments of its
   * decomposition, and they spell it with each matched tag pair taken out.
   */
  lemma MarkedText(s: string)
    ensures var (runs, tail) := Decompose(s);
            && MarkSegments(s) == Expected(runs, tail, 0)
            && Text(MarkSegments(s)) == Stripped(runs, tail)
  {
    var d := Decompose(s);
    ParsedText(d.0, d.1);
  }

  // ---------------------------------------------------------------------------
  // Step 2: bold ranges from match_positions
  // ---------------------------------------------------------------------------

  /** The cells with every index in `[lo, hi)` made bold. */
  function MarkBold(cells: seq<Cell>, lo: int, hi: int): (r: seq<Cell>)
    ensures |r| == |cells|
  {
    seq(|cells|, k requires 0 <= k < |cells| => if lo <= k < hi then cells[k].(bold := true) else cells[k])
  }

  lemma MarkBoldAppend(a: seq<Cell>, b: seq<Cell>, lo: int, hi: int)
    ensures MarkBold(a + b, lo, hi) == MarkBold(a, lo, hi) + MarkBold(b, lo - |a|, hi - |a|)
  {
  }

  lemma TakeSnoc<T>(s: seq<T>, i: nat)
    requires i < |s|
    ensures s[..i + 1] == s[..i] + [s[i]]
  {
  }

  /** Bolding two stretches of cells one after the other bolds their concatenation. */
  lemma BoldConcat(x: seq<Cell>, y: seq<Cell>, done: seq<Cell>, here: seq<Cell>, lo: int, hi: int)
    requires x == MarkBold(done, lo, hi) && y == MarkBold(here, lo - |done|, hi - |done|)
    ensures x + y == MarkBold(done + here, lo, hi)
  {
    MarkBoldAppend(done, here, lo, hi);
  }

  /** Only the part of `[lo, hi)` inside the cells matters; an empty part changes nothing. */
  lemma MarkBoldClamp(cells: seq<Cell>, lo: int, hi: int)
    ensures MarkBold(cells, lo, hi) == MarkBold(cells, Max(lo, 0), Min(hi, |cells|))
    ensures Max(lo, 0) >= Min(hi, |cells|) ==> MarkBold(cells, lo, hi) == cells
  {
  }

  /** Splitting a segment at `a` and `b` and bolding the middle piece bolds `[a, b)` of its cells. */
  lemma SplitCells(t: string, h: bool, bo: bool, a: int, b: int)
    requires 0 <= a < b <= |t|
    ensures Paint(t[..a], h, bo) + Paint(t[a..b], h, true) + Paint(t[b..], h, bo) == MarkBold(Paint(t, h, bo), a, b)
  {
    var lhs := Paint(t[..a], h, bo) + Paint(t[a..b], h, true) + Paint(t[b..], h, bo);
    var rhs := MarkBold(Paint(t, h, bo), a, b);
    forall k | 0 <= k < |t| ensures lhs[k] == rhs[k] {
      if k < a {
        assert lhs[k] == Paint(t[..a], h, bo)[k];
      } else if k < b {
        assert lhs[k] == Paint(t[a..b], h, true)[k - a];
      } else {
        assert lhs[k] == Paint(t[b..], h, bo)[k - b];
      }
    }
  }

  predicate KeysDistinct(segs: seq<Segment>) {
    forall i, j :: 0 <= i < j < |segs| ==> segs[i].key != segs[j].key
  }

  /** Every `split-n` key in use has `n` below the next free index. */
  predicate SplitKeysBelow(segs: seq<Segment>, n: nat) {
    forall i :: 0 <= i < |segs| && segs[i].key.SplitKey? ==> segs[i].key.n < n
  }

  function KeySet(segs: seq<Segment>): set<SegmentKey> {
    set i | 0 <= i < |segs| :: segs[i].key
  }

  lemma {:induction false} CellsConcat(a: seq<Segment>, b: seq<Segment>)
    ensures Cells(a + b) == Cells(a) + Cells(b)
    decreases |b|
  {
    if b != [] {
      var b', last := b[..|b| - 1], b[|b| - 1];
      assert b == b' + [last];
      assert a + b == (a + b') + [last];
      calc {
        Cells(a + b);
        { CellsAppend(a + b', last); }
        Cells(a + b') + SegCells(last);
        { CellsConcat(a, b'); }
        Cells(a) + Cells(b') + SegCells(last);
        { CellsAppend(b', last); }
        Cells(a) + Cells(b);
      }
    } else {
      assert a + b == a;
    }
  }

  lemma CellsOne(s: Segment)
    ensures Cells([s]) == SegCells(s)
  {
    CellsAppend([], s);
    assert [] + [s] == [s];
  }

  /**
   * The bold range `[boldStart, boldEnd)` seen from a segment whose text starts
   * at `segStart`: its overlap `[a, b)` with the text, or nothing.
   */
  lemma SplitClamp(seg: Segment, segStart: int, boldStart: int, boldEnd: int)
    ensures var a := Max(segStart, boldStart) - segStart;
            var b := Min(segStart + |seg.text|, boldEnd) - segStart;
            && (a < b ==> 0 <= a < b <= |seg.text|
                          && MarkBold(SegCells(seg), boldStart - segStart, boldEnd - segStart)
                             == MarkBold(Paint(seg.text, seg.highlighted, seg.bold), a, b))
            && (a >= b ==> MarkBold(SegCells(seg), boldStart - segStart, boldEnd - segStart) == SegCells(seg))
  {
    MarkBoldClamp(SegCells(seg), boldStart - segStart, boldEnd - segStart);
  }

  /** The cells of a split segment: the optional lead piece, the bold middle, the optional trail piece. */
  lemma PiecesCells(seg: Segment, a: int, b: int, lead: seq<Segment>, middle: Segment, trail: seq<Segment>)
    requires 0 <= a < b <= |seg.text|
    requires lead == [] || lead == [seg.(text := seg.text[..a], key := lead[0].key)]
    requires lead == [] ==> a == 0
    requires middle == seg.(text := seg.text[a..b], bold := true, key := middle.key)
    requires trail == [] || trail == [seg.(text := seg.text[b..], key := trail[0].key)]
    requires trail == [] ==> b == |seg.text|
    ensures Cells(lead + [middle] + trail) == MarkBold(Paint(seg.text, seg.highlighted, seg.bold), a, b)
  {
    var t, h, bo := seg.text, seg.highlighted, seg.bold;
    assert Cells(lead) == Paint(t[..a], h, bo) by {
      if lead == [] {
        assert Paint(t[..a], h, bo) == [];
      } else {
        CellsOne(lead[0]);
      }
    }
    assert Cells(trail) == Paint(t[b..], h, bo) by {
      if trail == [] {
        assert Paint(t[b..], h, bo) == [];
      } else {
        CellsOne(trail[0]);
      }
    }
    CellsAppend(lead, middle);
    CellsConcat(lead + [middle], trail);
    SplitCells(t, h, bo, a, b);
  }

  lemma PiecesKeys(keyIndex: nat, lead: seq<Segment>, middle: Segment, trail: seq<Segment>)
    requires |lead| <= 1 && |trail| <= 1
    requires lead != [] ==> lead[0].key == SplitKey(keyIndex) && lead[0].text != []
    requires middle.key == SplitKey(keyIndex + |lead|) && middle.text != []
    requires trail != [] ==> trail[0].key == SplitKey(keyIndex + |lead| + 1) && trail[0].text != []
    ensures SplitRun(lead + [middle] + trail, keyIndex)
  {
  }

  /** `pieces` are non-empty and keyed `split-first`, `split-(first+1)`, … in order. */
  predicate SplitRun(pieces: seq<Segment>, first: nat) {
    forall j :: 0 <= j < |pieces| ==> pieces[j].key == SplitKey(first + j) && pieces[j].text != []
  }

  /**
   * The pieces one segment becomes under the bold range `[boldStart, boldEnd)`
   * when its text starts at `segStart`: the segment itself when the range
   * misses it; otherwise the non-empty leading piece, the bold middle piece
   * and the non-empty trailing piece, keyed `split-keyIndex`, … in order.
   */
  method SplitSegment(seg: Segment, segStart: int, boldStart: int, boldEnd: int, keyIndex: nat)
    returns (pieces: seq<Segment>, nextKeyIndex: nat)
    ensures Cells(pieces) == MarkBold(SegCells(seg), boldStart - segStart, boldEnd - segStart)
    ensures || (pieces == [seg] && nextKeyIndex == keyIndex)
            || (nextKeyIndex == keyIndex + |pieces| && SplitRun(pieces, keyIndex))
  {
    var segEnd := segStart + |seg.text|;
    var overlapStart := Max(segStart, boldStart);
    var overlapEnd := Min(segEnd, boldEnd);
    if overlapStart < overlapEnd {
      var a, b := overlapStart - segStart, overlapEnd - segStart;
      var lead: seq<Segment> := [];
      if overlapStart > segStart {
        lead := [seg.(text := seg.text[..a], key := SplitKey(keyIndex))];
      }
      var middle := seg.(text := seg.text[a..b], bold := true, key := SplitKey(keyIndex + |lead|));
      var trail: seq<Segment> := [];
      if overlapEnd < segEnd {
        trail := [seg.(text := seg.text[b..], key := SplitKey(keyIndex + |lead| + 1))];
      }
      SplitPieces(seg, segStart, boldStart, boldEnd, keyIndex, a, b, lead, middle, trail);
      pieces := lead + [middle] + trail;
      nextKeyIndex := keyIndex + |pieces|;
    } else {
      SplitClamp(seg, segStart, boldStart, boldEnd);
      CellsOne(seg);
      pieces, nextKeyIndex := [seg], keyIndex;
    }
  }

  /** The pieces `SplitSegment` builds for the overlap `[a, b)` of the segment with the bold range. */
  lemma SplitPieces(seg: Segment, segStart: int, boldStart: int, boldEnd: int, keyIndex: nat, a: int, b: int,
                    lead: seq<Segment>, middle: Segment, trail: seq<Segment>)
    requires a == Max(segStart, boldStart) - segStart && b == Min(segStart + |seg.text|, boldEnd) - segStart
    requires 0 <= a < b <= |seg.text|
    requires lead == (if a > 0 then [seg.(text := seg.text[..a], key := SplitKey(keyIndex))] else [])
    requires middle == seg.(text := seg.text[a..b], bold := true, key := SplitKey(keyIndex + |lead|))
    requires trail == (if b < |seg.text| then [seg.(text := seg.text[b..], key := SplitKey(keyIndex + |lead| + 1))] else [])
    ensures Cells(lead + [middle] + trail) == MarkBold(SegCells(seg), boldStart - segStart, boldEnd - segStart)
    ensures SplitRun(lead + [middle] + trail, keyIndex)
  {
    SplitClamp(seg, segStart, boldStart, boldEnd);
    PiecesCells(seg, a, b, lead, middle, trail);
    PiecesKeys(keyIndex, lead, middle, trail);
  }

  /**
   * One position of the bold pass: walks the segments with a text cursor and
   * replaces each by its pieces under `[boldStart, boldEnd)`.
   */
  method ApplyPosition(segs: seq<Segment>, boldStart: int, boldEnd: int, keyIndex: nat)
    returns (next: seq<Segment>, nextKeyIndex: nat)
    requires KeysDistinct(segs) && SplitKeysBelow(segs, keyIndex)
    ensures Cells(next) == MarkBold(Cells(segs), boldStart, boldEnd)
    ensures KeysDistinct(next) && SplitKeysBelow(next, nextKeyIndex) && keyIndex <= nextKeyIndex
    ensures forall j :: 0 <= j < |next| && next[j].text == [] ==> next[j] in segs
  {
    next := [];
    nextKeyIndex := keyIndex;
    var textCursor := 0;
    for i := 0 to |segs|
      invariant textCursor == |Cells(segs[..i])|
      invariant Cells(next) == MarkBold(Cells(segs[..i]), boldStart, boldEnd)
      invariant keyIndex <= nextKeyIndex
      invariant KeysFresh(next, segs[..i], keyIndex, nextKeyIndex)
      invariant KeysDistinct(next)
      invariant EmptiesFrom(next, segs)
    {
      var seg := segs[i];
      var pieces, k := SplitSegment(seg, textCursor, boldStart, boldEnd, nextKeyIndex);
      PositionStep(segs, i, seg, textCursor, next, pieces, boldStart, boldEnd, keyIndex, nextKeyIndex, k);
      next, nextKeyIndex := next + pieces, k;
      textCursor := textCursor + |seg.text|;
    }
    assert segs[..|segs|] == segs;
  }

  /** Every key of `next` is a key of `known` or a `split-n` key with `lo <= n < hi`. */
  predicate KeysFresh(next: seq<Segment>, known: seq<Segment>, lo: nat, hi: nat) {
    forall j :: 0 <= j < |next| ==> next[j].key in KeySet(known) || (next[j].key.SplitKey? && lo <= next[j].key.n < hi)
  }

  /** Every empty segment of `next` is one of `segs`. */
  predicate EmptiesFrom(next: seq<Segment>, segs: seq<Segment>) {
    forall j :: 0 <= j < |next| && next[j].text == [] ==> next[j] in segs
  }

  /** The invariants of `ApplyPosition` survive appending one segment's pieces. */
  lemma PositionStep(segs: seq<Segment>, i: nat, seg: Segment, cursor: int, next: seq<Segment>, pieces: seq<Segment>,
                     boldStart: int, boldEnd: int, keyIndex: nat, nextKeyIndex: nat, k: nat)
    requires i < |segs| && seg == segs[i] && cursor == |Cells(segs[..i])|
    requires KeysDistinct(segs) && SplitKeysBelow(segs, keyIndex)
    requires Cells(next) == MarkBold(Cells(segs[..i]), boldStart, boldEnd)
    requires Cells(pieces) == MarkBold(SegCells(seg), boldStart - cursor, boldEnd - cursor)
    requires keyIndex <= nextKeyIndex && KeysFresh(next, segs[..i], keyIndex, nextKeyIndex) && KeysDistinct(next)
    requires EmptiesFrom(next, segs)
    requires || (pieces == [seg] && k == nextKeyIndex)
             || (k == nextKeyIndex + |pieces| && SplitRun(pieces, nextKeyIndex))
    ensures |Cells(segs[..i + 1])| == cursor + |seg.text|
    ensures Cells(next + pieces) == MarkBold(Cells(segs[..i + 1]), boldStart, boldEnd)
    ensures keyIndex <= k && KeysFresh(next + pieces, segs[..i + 1], keyIndex, k) && KeysDistinct(next + pieces)
    ensures EmptiesFrom(next + pieces, segs)
  {
    PositionCells(segs, i, seg, cursor, next, pieces, boldStart, boldEnd);
    PositionKeys(segs, i, seg, next, pieces, keyIndex, nextKeyIndex, k);
    PositionEmpties(segs, i, seg, next, pieces, nextKeyIndex);
  }

  /** The cell invariant of `ApplyPosition` survives appending one segment's pieces. */
  lemma PositionCells(segs: seq<Segment>, i: nat, seg: Segment, cursor: int, next: seq<Segment>, pieces: seq<Segment>,
                      boldStart: int, boldEnd: int)
    requires i < |segs| && seg == segs[i] && cursor == |Cells(segs[..i])|
    requires Cells(next) == MarkBold(Cells(segs[..i]), boldStart, boldEnd)
    requires Cells(pieces) == MarkBold(SegCells(seg), boldStart - cursor, boldEnd - cursor)
    ensures |Cells(segs[..i + 1])| == cursor + |seg.text|
    ensures Cells(next + pieces) == MarkBold(Cells(segs[..i + 1]), boldStart, boldEnd)
  {
    TakeSnoc(segs, i);
    CellsAppend(segs[..i], seg);
    CellsConcat(next, pieces);
    BoldConcat(Cells(next), Cells(pieces), Cells(segs[..i]), SegCells(seg), boldStart, boldEnd);
  }

  /** The key invariants of `ApplyPosition` survive appending one segment's pieces. */
  lemma PositionKeys(segs: seq<Segment>, i: nat, seg: Segment, next: seq<Segment>, pieces: seq<Segment>,
                     keyIndex: nat, nextKeyIndex: nat, k: nat)
    requires i < |segs| && seg == segs[i] && KeysDistinct(segs) && SplitKeysBelow(segs, keyIndex)
    requires keyIndex <= nextKeyIndex
    requires KeysFresh(next, segs[..i], keyIndex, nextKeyIndex)
    requires KeysDistinct(next)
    requires || (pieces == [seg] && k == nextKeyIndex)
             || (k == nextKeyIndex + |pieces| && SplitRun(pieces, nextKeyIndex))
    ensures keyIndex <= k
    ensures KeysFresh(next + pieces, segs[..i + 1], keyIndex, k)
    ensures KeysDistinct(next + pieces)
  {
    TakeSnoc(segs, i);
    assert KeySet(segs[..i + 1]) == KeySet(segs[..i]) + {seg.key};
    assert seg.key !in KeySet(segs[..i]);
    var all := next + pieces;
    forall j1, j2 | 0 <= j1 < j2 < |all| ensures all[j1].key != all[j2].key {
      if j1 >= |next| {
        assert all[j1] == pieces[j1 - |next|] && all[j2] == pieces[j2 - |next|];
      } else if j2 >= |next| {
        assert all[j2] == pieces[j2 - |next|];
      }
    }
  }

  /** Empty segments after the step still come from the input. */
  lemma PositionEmpties(segs: seq<Segment>, i: nat, seg: Segment, next: seq<Segment>, pieces: seq<Segment>, first: nat)
    requires i < |segs| && seg == segs[i]
    requires EmptiesFrom(next, segs)
    requires pieces == [seg] || SplitRun(pieces, first)
    ensures EmptiesFrom(next + pieces, segs)
  {
  }

  /** Whether a position's clamped range `[max(0, start), min(textLength, end))` covers index `k`. */
  predicate Covers(p: Position, textLength: int, k: int) {
    Max(0, p.start) <= k < Min(textLength, p.end)
  }

  /** The cells after the bold ranges of `ps` are applied in order. */
  function BoldAll(cells: seq<Cell>, ps: seq<Position>, textLength: int): (r: seq<Cell>)
    ensures |r| == |cells|
  {
    if ps == [] then cells
    else
      var p := ps[|ps| - 1];
      MarkBold(BoldAll(cells, ps[..|ps| - 1], textLength), Max(0, p.start), Min(textLength, p.end))
  }

  /**
   * After the bold pass a character keeps its text and its `highlighted` flag,
   * and is bold exactly when it was bold already or some position's clamped
   * range covers it.
   */
  lemma {:induction false} BoldAllAt(cells: seq<Cell>, ps: seq<Position>, textLength: int, k: int)
    requires 0 <= k < |cells|
    ensures BoldAll(cells, ps, textLength)[k]
            == cells[k].(bold := cells[k].bold || exists p :: p in ps && Covers(p, textLength, k))
    decreases |ps|
  {
    if ps != [] {
      var init, last := ps[..|ps| - 1], ps[|ps| - 1];
      BoldAllAt(cells, init, textLength, k);
      assert ps == init + [last];
      assert (exists p :: p in ps && Covers(p, textLength, k))
         <==> (exists p :: p in init && Covers(p, textLength, k)) || Covers(last, textLength, k)
      by {
        assert forall p :: p in ps <==> p in init || p == last;
      }
    }
  }

  /** The bold pass does not depend on the order of the positions. */
  lemma BoldAllIgnoresOrder(cells: seq<Cell>, ps: seq<Position>, qs: seq<Position>, textLength: int)
    requires multiset(ps) == multiset(qs)
    ensures BoldAll(cells, ps, textLength) == BoldAll(cells, qs, textLength)
  {
    forall k | 0 <= k < |cells|
      ensures BoldAll(cells, ps, textLength)[k] == BoldAll(cells, qs, textLength)[k]
    {
      BoldAllAt(cells, ps, textLength, k);
      BoldAllAt(cells, qs, textLength, k);
      assert forall p :: p in ps <==> p in qs by {
        forall p ensures p in ps <==> p in qs {
          assert p in ps <==> p in multiset(ps);
          assert p in qs <==> p in multiset(qs);
        }
      }
    }
  }

  predicate SortedByStart(ps: seq<Position>) {
    forall i, j :: 0 <= i < j < |ps| ==> ps[i].start <= ps[j].start
  }

  /** A lower bound on the starts of `ps` and of `p` bounds every start of a permutation of them. */
  lemma StartsBounded(b: int, p: Position, ps: seq<Position>, r: seq<Position>)
    requires b <= p.start && forall j :: 0 <= j < |ps| ==> b <= ps[j].start
    requires multiset(r) == multiset(ps) + multiset{p}
    ensures forall j :: 0 <= j < |r| ==> b <= r[j].start
  {
    forall j | 0 <= j < |r| ensures b <= r[j].start {
      assert r[j] in multiset(r);
      if r[j] != p {
        assert r[j] in multiset(ps);
        var i :| 0 <= i < |ps| && ps[i] == r[j];
      }
    }
  }

  /** Inserts `p` after every entry whose start is not larger, which keeps equal starts in input order. */
  function InsertByStart(p: Position, ps: seq<Position>): (r: seq<Position>)
    requires SortedByStart(ps)
    ensures SortedByStart(r)
    ensures multiset(r) == multiset(ps) + multiset{p}
  {
    if ps == [] then [p]
    else if p.start < ps[0].start then [p] + ps
    else
      assert ps == [ps[0]] + ps[1..];
      var rest := InsertByStart(p, ps[1..]);
      StartsBounded(ps[0].start, p, ps[1..], rest);
      [ps[0]] + rest
  }

  /** `[...positions].sort((a, b) => a.start - b.start)`: a fresh sorted permutation. */
  function SortByStart(ps: seq<Position>): (r: seq<Position>)
    ensures SortedByStart(r)
    ensures multiset(r) == multiset(ps)
  {
    if ps == [] then []
    else
      assert ps == ps[..|ps| - 1] + [ps[|ps| - 1]];
      InsertByStart(ps[|ps| - 1], SortByStart(ps[..|ps| - 1]))
  }

  /**
   * The bold pass over the sorted positions: each position is clamped to
   * `[max(0, start), min(textLength, end))` and skipped when that range is
   * empty.
   */
  method ApplyPositions(base: seq<Segment>, positions: seq<Position>, textLength: int, keyIndex: nat)
    returns (segs: seq<Segment>)
    requires KeysDistinct(base) && SplitKeysBelow(base, keyIndex)
    ensures Cells(segs) == BoldAll(Cells(base), positions, textLength)
    ensures KeysDistinct(segs)
    ensures forall j :: 0 <= j < |segs| && segs[j].text == [] ==> segs[j] in base
  {
    segs := base;
    var segmentKeyIndex := keyIndex;
    for j := 0 to |positions|
      invariant Cells(segs) == BoldAll(Cells(base), positions[..j], textLength)
      invariant KeysDistinct(segs) && SplitKeysBelow(segs, segmentKeyIndex)
      invariant forall t :: 0 <= t < |segs| && segs[t].text == [] ==> segs[t] in base
    {
      var pos := positions[j];
      assert positions[..j + 1][..j] == positions[..j];
      var boldStart := Max(0, pos.start);
      var boldEnd := Min(textLength, pos.end);
      if boldStart >= boldEnd {
        MarkBoldClamp(Cells(segs), boldStart, boldEnd);
        continue;
      }
      segs, segmentKeyIndex := ApplyPosition(segs, boldStart, boldEnd, segmentKeyIndex);
    }
    assert positions[..|positions|] == positions;
  }

  // ---------------------------------------------------------------------------
  // The component
  // ---------------------------------------------------------------------------

  /** Whether `matched_value` carries marks (`matched_value && matched_value.includes("<mark>")`). */
  predicate HasMarks(mi: MatchInfo) {
    |mi.matchedValue| > 0 && Contains(mi.matchedValue, Open)
  }

  /** The segments before the bold pass: the parsed marks, or the whole original text as `base-0`. */
  function BaseSegments(originalText: string, mi: MatchInfo): (r: seq<Segment>)
    ensures !HasMarks(mi) ==> r == [Segment(originalText, false, false, BaseKey(0))]
  {
    if HasMarks(mi) then MarkSegments(mi.matchedValue)
    else [Segment(originalText, false, false, BaseKey(0))]
  }

  /** `textLengthForPositions`: the number of characters the positions index into. */
  function TextLengthForPositions(originalText: string, mi: MatchInfo): (n: nat)
    ensures n == |Text(BaseSegments(originalText, mi))|
    ensures !HasMarks(mi) ==> n == |originalText|
  {
    if HasMarks(mi) then |Text(MarkSegments(mi.matchedValue))|
    else
      TextAppend([], Segment(originalText, false, false, BaseKey(0)));
      |originalText|
  }

  /** The positions the bold pass applies; an absent or empty list applies none. */
  function PositionsOf(mi: MatchInfo): seq<Position> {
    mi.matchPositions.GetOr([])
  }

  /**
   * `HighlightText`: without match information the original text comes back
   * as it is; otherwise the segments of the base reading with the bold pass
   * applied. Every character is bold exactly when some position's clamped
   * range covers it, whatever the order of `match_positions`, and the React
   * keys of the segments are pairwise distinct.
   */
  method HighlightText(originalText: string, matchInfo: Option<MatchInfo>) returns (r: Rendering)
    ensures matchInfo.None? ==> r == Plain(originalText)
    ensures matchInfo.Some? ==>
      var mi := matchInfo.value;
      var base := Cells(BaseSegments(originalText, mi));
      var n := TextLengthForPositions(originalText, mi);
      && r.Segments?
      && Cells(r.segs) == BoldAll(base, PositionsOf(mi), n)
      && KeysDistinct(r.segs)
  {
    if matchInfo.None? {
      return Plain(originalText);
    }
    var mi := matchInfo.value;
    var baseSegments: seq<Segment>;
    var textLengthForPositions: nat;
    var segmentKeyIndex: nat;
    if |mi.matchedValue| > 0 && Contains(mi.matchedValue, Open) {
      baseSegments, textLengthForPositions, segmentKeyIndex := ParseMarks(mi.matchedValue);
      ParseKeys(mi.matchedValue, []);
    } else {
      baseSegments := [Segment(originalText, false, false, BaseKey(0))];
      textLengthForPositions := |originalText|;
      segmentKeyIndex := 1;
    }
    var positions := PositionsOf(mi);
    if |positions| > 0 {
      var sorted := SortByStart(positions);
      baseSegments := ApplyPositions(baseSegments, sorted, textLengthForPositions, segmentKeyIndex);
      BoldAllIgnoresOrder(Cells(BaseSegments(originalText, mi)), sorted, positions, textLengthForPositions);
    }
    return Segments(baseSegments);
  }
}

=== FILE: internal_transactions_table.dfy ===
/**
 * The internal-transactions table of an address page (`InternalTransactionsTable`):
 * the page it draws comes in as `currentPage`, a change goes out through
 * `onPageChange`; rows are keyed by position.
 */
module InternalTransactionsTable {
  import opened Wrappers
  import opened JsString
  import opened TxCells

  /** An internal transaction as the table reads it (`timestamp` in seconds); the value is not modelled. */
  datatype InternalTx = InternalTx(
    hash: string,
    blockNumber: nat,
    timestamp: int,
    fromAddress: string,
    toAddress: Option<string>,
    contractAddress: Option<string>)

  datatype Props = Props(
    data: Option<seq<InternalTx>>,
    pageCount: int,
    currentPage: int,
    pageSize: int,
    totalTransactions: int,
    isFetching: bool)

  const EmptyMessage := "无结果。"

  /** `new Date(timestamp * 1000)`: the time cell reads the timestamp in seconds as milliseconds. */
  function Millis(seconds: int): int {
    seconds * 1000
  }

  /** The conversion loses nothing: whole seconds, read back by dividing. */
  lemma MillisRoundTrip(seconds: int)
    ensures Millis(seconds) % 1000 == 0 && Millis(seconds) / 1000 == seconds
    ensures seconds >= 0 ==> Millis(seconds) >= seconds
  {
  }

  /**
   * The cells of a row: parent hash, block, time, sender, receiver (`未知`
   * when missing), contract (`-` when missing).
   */
  function Cells(tx: InternalTx, keccak: Keccak): seq<Cell> {
    [HashCell(tx.hash), BlockCell(tx.blockNumber), Instant(Millis(tx.timestamp)), AddressCell(tx.fromAddress, keccak),
     NullableAddressCell(tx.toAddress, UnknownAddress, keccak),
     NullableAddressCell(tx.contractAddress, NoContract, keccak)]
  }

  function View(props: Props, keccak: Keccak): TableView {
    TableView(props.currentPage - 1,
              TableBody(props.data.GetOr([]), (tx: InternalTx, i: nat) => RowId(i), tx => Cells(tx, keccak), EmptyMessage),
              PagerFooter(props.pageCount, props.currentPage, props.totalTransactions, props.isFetching, false))
  }

  /**
   * The table is handed the 0-based `currentPage - 1`; the footer shows
   * exactly when `pageCount > 0`, names `currentPage`, and its enabled
   * buttons ask for pages in `[1, pageCount]`; the labels never spin.
   */
  lemma Paging(props: Props, keccak: Keccak)
    ensures var v := View(props, keccak);
            && v.pageIndex + 1 == props.currentPage
            && (v.footer.Some? <==> props.pageCount > 0)
            && (v.footer.Some? ==>
                  && v.footer.value.page == props.currentPage
                  && (Click(v.footer.value.prev).Some? ==> Click(v.footer.value.prev).value >= 1)
                  && (Click(v.footer.value.next).Some? ==> Click(v.footer.value.next).value <= props.pageCount)
                  && (props.isFetching ==> !v.footer.value.prev.enabled && !v.footer.value.next.enabled)
                  && !v.footer.value.prev.spinner && !v.footer.value.next.spinner)
  {
    PagerGuards(props.pageCount, props.currentPage, props.totalTransactions, props.isFetching, false);
  }

  /**
   * Missing or empty data shows `无结果。`; otherwise one row per transaction,
   * in order, keyed by its position (so keys never collide), whose time cell
   * holds the transaction's own moment (its timestamp, in seconds, read back
   * exactly from the milliseconds), and where a missing receiver shows `未知`
   * and a missing contract `-`.
   */
  lemma Rows(props: Props, keccak: Keccak)
    ensures var b := View(props, keccak).body;
            var data := props.data.GetOr([]);
            && (b == Empty(EmptyMessage) <==> |data| == 0)
            && (b.Rows? ==>
                  && |b.rows| == |data|
                  && (forall i, j :: 0 <= i < j < |b.rows| ==> b.rows[i].key != b.rows[j].key)
                  && forall i :: 0 <= i < |data| ==>
                       && b.rows[i].cells[0] == HashCell(data[i].hash)
                       && b.rows[i].cells[2].Instant? && b.rows[i].cells[2].millis / 1000 == data[i].timestamp
                       && b.rows[i].cells[2].millis % 1000 == 0
                       && (b.rows[i].cells[4] == Muted(UnknownAddress)
                           <==> data[i].toAddress.None? || data[i].toAddress.value == "")
                       && (b.rows[i].cells[5] == Muted(NoContract)
                           <==> data[i].contractAddress.None? || data[i].contractAddress.value == ""))
  {
    var b := View(props, keccak).body;
    var data := props.data.GetOr([]);
    if b.Rows? {
      forall i, j | 0 <= i < j < |b.rows|
        ensures b.rows[i].key != b.rows[j].key
      {
        RowIdsDistinct(i, j);
      }
      forall i | 0 <= i < |data|
        ensures b.rows[i].cells[2].Instant? && b.rows[i].cells[2].millis / 1000 == data[i].timestamp
        ensures b.rows[i].cells[2].millis % 1000 == 0
        ensures (b.rows[i].cells[4] == Muted(UnknownAddress) <==> data[i].toAddress.None? || data[i].toAddress.value == "")
        ensures (b.rows[i].cells[5] == Muted(NoContract)
                 <==> data[i].contractAddress.None? || data[i].contractAddress.value == "")
      {
        MillisRoundTrip(data[i].timestamp);
        NullableFallback(data[i].toAddress, UnknownAddress, keccak);
        NullableFallback(data[i].contractAddress, NoContract, keccak);
      }
    }
  }
}

=== FILE: js_string.dfy ===
/**
 * The JavaScript string and array primitives the core relies on, with the
 * semantics the ECMAScript library gives them: `substring` clamps and swaps its
 * bounds, `indexOf` returns the first match at or after a start index or -1,
 * `Number.prototype.toString()` prints a decimal numeral, and `Array.prototype.sort()`
 * without a comparator orders strings lexicographically by character code.
 */
module JsString {

  /** A bound clamped into `[0, n]`, as `substring` and `indexOf` treat their index arguments. */
  function Clamp(i: int, n: nat): (r: nat)
    ensures r <= n
    ensures 0 <= i <= n ==> r == i
    ensures i < 0 ==> r == 0
    ensures n < i ==> r == n
  {
    if i < 0 then 0 else if i > n then n else i
  }

  function Max(a: int, b: int): (r: int)
    ensures r >= a && r >= b && (r == a || r == b)
  {
    if a >= b then a else b
  }

  function Min(a: int, b: int): (r: int)
    ensures r <= a && r <= b && (r == a || r == b)
  {
    if a <= b then a else b
  }

  /** `s.substring(start, end)`: both bounds clamped into `[0, |s|]`, swapped when out of order. */
  function Substring(s: string, start: int, end: int): (r: string)
    ensures |r| <= |s|
    ensures 0 <= start <= end <= |s| ==> r == s[start..end]
  {
    var a, b := Clamp(start, |s|), Clamp(end, |s|);
    if a <= b then s[a..b] else s[b..a]
  }

  /** `s.substring(start)`: from the clamped start to the end of the string. */
  function SubstringFrom(s: string, start: int): (r: string)
    ensures |r| <= |s|
    ensures 0 <= start <= |s| ==> r == s[start..]
    ensures start < 0 ==> r == s
    ensures |s| < start ==> r == []
  {
    Substring(s, start, |s|)
  }

  /** `pat` occurs in `s` starting at index `k`. */
  predicate OccursAt(s: string, pat: string, k: int) {
    0 <= k && k + |pat| <= |s| && forall j :: 0 <= j < |pat| ==> s[k + j] == pat[j]
  }

  /**
   * `s.indexOf(pat, from)`: the search starts at `from` clamped into `[0, |s|]`
   * and moves right one index at a time; -1 when it runs off the end.
   * `IndexOfSpec` states what the result is.
   */
  function IndexOf(s: string, pat: string, from: int): (r: int)
    ensures -1 <= r
    decreases if from < 0 then |s| + 2 else if from > |s| then 1 else |s| - from
  {
    if from < 0 then IndexOf(s, pat, 0)
    else if from > |s| then IndexOf(s, pat, |s|)
    else if from + |pat| > |s| then -1
    else if OccursAt(s, pat, from) then from
    else IndexOf(s, pat, from + 1)
  }

  /**
   * `indexOf` finds the first occurrence at or after the clamped start: the
   * result is -1 or an occurrence at or after it, and no occurrence lies
   * between the clamped start and the result (none at all after it when the
   * result is -1).
   */
  lemma {:induction false} IndexOfSpec(s: string, pat: string, from: int)
    ensures var r := IndexOf(s, pat, from);
            && (r == -1 || (Clamp(from, |s|) <= r && OccursAt(s, pat, r)))
            && (forall k :: Clamp(from, |s|) <= k && (r == -1 || k < r) ==> !OccursAt(s, pat, k))
    decreases if from < 0 then |s| + 2 else if from > |s| then 1 else |s| - from
  {
    if from < 0 {
      IndexOfSpec(s, pat, 0);
    } else if from > |s| {
      IndexOfSpec(s, pat, |s|);
    } else if from + |pat| <= |s| && !OccursAt(s, pat, from) {
      IndexOfSpec(s, pat, from + 1);
    }
  }

  /** `s.includes(pat)`. */
  predicate Contains(s: string, pat: string) {
    IndexOf(s, pat, 0) != -1
  }

  lemma ContainsIff(s: string, pat: string)
    ensures Contains(s, pat) <==> exists k :: OccursAt(s, pat, k)
  {
    IndexOfSpec(s, pat, 0);
    if exists k :: OccursAt(s, pat, k) {
      var k :| OccursAt(s, pat, k);
      assert Clamp(0, |s|) <= k;
    }
  }

  /** An occurrence with none before it (from `from` on) is what `indexOf` finds. */
  lemma IndexOfIs(s: string, pat: string, from: int, j: int)
    requires Clamp(from, |s|) <= j && OccursAt(s, pat, j)
    requires forall k :: Clamp(from, |s|) <= k < j ==> !OccursAt(s, pat, k)
    ensures IndexOf(s, pat, from) == j
  {
    IndexOfSpec(s, pat, from);
  }

  /** `s.replace(pat, replacement)` with a string pattern: only the first occurrence is replaced. */
  function ReplaceFirst(s: string, pat: string, replacement: string): (r: string)
    ensures !Contains(s, pat) ==> r == s
  {
    var i := IndexOf(s, pat, 0);
    IndexOfSpec(s, pat, 0);
    if i == -1 then s else s[..i] + replacement + s[i + |pat|..]
  }

  predicate IsUpperAscii(c: char) { 'A' <= c <= 'Z' }
  predicate IsLowerAscii(c: char) { 'a' <= c <= 'z' }
  predicate IsDigit(c: char) { '0' <= c <= '9' }

  /** `toLowerCase` on one character; only ASCII letters are ever lowered in this core. */
  function ToLowerChar(c: char): (r: char)
    ensures IsUpperAscii(c) ==> IsLowerAscii(r)
    ensures !IsUpperAscii(c) ==> r == c
  {
    if IsUpperAscii(c) then (c as int + 32) as char else c
  }

  /** `toUpperCase` on one character; only ASCII letters are ever raised in this core. */
  function ToUpperChar(c: char): (r: char)
    ensures IsLowerAscii(c) ==> IsUpperAscii(r)
    ensures !IsLowerAscii(c) ==> r == c
  {
    if IsLowerAscii(c) then (c as int - 32) as char else c
  }

  /** `s.toLowerCase()` for ASCII text. */
  function ToLower(s: string): (r: string)
    ensures |r| == |s|
    ensures forall i :: 0 <= i < |s| ==> r[i] == ToLowerChar(s[i])
  {
    seq(|s|, i requires 0 <= i < |s| => ToLowerChar(s[i]))
  }

  lemma LowerOfUpper(c: char)
    ensures ToLowerChar(ToUpperChar(c)) == ToLowerChar(c)
  {
  }

  function DigitChar(d: nat): (c: char)
    requires d < 10
    ensures IsDigit(c)
  {
    ('0' as int + d) as char
  }

  function DigitValue(c: char): (d: nat)
    requires IsDigit(c)
    ensures d < 10 && DigitChar(d) == c
  {
    c as int - '0' as int
  }

  predicate AllDigits(s: string) {
    forall i :: 0 <= i < |s| ==> IsDigit(s[i])
  }

  /**
   * `n.toString()` for a non-negative integer below 10^21 (above that
   * JavaScript prints exponent notation): its decimal numeral, without
   * leading zeros.
   */
  function DecimalString(n: nat): (r: string)
    ensures |r| > 0 && AllDigits(r)
    ensures r[0] == '0' ==> n == 0
  {
    if n < 10 then [DigitChar(n)] else DecimalString(n / 10) + [DigitChar(n % 10)]
  }

  /** The value of a decimal numeral (the reading `parseInt(s, 10)` gives it). */
  function ParseDecimal(s: string): nat
    requires AllDigits(s)
  {
    if s == [] then 0 else ParseDecimal(s[..|s| - 1]) * 10 + DigitValue(s[|s| - 1])
  }

  lemma {:induction false} DecimalRoundTrip(n: nat)
    ensures ParseDecimal(DecimalString(n)) == n
  {
    if n >= 10 {
      var s := DecimalString(n);
      assert s[..|s| - 1] == DecimalString(n / 10);
      DecimalRoundTrip(n / 10);
    }
  }

  lemma DecimalInjective(m: nat, n: nat)
    requires DecimalString(m) == DecimalString(n)
    ensures m == n
  {
    DecimalRoundTrip(m);
    DecimalRoundTrip(n);
  }

  /** The default order of `Array.prototype.sort()` on strings: lexicographic by character code. */
  predicate LexLeq(a: string, b: string)
    decreases |a|
  {
    |a| == 0 || (|b| > 0 && (a[0] < b[0] || (a[0] == b[0] && LexLeq(a[1..], b[1..]))))
  }

  lemma {:induction false} LexLeqReflexive(a: string)
    ensures LexLeq(a, a)
    decreases |a|
  {
    if |a| > 0 {
      LexLeqReflexive(a[1..]);
    }
  }

  lemma {:induction false} LexLeqTotal(a: string, b: string)
    ensures LexLeq(a, b) || LexLeq(b, a)
    decreases |a|
  {
    if |a| > 0 && |b| > 0 && a[0] == b[0] {
      LexLeqTotal(a[1..], b[1..]);
    }
  }

  lemma {:induction false} LexLeqAntisymmetric(a: string, b: string)
    requires LexLeq(a, b) && LexLeq(b, a)
    ensures a == b
    decreases |a|
  {
    if |a| > 0 {
      LexLeqAntisymmetric(a[1..], b[1..]);
      assert a == [a[0]] + a[1..] && b == [b[0]] + b[1..];
    }
  }

  lemma {:induction false} LexLeqTransitive(a: string, b: string, c: string)
    requires LexLeq(a, b) && LexLeq(b, c)
    ensures LexLeq(a, c)
    decreases |a|
  {
    if |a| > 0 && a[0] == b[0] && b[0] == c[0] {
      LexLeqTransitive(a[1..], b[1..], c[1..]);
    }
  }

  predicate Sorted(s: seq<string>) {
    forall i, j :: 0 <= i < j < |s| ==> LexLeq(s[i], s[j])
  }

  function Insert(x: string, s: seq<string>): (r: seq<string>)
    requires Sorted(s)
    ensures Sorted(r)
    ensures multiset(r) == multiset(s) + multiset{x}
  {
    if s == [] then [x]
    else if LexLeq(x, s[0]) then
      SortedCons(x, s);
      [x] + s
    else
      LexLeqTotal(x, s[0]);
      SortedTail(s);
      var rest := Insert(x, s[1..]);
      BelowAll(s[0], s[1..], x, rest);
      SortedCons(s[0], rest);
      assert s == [s[0]] + s[1..];
      [s[0]] + rest
  }

  /** A sorted sequence stays sorted behind an element below its head. */
  lemma SortedCons(a: string, t: seq<string>)
    requires Sorted(t) && (|t| > 0 ==> LexLeq(a, t[0]))
    ensures Sorted([a] + t)
  {
    var u := [a] + t;
    forall i, j | 0 <= i < j < |u| ensures LexLeq(u[i], u[j]) {
      assert u[j] == t[j - 1];
      if i == 0 {
        if j > 1 {
          LexLeqTransitive(a, t[0], t[j - 1]);
        }
      } else {
        assert u[i] == t[i - 1];
      }
    }
  }

  /** The tail of a sorted sequence is sorted and bounded below by the head. */
  lemma SortedTail(s: seq<string>)
    requires Sorted(s) && |s| > 0
    ensures Sorted(s[1..]) && forall j :: 0 <= j < |s[1..]| ==> LexLeq(s[0], s[1..][j])
  {
    forall i, j | 0 <= i < j < |s[1..]| ensures LexLeq(s[1..][i], s[1..][j]) {
      assert s[1..][i] == s[i + 1] && s[1..][j] == s[j + 1];
    }
  }

  /** A lower bound of `t` and of `x` bounds every arrangement of `t` with `x` added. */
  lemma BelowAll(a: string, t: seq<string>, x: string, u: seq<string>)
    requires forall j :: 0 <= j < |t| ==> LexLeq(a, t[j])
    requires LexLeq(a, x) && multiset(u) == multiset(t) + multiset{x}
    ensures |u| > 0 ==> LexLeq(a, u[0])
  {
    if |u| > 0 {
      assert u[0] in multiset(u);
      if u[0] != x {
        assert u[0] in multiset(t);
        var k :| 0 <= k < |t| && t[k] == u[0];
      }
    }
  }

  /** `array.sort()` on strings: a sorted permutation of the input. */
  function SortStrings(s: seq<string>): (r: seq<string>)
    ensures Sorted(r)
    ensures multiset(r) == multiset(s)
  {
    if s == [] then []
    else
      assert s == s[..|s| - 1] + [s[|s| - 1]];
      Insert(s[|s| - 1], SortStrings(s[..|s| - 1]))
  }

  /** The head of a sorted sequence is below every element of it. */
  lemma HeadIsLeast(a: seq<string>, x: string)
    requires Sorted(a) && x in multiset(a)
    ensures |a| > 0 && LexLeq(a[0], x)
  {
    var i :| 0 <= i < |a| && a[i] == x;
    if i == 0 { LexLeqReflexive(x); }
  }

  lemma TailMultiset(a: seq<string>)
    requires |a| > 0
    ensures multiset(a[1..]) == multiset(a) - multiset{a[0]}
  {
    assert a == [a[0]] + a[1..];
  }

  /** A sorted sequence is determined by its multiset of elements. */
  lemma {:induction false} SortedUnique(a: seq<string>, b: seq<string>)
    requires Sorted(a) && Sorted(b) && multiset(a) == multiset(b)
    ensures a == b
    decreases |a|
  {
    if a == [] {
      assert |multiset(b)| == 0;
    } else {
      HeadIsLeast(b, a[0]);
      HeadIsLeast(a, b[0]);
      LexLeqAntisymmetric(a[0], b[0]);
      TailMultiset(a);
      TailMultiset(b);
      SortedUnique(a[1..], b[1..]);
      assert a == [a[0]] + a[1..] && b == [b[0]] + b[1..];
    }
  }

  /** Sorting forgets the order of its input: permutations sort to the same sequence. */
  lemma SortIgnoresOrder(s: seq<string>, t: seq<string>)
    requires multiset(s) == multiset(t)
    ensures SortStrings(s) == SortStrings(t)
  {
    SortedUnique(SortStrings(s), SortStrings(t));
  }
}

=== FILE: neighbor_graph.dfy ===
/**
 * The neighbour graph (`NeighborGraph`): how nodes and links are labelled,
 * coloured and sized, and the container dimensions the graph is drawn at,
 * which a resize observer keeps up to date.
 */
module NeighborGraph {
  import opened Wrappers
  import opened JsString
  import TxCells

  datatype GraphNode = GraphNode(id: string, name: string, color: Option<string>, val: Option<real>)
  datatype GraphLink = GraphLink(source: string, target: string, linkLabel: Option<string>, color: Option<string>,
                                 width: Option<real>)

  const PrimaryColor := "hsl(var(--primary))"
  const NodeDefaultColor := "rgba(0, 0, 0, 0.6)"
  const LinkDefaultColor := "rgba(0, 0, 0, 0.2)"

  /** `truncateAddress`: short or empty text as it is, longer text as its first 6 and last 4 characters. */
  function TruncateAddress(address: string): string {
    if address == "" || |address| < 10 then address else TxCells.Abbreviate(address)
  }

  /**
   * Text of fewer than 10 characters is kept; longer text becomes its first
   * six characters, `...` and its last four: 13 characters, which it keeps
   * when truncated again. Only text of more than 13 characters gets shorter;
   * one of 10 to 12 characters gets longer.
   */
  lemma TruncateAddressSpec(address: string)
    ensures |address| < 10 ==> TruncateAddress(address) == address
    ensures |address| >= 10 ==> var r := TruncateAddress(address);
                                && r == address[..6] + "..." + address[|address| - 4..]
                                && |r| == 13 && r[..6] == address[..6] && r[9..] == address[|address| - 4..]
    ensures TruncateAddress(TruncateAddress(address)) == TruncateAddress(address)
    ensures |TruncateAddress(address)| < |address| <==> |address| > 13
  {
    TxCells.AbbreviateShape(address);
    if |address| >= 10 {
      TxCells.AbbreviateIdempotent(address);
    }
  }

  /** `getNodeLabel` */
  function NodeLabel(node: GraphNode): string {
    TruncateAddress(node.id)
  }

  /** `getNodeColor` */
  function NodeColor(node: GraphNode, targetNodeId: string): string {
    if node.id == targetNodeId then PrimaryColor else NodeDefaultColor
  }

  /** `getLinkColor`: the link's own colour unless it is missing or empty. */
  function LinkColor(link: GraphLink): string {
    if link.color.Some? && link.color.value != "" then link.color.value else LinkDefaultColor
  }

  /** `nodeVal`: the node's `val`, or 2 when it is missing or 0. */
  function NodeVal(node: GraphNode): real {
    if node.val.Some? && node.val.value != 0.0 then node.val.value else 2.0
  }

  /** `linkWidth`: the link's `width`, or 1 when it is missing or 0. */
  function LinkWidth(link: GraphLink): real {
    if link.width.Some? && link.width.value != 0.0 then link.width.value else 1.0
  }

  /**
   * Exactly the target node is drawn in the primary colour; a node's label is
   * its truncated id; no node or link is ever drawn with size or width 0, and
   * a link keeps its own non-empty colour.
   */
  lemma Styling(node: GraphNode, link: GraphLink, targetNodeId: string)
    ensures NodeColor(node, targetNodeId) == PrimaryColor <==> node.id == targetNodeId
    ensures NodeColor(node, targetNodeId) != PrimaryColor ==> NodeColor(node, targetNodeId) == NodeDefaultColor
    ensures NodeLabel(node) == TruncateAddress(node.id)
    ensures |NodeLabel(node)| <= 13 || NodeLabel(node) == node.id
    ensures NodeVal(node) != 0.0 && LinkWidth(link) != 0.0
    ensures node.val.Some? && node.val.value != 0.0 ==> NodeVal(node) == node.val.value
    ensures link.width.Some? && link.width.value != 0.0 ==> LinkWidth(link) == link.width.value
    ensures LinkColor(link) != "" && (link.color.Some? && link.color.value != "" ==> LinkColor(link) == link.color.value)
  {
    assert |PrimaryColor| != |NodeDefaultColor|;
    TruncateAddressSpec(node.id);
  }

  // ---------------------------------------------------------------------------
  // Container dimensions
  // ---------------------------------------------------------------------------

  datatype Dimensions = Dimensions(width: real, height: real)

  const Unmeasured := Dimensions(0.0, 0.0)

  predicate Positive(d: Dimensions) {
    d.width > 0.0 && d.height > 0.0
  }

  /** The graph is drawn only at positive dimensions; before that a waiting message shows. */
  predicate DrawsGraph(d: Dimensions) {
    Positive(d)
  }

  /**
   * The resize handler as written: its closure is created once, at mount, so
   * the "changed" test compares the new size with the dimensions of that
   * moment, `{0, 0}`, and not with the current ones. The result is the update
   * it issues, if any.
   */
  function ResizeAsWritten(entry: Option<Dimensions>): Option<Dimensions> {
    var captured := Unmeasured;
    if entry.Some? && Positive(entry.value)
       && (entry.value.width != captured.width || entry.value.height != captured.height)
    then entry
    else None
  }

  /** The handler as intended: update only to a positive size that differs from the current one. */
  function Resize(current: Dimensions, entry: Option<Dimensions>): Option<Dimensions> {
    if entry.Some? && Positive(entry.value) && entry.value != current then entry else None
  }

  /** The dimensions after a handler call that issued `update`. */
  function Apply(current: Dimensions, update: Option<Dimensions>): Dimensions {
    update.GetOr(current)
  }

  /**
   * As written, the "changed" test never filters anything: every positive
   * size is an update, even the size already shown. A container of 800 by
   * 600 reported again at 800 by 600 re-sets its dimensions.
   */
  lemma ResizeAsWrittenAlwaysUpdates(d: Dimensions)
    ensures Positive(d) <==> ResizeAsWritten(Some(d)) == Some(d)
    ensures var shown := Dimensions(800.0, 600.0);
            ResizeAsWritten(Some(shown)) == Some(shown) && Resize(shown, Some(shown)) == None
  {
  }

  /**
   * The intended handler updates exactly on a positive, different size; the
   * dimensions it leaves are the same the handler as written leaves, so the
   * difference is only the redundant update; and positive dimensions stay
   * positive.
   */
  lemma ResizeSpec(current: Dimensions, entry: Option<Dimensions>)
    ensures Resize(current, entry).Some? <==> entry.Some? && Positive(entry.value) && entry.value != current
    ensures Apply(current, Resize(current, entry)) == Apply(current, ResizeAsWritten(entry))
    ensures current == Unmeasured || Positive(current) ==>
              var next := Apply(current, Resize(current, entry));
              next == Unmeasured || Positive(next)
  {
  }

  /**
   * The waiting message shows until the first positive size arrives; from
   * then on the graph is drawn, and it stays drawn whatever is reported.
   */
  lemma DrawsOnceMeasured(current: Dimensions, entry: Option<Dimensions>)
    requires current == Unmeasured || Positive(current)
    ensures !DrawsGraph(Unmeasured)
    ensures DrawsGraph(Apply(current, ResizeAsWritten(entry))) <==> DrawsGraph(current) || (entry.Some? && Positive(entry.value))
  {
  }

  /** The container the graph is drawn in. */
  class GraphContainer {
    var dimensions: Dimensions

    /** Dimensions are either the initial `{0, 0}` or positive. */
    predicate Valid()
      reads this
    {
      dimensions == Unmeasured || Positive(dimensions)
    }

    constructor ()
      ensures dimensions == Unmeasured && Valid()
    {
      dimensions := Unmeasured;
    }

    /** The first measurement at mount: taken only when both sides are positive. */
    method Measure(rect: Dimensions)
      requires Valid()
      modifies this
      ensures Valid()
      ensures dimensions == (if Positive(rect) then rect else old(dimensions))
    {
      if rect.width > 0.0 && rect.height > 0.0 {
        dimensions := rect;
      }
    }

    /**
     * A resize observer callback with its entries; only the first entry
     * counts. The callback was created at mount, so its "changed" test reads
     * the dimensions of that moment, `{0, 0}`: `updated` is whether it calls
     * `setDimensions`. The dimensions it leaves are those of the intended
     * handler all the same.
     */
    method HandleResize(entries: seq<Dimensions>) returns (updated: bool)
      requires Valid()
      modifies this
      ensures Valid()
      ensures var entry := if |entries| > 0 then Some(entries[0]) else None;
              && updated == ResizeAsWritten(entry).Some?
              && dimensions == Apply(old(dimensions), ResizeAsWritten(entry))
              && dimensions == Apply(old(dimensions), Resize(old(dimensions), entry))
    {
      ghost var entry := if |entries| > 0 then Some(entries[0]) else None;
      ResizeSpec(dimensions, entry);
      var captured := Unmeasured;  // the closure's copy of the state at mount
      updated := false;
      if |entries| > 0 {
        var size := entries[0];
        if size.width > 0.0 && size.height > 0.0 && (size.width != captured.width || size.height != captured.height) {
          dimensions := size;
          updated := true;
        }
      }
    }
  }
}

=== FILE: query_keys.dfy ===
/**
 * Query keys and fetches built by the query-option builders. A key is a
 * resource tag followed by the request parameters; the fetch a builder's
 * `queryFn` performs is represented by the `Request` it sends.
 */
module QueryKeys {
  import opened JsString

  /** One element of a query key; `Json(items)` is `JSON.stringify` of an array of strings. */
  datatype KeyPart = Str(s: string) | Num(n: int) | Json(items: seq<string>)

  type QueryKey = seq<KeyPart>

  /** One entry of `interactions_context`. */
  datatype ContextItem = ContextItem(bAddress: string, t1BlockNumber: int)

  datatype NeighborParams = NeighborParams(
    targetAddress: string,
    interactionsContext: seq<ContextItem>,
    busyThreshold: int,
    blockWindow: int,
    baseHop2Limit: int,
    maxHop2Limit: int)

  /** The backend call a `queryFn` makes, with its arguments. */
  datatype Request =
    | Search(query: string, limit: int)
    | AddressInfo(address: string)
    | ExternalTx(address: string, page: int, pageSize: int)
    | InternalTx(address: string, page: int, pageSize: int)
    | Transaction(hash: string)
    | TxInternalTx(hash: string, offset: int, limit: int)
    | BlockInfo(blockNumber: int)
    | BlockTx(blockNumber: int, offset: int, limit: int)
    | ExternalNeighbors(params: NeighborParams)
    | InternalNeighbors(params: NeighborParams)

  datatype QueryOptions = QueryOptions(queryKey: QueryKey, fetch: Request)

  // ---------------------------------------------------------------------------
  // The builders
  // ---------------------------------------------------------------------------

  function SearchQueryOptions(query: string, limit: int): QueryOptions {
    QueryOptions([Str("search"), Str(query), Num(limit)], Search(query, limit))
  }

  function AddressInfoQueryOptions(address: string): QueryOptions {
    QueryOptions([Str("address-info"), Str(address)], AddressInfo(address))
  }

  function AddressExternalTxQueryOptions(address: string, page: int, pageSize: int): QueryOptions {
    QueryOptions([Str("external-tx"), Str(address), Num(page), Num(pageSize)], ExternalTx(address, page, pageSize))
  }

  function AddressInternalTxQueryOptions(address: string, page: int, pageSize: int): QueryOptions {
    QueryOptions([Str("internal-tx"), Str(address), Num(page), Num(pageSize)], InternalTx(address, page, pageSize))
  }

  function TransactionQueryOptions(hash: string): QueryOptions {
    QueryOptions([Str("transaction"), Str(hash)], Transaction(hash))
  }

  function TxInternalTxQueryOptions(hash: string, offset: int, limit: int): QueryOptions {
    QueryOptions([Str("tx-internal-tx"), Str(hash), Num(offset), Num(limit)], TxInternalTx(hash, offset, limit))
  }

  function BlockInfoQueryOptions(blockNumber: int): QueryOptions {
    QueryOptions([Str("block-info"), Num(blockNumber)], BlockInfo(blockNumber))
  }

  function BlockTxQueryOptions(blockNumber: int, offset: int, limit: int): QueryOptions {
    QueryOptions([Str("block-tx"), Num(blockNumber), Num(offset), Num(limit)], BlockTx(blockNumber, offset, limit))
  }

  /** `${n}` for an integer: its decimal numeral, with a minus sign when negative. */
  function NumberString(n: int): (r: string)
    ensures |r| > 0
  {
    if n < 0 then "-" + DecimalString(-n) else DecimalString(n)
  }

  /** `${c.b_address}-${c.t1_block_number}` */
  function ContextEntry(c: ContextItem): string {
    c.bAddress + "-" + NumberString(c.t1BlockNumber)
  }

  /** `interactions_context.map(...)`: one entry per context item, in order. */
  function ContextEntries(ctx: seq<ContextItem>): (r: seq<string>)
    ensures |r| == |ctx|
    ensures forall i :: 0 <= i < |ctx| ==> r[i] == ContextEntry(ctx[i])
  {
    seq(|ctx|, i requires 0 <= i < |ctx| => ContextEntry(ctx[i]))
  }

  /** `JSON.stringify(entries.sort())` */
  function ContextKey(ctx: seq<ContextItem>): KeyPart {
    Json(SortStrings(ContextEntries(ctx)))
  }

  function NeighborKey(tag: string, p: NeighborParams): QueryKey {
    [Str(tag), Str(p.targetAddress), ContextKey(p.interactionsContext),
     Num(p.busyThreshold), Num(p.blockWindow), Num(p.baseHop2Limit), Num(p.maxHop2Limit)]
  }

  function ExternalNeighborsQueryOptions(p: NeighborParams): QueryOptions {
    QueryOptions(NeighborKey("external-neighbors", p), ExternalNeighbors(p))
  }

  function InternalNeighborsQueryOptions(p: NeighborParams): QueryOptions {
    QueryOptions(NeighborKey("internal-neighbors", p), InternalNeighbors(p))
  }

  // ---------------------------------------------------------------------------
  // One entry point and its properties
  // ---------------------------------------------------------------------------

  /** The position of a request's constructor in the declaration. */
  function Kind(req: Request): (k: nat)
    ensures k < |Tags|
  {
    match req
    case Search(_, _) => 0
    case AddressInfo(_) => 1
    case ExternalTx(_, _, _) => 2
    case InternalTx(_, _, _) => 3
    case Transaction(_) => 4
    case TxInternalTx(_, _, _) => 5
    case BlockInfo(_) => 6
    case BlockTx(_, _, _) => 7
    case ExternalNeighbors(_) => 8
    case InternalNeighbors(_) => 9
  }

  /** The resource tags, one per kind of request, in declaration order. */
  const Tags: seq<string> := [
    "search", "address-info", "external-tx", "internal-tx", "transaction",
    "tx-internal-tx", "block-info", "block-tx", "external-neighbors", "internal-neighbors"]

  /**
   * The options the builder for `req`'s kind returns for `req`'s parameters:
   * its key starts with the kind's tag and its `queryFn` sends exactly `req`.
   */
  function OptionsFor(req: Request): (r: QueryOptions)
    ensures r.fetch == req
    ensures |r.queryKey| > 0 && r.queryKey[0] == Str(Tags[Kind(req)])
  {
    match req
    case Search(q, l) => SearchQueryOptions(q, l)
    case AddressInfo(a) => AddressInfoQueryOptions(a)
    case ExternalTx(a, p, s) => AddressExternalTxQueryOptions(a, p, s)
    case InternalTx(a, p, s) => AddressInternalTxQueryOptions(a, p, s)
    case Transaction(h) => TransactionQueryOptions(h)
    case TxInternalTx(h, o, l) => TxInternalTxQueryOptions(h, o, l)
    case BlockInfo(b) => BlockInfoQueryOptions(b)
    case BlockTx(b, o, l) => BlockTxQueryOptions(b, o, l)
    case ExternalNeighbors(p) => ExternalNeighborsQueryOptions(p)
    case InternalNeighbors(p) => InternalNeighborsQueryOptions(p)
  }

  /** No two kinds share a tag. */
  lemma TagsDistinct(i: nat, j: nat)
    requires i < j < |Tags|
    ensures Tags[i] != Tags[j]
  {
    assert |Tags[i]| != |Tags[j]| || Tags[i][0] != Tags[j][0];
  }

  predicate IsNeighbors(req: Request) {
    req.ExternalNeighbors? || req.InternalNeighbors?
  }

  /**
   * Apart from the neighbour kinds, the key identifies the request: equal
   * keys mean the same kind with the same parameters, so requests that
   * differ in any parameter (a page, a page size, a limit) are cached apart.
   */
  lemma KeyIdentifiesRequest(r1: Request, r2: Request)
    requires !IsNeighbors(r1) && !IsNeighbors(r2)
    ensures OptionsFor(r1).queryKey == OptionsFor(r2).queryKey <==> r1 == r2
  {
    if OptionsFor(r1).queryKey == OptionsFor(r2).queryKey {
      var k1, k2 := OptionsFor(r1).queryKey, OptionsFor(r2).queryKey;
      assert k1[0] == k2[0] && |k1| == |k2|;
      assert forall i :: 0 <= i < |k1| ==> k1[i] == k2[i];
    }
  }

  /** Mapping a context to its entries preserves reordering. */
  lemma {:induction false} EntriesPermute(a: seq<ContextItem>, b: seq<ContextItem>)
    requires multiset(a) == multiset(b)
    ensures multiset(ContextEntries(a)) == multiset(ContextEntries(b))
    decreases |a|
  {
    if a == [] {
      assert |multiset(b)| == 0;
      assert b == [];
    } else {
      assert a[0] in multiset(b);
      var k :| 0 <= k < |b| && b[k] == a[0];
      RemoveAt(a, b, k);
      EntriesPermute(a[1..], b[..k] + b[k + 1..]);
      EntriesRemove(a, 0);
      assert a[..0] + a[1..] == a[1..];
      EntriesRemove(b, k);
    }
  }

  /** The entries of a context are the entry of item `k` and those of the other items. */
  lemma EntriesRemove(b: seq<ContextItem>, k: nat)
    requires k < |b|
    ensures multiset(ContextEntries(b)) == multiset{ContextEntry(b[k])} + multiset(ContextEntries(b[..k] + b[k + 1..]))
  {
    assert b == b[..k] + [b[k]] + b[k + 1..];
    EntriesSplit(b[..k], b[k], b[k + 1..]);
    EntriesConcat(b[..k], b[k + 1..]);
  }

  lemma EntriesSplit(front: seq<ContextItem>, x: ContextItem, back: seq<ContextItem>)
    ensures ContextEntries(front + [x] + back) == ContextEntries(front) + [ContextEntry(x)] + ContextEntries(back)
  {
  }

  /** Taking the same element out of two permutations leaves permutations. */
  lemma RemoveAt<T>(a: seq<T>, b: seq<T>, k: nat)
    requires |a| > 0 && multiset(a) == multiset(b) && k < |b| && b[k] == a[0]
    ensures multiset(a[1..]) == multiset(b[..k] + b[k + 1..])
    ensures b == b[..k] + [a[0]] + b[k + 1..] && a == [a[0]] + a[1..]
  {
    assert b == b[..k] + [a[0]] + b[k + 1..];
    assert a == [a[0]] + a[1..];
    assert multiset(b) == multiset(b[..k]) + multiset{a[0]} + multiset(b[k + 1..]);
    assert multiset(a) == multiset{a[0]} + multiset(a[1..]);
    calc {
      multiset(a[1..]);
      multiset(a) - multiset{a[0]};
      multiset(b) - multiset{a[0]};
      multiset(b[..k]) + multiset(b[k + 1..]);
      multiset(b[..k] + b[k + 1..]);
    }
  }

  lemma EntriesConcat(a: seq<ContextItem>, b: seq<ContextItem>)
    ensures ContextEntries(a + b) == ContextEntries(a) + ContextEntries(b)
  {
  }

  /** The context key lists one entry per context item, duplicates kept, in sorted order. */
  lemma ContextKeyEntries(ctx: seq<ContextItem>)
    ensures |ContextKey(ctx).items| == |ctx|
    ensures Sorted(ContextKey(ctx).items)
    ensures multiset(ContextKey(ctx).items) == multiset(ContextEntries(ctx))
  {
    var items := ContextKey(ctx).items;
    assert |multiset(items)| == |multiset(ContextEntries(ctx))|;
  }

  /** The context key does not depend on the order of `interactions_context`. */
  lemma ContextKeyOrderFree(a: seq<ContextItem>, b: seq<ContextItem>)
    requires multiset(a) == multiset(b)
    ensures ContextKey(a) == ContextKey(b)
  {
    EntriesPermute(a, b);
    SortIgnoresOrder(ContextEntries(a), ContextEntries(b));
  }

  /**
   * Two neighbour keys are equal exactly when the requests are of the same
   * kind, agree on every scalar parameter, and their contexts spell the same
   * entries up to order.
   */
  lemma NeighborKeysEqual(r1: Request, r2: Request)
    requires IsNeighbors(r1) && IsNeighbors(r2)
    ensures OptionsFor(r1).queryKey == OptionsFor(r2).queryKey
            <==> && r1.ExternalNeighbors? == r2.ExternalNeighbors?
                 && r1.params.(interactionsContext := []) == r2.params.(interactionsContext := [])
                 && multiset(ContextEntries(r1.params.interactionsContext))
                    == multiset(ContextEntries(r2.params.interactionsContext))
  {
    var p1, p2 := r1.params, r2.params;
    var k1, k2 := OptionsFor(r1).queryKey, OptionsFor(r2).queryKey;
    var e1, e2 := ContextEntries(p1.interactionsContext), ContextEntries(p2.interactionsContext);
    if k1 == k2 {
      assert k1[0] == k2[0] && k1[1] == k2[1] && k1[2] == k2[2];
      assert k1[3] == k2[3] && k1[4] == k2[4] && k1[5] == k2[5] && k1[6] == k2[6];
      assert SortStrings(e1) == SortStrings(e2);
    }
    if multiset(e1) == multiset(e2) {
      SortIgnoresOrder(e1, e2);
    }
  }

  /** External and internal neighbour keys never coincide. */
  lemma NeighborKindsApart(p1: NeighborParams, p2: NeighborParams)
    ensures ExternalNeighborsQueryOptions(p1).queryKey != InternalNeighborsQueryOptions(p2).queryKey
  {
    assert ExternalNeighborsQueryOptions(p1).queryKey[0] != InternalNeighborsQueryOptions(p2).queryKey[0];
  }
}

=== FILE: search_input.dfy ===
/**
 * The header search box (`SearchInput`): the typed text, the debounced text
 * the query runs on, the focus flag, the one debounce timer that may be
 * pending, and the cached search keys; and the dropdown it shows.
 *
 * The debounce is modelled by events, not by time: a timer that is pending
 * holds the value it will store, `TimerFires` is its expiry, and a change of
 * the input cancels it (the effect's cleanup) before anything else happens.
 */
module SearchInput {
  import opened Wrappers
  import opened JsString
  import opened Dropdown
  import QueryKeys

  /** `limit`: the number of results the box asks for. */
  const Limit := 5

  /** The box's state; `pending` is the value a scheduled timer will store. */
  datatype BoxState = BoxState(
    inputValue: string,
    debouncedValue: string,
    isFocused: bool,
    pending: Option<string>,
    cache: set<QueryKeys.QueryKey>)

  datatype Event =
    | Focus                    // the input gets focus
    | InputChange(v: string)   // the user edits the input to `v`
    | TimerFires               // the pending debounce timer expires
    | ItemClick(v: string)     // a dropdown row is clicked, emitting `v`
    | OutsideClick             // a mouse press outside the box
    | QueryLoaded              // the enabled query stores its result under its key

  const Init := BoxState("", "", false, None, {})

  /** The key the box's query runs under. */
  function SearchKey(s: BoxState): QueryKeys.QueryKey {
    QueryKeys.SearchQueryOptions(s.debouncedValue, Limit).queryKey
  }

  /** `["search", "", limit]`: the key of the recommendations, evicted on an outside click. */
  const RecommendationKey: QueryKeys.QueryKey := QueryKeys.SearchQueryOptions("", Limit).queryKey

  /** The query runs only while the box has focus. */
  predicate QueryEnabled(s: BoxState) {
    s.isFocused
  }

  /**
   * The debounce effect after `inputValue` changed to `v`: the old timer is
   * cancelled; an empty input is copied at once, any other schedules a timer.
   */
  function Debounce(s: BoxState, v: string): BoxState {
    if v == "" then s.(inputValue := v, debouncedValue := "", pending := None)
    else s.(inputValue := v, pending := Some(v))
  }

  /** One event. Setting the input to the value it has changes nothing and re-runs no effect. */
  function Step(s: BoxState, e: Event): BoxState {
    match e
    case Focus => s.(isFocused := true)
    case InputChange(v) => if v == s.inputValue then s else Debounce(s, v)
    case TimerFires =>
      if s.pending.Some? then s.(debouncedValue := s.pending.value, pending := None) else s
    case ItemClick(v) =>
      var clicked := s.(debouncedValue := v, isFocused := false);
      if v == s.inputValue then clicked else Debounce(clicked, v).(debouncedValue := v)
    case OutsideClick => s.(isFocused := false, cache := s.cache - {RecommendationKey})
    case QueryLoaded => if QueryEnabled(s) then s.(cache := s.cache + {SearchKey(s)}) else s
  }

  function Run(s: BoxState, events: seq<Event>): BoxState
    decreases |events|
  {
    if events == [] then s else Run(Step(s, events[0]), events[1..])
  }

  /**
   * The debounce invariant: a pending timer holds the current, non-empty input;
   * with no timer pending the debounced value is the input.
   */
  predicate Settled(s: BoxState) {
    && (s.pending.Some? ==> s.pending.value == s.inputValue && s.inputValue != "")
    && (s.pending.None? ==> s.debouncedValue == s.inputValue)
  }

  lemma StepSettled(s: BoxState, e: Event)
    requires Settled(s)
    ensures Settled(Step(s, e))
  {
  }

  /** Every state the box reaches from its initial one keeps the debounce invariant. */
  lemma {:induction false} RunSettled(s: BoxState, events: seq<Event>)
    requires Settled(s)
    ensures Settled(Run(s, events))
    decreases |events|
  {
    if events != [] {
      StepSettled(s, events[0]);
      RunSettled(Step(s, events[0]), events[1..]);
    }
  }

  /** Clearing the input clears the debounced value at once and leaves no timer. */
  lemma ClearIsImmediate(s: BoxState)
    ensures Step(s, InputChange("")).debouncedValue == "" || (s.inputValue == "" && Step(s, InputChange("")) == s)
    ensures Settled(s) ==> Step(s, InputChange("")).debouncedValue == "" && Step(s, InputChange("")).pending.None?
  {
  }

  /**
   * A firing timer stores the input as it is now: a later change has cancelled
   * the timer of any earlier value. So, from a reachable state, a timer never
   * stores a stale value, and afterwards the debounced value is the input.
   */
  lemma TimerStoresCurrentInput(events: seq<Event>)
    ensures var s := Run(Init, events);
            var t := Step(s, TimerFires);
            && t.debouncedValue == s.inputValue && t.pending.None?
            && t.inputValue == s.inputValue && t.isFocused == s.isFocused && t.cache == s.cache
  {
    RunSettled(Init, events);
  }

  /** A change to a new non-empty value replaces any pending timer by one for that value, leaving the debounced value. */
  lemma ChangeReschedules(s: BoxState, v: string)
    requires v != "" && v != s.inputValue
    ensures Step(s, InputChange(v)).pending == Some(v)
    ensures Step(s, InputChange(v)).debouncedValue == s.debouncedValue
  {
  }

  /**
   * A click sets the input and the debounced value to the clicked value and
   * closes the dropdown; the timer the input change may schedule will store
   * that same value, so it changes nothing when it fires.
   */
  lemma ClickSettles(s: BoxState, v: string)
    requires Settled(s)
    ensures var t := Step(s, ItemClick(v));
            && t.inputValue == v && t.debouncedValue == v && !t.isFocused && t.cache == s.cache
            && Settled(t)
            && Step(t, TimerFires).debouncedValue == v
  {
  }

  /**
   * An outside click closes the dropdown and evicts exactly the recommendations'
   * key: a key other than `["search", "", 5]` stays cached, and that one is gone.
   */
  lemma OutsideClickEvicts(s: BoxState)
    ensures var t := Step(s, OutsideClick);
            && !t.isFocused && t.inputValue == s.inputValue && t.debouncedValue == s.debouncedValue
            && RecommendationKey !in t.cache
            && (forall k :: k in s.cache && k != RecommendationKey ==> k in t.cache)
            && t.cache <= s.cache
  {
  }

  /**
   * The evicted key is the box's own key exactly when the debounced value is
   * empty: the evicted data are the recommendations, and a cached search for
   * any other text is kept.
   */
  lemma EvictedIsEmptySearch(s: BoxState)
    ensures SearchKey(s) == RecommendationKey <==> s.debouncedValue == ""
  {
    QueryKeys.KeyIdentifiesRequest(QueryKeys.Search(s.debouncedValue, Limit), QueryKeys.Search("", Limit));
  }

  /** The query is enabled only while the box is focused; a load completes at once, under the current key. */
  lemma LoadNeedsFocus(s: BoxState)
    ensures Step(s, QueryLoaded).cache == (if s.isFocused then s.cache + {SearchKey(s)} else s.cache)
    ensures !s.isFocused ==> Step(s, QueryLoaded) == s
  {
  }

  // ---------------------------------------------------------------------------
  // The box as an object
  // ---------------------------------------------------------------------------

  class SearchBox {
    var inputValue: string
    var debouncedValue: string
    var isFocused: bool
    var pending: Option<string>
    var cache: set<QueryKeys.QueryKey>

    function State(): BoxState
      reads this
    {
      BoxState(inputValue, debouncedValue, isFocused, pending, cache)
    }

    constructor ()
      ensures State() == Init
    {
      inputValue, debouncedValue, isFocused, pending, cache := "", "", false, None, {};
    }

    /** `handleFocus` */
    method Focus()
      modifies this
      ensures State() == Step(old(State()), Event.Focus)
    {
      isFocused := true;
    }

    /** The input's `onChange` and the debounce effect it triggers. */
    method InputChange(v: string)
      modifies this
      ensures State() == Step(old(State()), Event.InputChange(v))
    {
      if v != inputValue {
        inputValue := v;
        pending := None;
        if v == "" {
          debouncedValue := "";
        } else {
          pending := Some(v);
        }
      }
    }

    /** The debounce timer's callback. */
    method TimerFires()
      modifies this
      ensures State() == Step(old(State()), Event.TimerFires)
    {
      if pending.Some? {
        debouncedValue := pending.value;
        pending := None;
      }
    }

    /** `handleItemClick` */
    method ItemClick(v: string)
      modifies this
      ensures State() == Step(old(State()), Event.ItemClick(v))
    {
      var changed := v != inputValue;
      inputValue := v;
      debouncedValue := v;
      isFocused := false;
      if changed {
        pending := if v == "" then None else Some(v);
      }
    }

    /** `handleClickOutside` for a press outside the container. */
    method OutsideClick()
      modifies this
      ensures State() == Step(old(State()), Event.OutsideClick)
    {
      isFocused := false;
      cache := cache - {RecommendationKey};
    }

    /** The enabled query's fetch, started and completed in one step, caching its result. */
    method QueryLoaded()
      modifies this
      ensures State() == Step(old(State()), Event.QueryLoaded)
    {
      if isFocused {
        cache := cache + {SearchKey(State())};
      }
    }
  }

  // ---------------------------------------------------------------------------
  // The dropdown
  // ---------------------------------------------------------------------------

  /** The rows of this box: plain texts, and a click emits the raw value (no checksum). */
  function TxRow(item: TxItem): Row {
    Row(item.hash, [Field(item.hash, None), Field(item.from, None), Field(item.to, None)])
  }

  function AddressRow(item: AddressItem): Row {
    Row(item.address, [Field(item.address, None)] + (if item.name != "" then [Field(item.name, None)] else []))
  }

  function LabelRow(item: LabelItem): Row {
    Row(item.address, [Field(item.labelText, None), Field(item.address, None)])
  }

  function BlockRow(item: BlockItem): Row {
    Row(DecimalString(item.number), [Field(DecimalString(item.number), None), Field(item.miner, None)])
  }

  const BoxRenderer := Renderer(TxRow, AddressRow, LabelRow, BlockRow)

  const NoResults := Results(None, None, None, None, None, None)

  /**
   * The dropdown: nothing while unfocused; otherwise the skeleton, the error,
   * or the recommendation block for an empty query (whatever the status code)
   * and the block the status code picks for a non-empty one.
   */
  function DropdownSections(s: BoxState, isPending: bool, isError: bool, queryResult: Option<QueryResult>)
    : Option<seq<Section>>
  {
    if !s.isFocused then None
    else if isPending then Some([Loading])
    else if isError then Some([LoadFailed])
    else
      var dv := s.debouncedValue;
      var statusCode := StatusOf(queryResult);
      var results := ResultsOf(queryResult);
      Some(
        (if dv == "" && NonEmpty(results.recommendations)
         then [Recommendations(MapRows(results.recommendations.value, AddressRow))]
         else if dv == "" then [NoRecommendations]
         else [])
        + (if dv != "" && statusCode == Some(1001) then CategorySections(results, BoxRenderer) else [])
        + (if dv != "" && statusCode == Some(1002) then
             (if NonEmpty(results.fallback) then [DidYouMean(FallbackRows(results.fallback.value, BoxRenderer))]
              else [NoMatch])
           else [])
        + (if dv != "" && statusCode != Some(1001) && statusCode != Some(1002) then [NoMatch] else []))
  }

  function StatusOf(queryResult: Option<QueryResult>): Option<int> {
    if queryResult.Some? then Some(queryResult.value.statusCode) else None
  }

  function ResultsOf(queryResult: Option<QueryResult>): Results {
    if queryResult.Some? then queryResult.value.results else NoResults
  }

  /** The dropdown shows exactly while the box has focus; pending wins over error. */
  lemma DropdownNeedsFocus(s: BoxState, isPending: bool, isError: bool, queryResult: Option<QueryResult>)
    ensures DropdownSections(s, isPending, isError, queryResult).Some? <==> s.isFocused
    ensures s.isFocused && isPending ==> DropdownSections(s, isPending, isError, queryResult) == Some([Loading])
    ensures s.isFocused && !isPending && isError ==> DropdownSections(s, isPending, isError, queryResult) == Some([LoadFailed])
  {
  }

  /** With an empty debounced query the recommendation block shows, whatever the status code says. */
  lemma EmptyQueryRecommends(s: BoxState, queryResult: Option<QueryResult>)
    requires s.isFocused && s.debouncedValue == ""
    ensures var results := ResultsOf(queryResult);
            DropdownSections(s, false, false, queryResult)
            == Some(if NonEmpty(results.recommendations)
                    then [Recommendations(MapRows(results.recommendations.value, AddressRow))]
                    else [NoRecommendations])
  {
    var results := ResultsOf(queryResult);
    var head := if NonEmpty(results.recommendations)
                then [Recommendations(MapRows(results.recommendations.value, AddressRow))]
                else [NoRecommendations];
    assert DropdownSections(s, false, false, queryResult) == Some(head + [] + [] + []);
    assert head + [] + [] + [] == head;
    assert DropdownSections(s, false, false, queryResult) == Some(head);
  }

  /**
   * With a non-empty debounced query exactly one block shows: 1001 the
   * category sections, 1002 the suggestions or no-match, any other status
   * (a missing one included) the no-match message.
   */
  lemma NonEmptyQueryBlocks(s: BoxState, queryResult: Option<QueryResult>)
    requires s.isFocused && s.debouncedValue != ""
    ensures var out := DropdownSections(s, false, false, queryResult);
            var sc := StatusOf(queryResult);
            var results := ResultsOf(queryResult);
            && (sc == Some(1001) ==> out == Some(CategorySections(results, BoxRenderer)))
            && (sc == Some(1002) ==> out == Some(if NonEmpty(results.fallback)
                                                 then [DidYouMean(FallbackRows(results.fallback.value, BoxRenderer))]
                                                 else [NoMatch]))
            && (sc != Some(1001) && sc != Some(1002) ==> out == Some([NoMatch]))
  {
    var sc := StatusOf(queryResult);
    var results := ResultsOf(queryResult);
    var out := DropdownSections(s, false, false, queryResult);
    var cats := CategorySections(results, BoxRenderer);
    var fallback := if NonEmpty(results.fallback)
                    then [DidYouMean(FallbackRows(results.fallback.value, BoxRenderer))]
                    else [NoMatch];
    if sc == Some(1001) {
      assert out == Some([] + cats + [] + []);
      assert [] + cats + [] + [] == cats;
    } else if sc == Some(1002) {
      assert out == Some([] + [] + fallback + []);
      assert [] + [] + fallback + [] == fallback;
    } else {
      assert out == Some([] + [] + [] + [NoMatch]);
      assert [] + [] + [] + [NoMatch] == [NoMatch];
    }
  }

  /**
   * A click on a row of this box emits the raw value: the hash, the address as
   * the backend sent it, or the block number in decimal; and clicking it puts
   * that value in the input and in the query.
   */
  lemma ClickValues(tx: TxItem, addr: AddressItem, lab: LabelItem, blk: BlockItem)
    ensures TxRow(tx).click == tx.hash
    ensures AddressRow(addr).click == addr.address
    ensures LabelRow(lab).click == lab.address
    ensures AllDigits(BlockRow(blk).click) && ParseDecimal(BlockRow(blk).click) == blk.number
  {
    DecimalRoundTrip(blk.number);
  }

  /** Nothing in this box is highlighted. */
  lemma NoHighlighting(tx: TxItem, addr: AddressItem, lab: LabelItem, blk: BlockItem)
    ensures forall f :: f in TxRow(tx).fields ==> f.matchInfo.None?
    ensures forall f :: f in AddressRow(addr).fields ==> f.matchInfo.None?
    ensures forall f :: f in LabelRow(lab).fields ==> f.matchInfo.None?
    ensures forall f :: f in BlockRow(blk).fields ==> f.matchInfo.None?
  {
  }
}

=== FILE: search_results.dfy ===
/**
 * The search results list (`SearchResultsList`): which sections show for a
 * loading flag, an error flag, the backend status code and the debounced
 * query, and how each result item becomes a row (checksummed addresses,
 * per-field match highlighting, the value a click emits).
 */
module SearchResults {
  import opened Wrappers
  import opened JsString
  import opened Dropdown
  import Checksum

  type Keccak = seq<Checksum.byte> -> Checksum.Digest

  /** `item.match_info?.matched_field === field ? item.match_info : undefined` */
  function MatchFor(mi: Option<MatchInfo>, field: string): (r: Option<MatchInfo>)
    ensures r.Some? <==> mi.Some? && mi.value.matchedField == field
    ensures r.Some? ==> r == mi
  {
    if mi.Some? && mi.value.matchedField == field then mi else None
  }

  /** `a || b` on strings: `a` unless it is empty. */
  function OrElse(a: string, b: string): string {
    if a != "" then a else b
  }

  function TxRow(item: TxItem, keccak: Keccak): Row {
    var from := Checksum.Checksummed(item.from, keccak);
    var to := Checksum.Checksummed(item.to, keccak);
    Row(item.hash, [Field(item.hash, MatchFor(item.matchInfo, "hash")),
                    Field(from, MatchFor(item.matchInfo, "from")),
                    Field(to, MatchFor(item.matchInfo, "to"))])
  }

  function AddressRow(item: AddressItem, keccak: Keccak): Row {
    var address := Checksum.Checksummed(item.address, keccak);
    Row(address, [Field(address, MatchFor(item.matchInfo, "address"))]
                 + (if item.name != "" then [Field(item.name, MatchFor(item.matchInfo, "name"))] else []))
  }

  function LabelRow(item: LabelItem, keccak: Keccak): Row {
    var text := OrElse(OrElse(item.display, item.name), item.labelText);
    var address := Checksum.Checksummed(item.address, keccak);
    Row(address, [Field(text, item.matchInfo), Field(address, None)])
  }

  function BlockRow(item: BlockItem, keccak: Keccak): Row {
    var number := DecimalString(item.number);
    Row(number, [Field(number, MatchFor(item.matchInfo, "number_prefix")),
                 Field(Checksum.Checksummed(item.miner, keccak), None)])
  }

  function ListRenderer(keccak: Keccak): Renderer {
    Renderer(item => TxRow(item, keccak), item => AddressRow(item, keccak),
             item => LabelRow(item, keccak), item => BlockRow(item, keccak))
  }

  const NoResults := Results(None, None, None, None, None, None)

  /** `statusCode ?? 0` */
  function StatusOrZero(statusCode: Option<int>): int {
    statusCode.GetOr(0)
  }

  /** Case 1's test: an empty query answered with 1000, or any query answered with 9999. */
  predicate RecommendationsAsked(debouncedValue: string, statusCode: Option<int>) {
    (debouncedValue == "" && statusCode == Some(1000)) || statusCode == Some(9999)
  }

  /** `SearchResultsList`: the sections shown, top to bottom. */
  function SearchResultsList(isLoading: bool, isError: bool, queryResult: Option<QueryResult>,
                             debouncedValue: string, keccak: Keccak): seq<Section>
  {
    if isLoading then [Loading]
    else if isError then [LoadFailed]
    else
      var statusCode := if queryResult.Some? then Some(queryResult.value.statusCode) else None;
      var results := if queryResult.Some? then queryResult.value.results else NoResults;
      RecommendationPart(debouncedValue, statusCode, results, ListRenderer(keccak))
      + ResultParts(debouncedValue, statusCode, results, ListRenderer(keccak))
  }

  /** Case 1: the recommendations, or their absence, when asked for. */
  function RecommendationPart(debouncedValue: string, statusCode: Option<int>, results: Results, r: Renderer)
    : seq<Section>
  {
    if RecommendationsAsked(debouncedValue, statusCode) && NonEmpty(results.recommendations)
    then [Recommendations(MapRows(results.recommendations.value, r.addressRow))]
    else if RecommendationsAsked(debouncedValue, statusCode) then [NoRecommendations]
    else []
  }

  /** Cases 2 to 4: the prefix hit, the fallback suggestions, any other status. */
  function ResultParts(debouncedValue: string, statusCode: Option<int>, results: Results, r: Renderer): seq<Section> {
    // case 2: direct prefix hit
    (if debouncedValue != "" && statusCode == Some(1001) then CategorySections(results, r) else [])
    // case 3: prefix miss, fallback suggestions
    + (if debouncedValue != "" && statusCode == Some(1002) then
         (if NonEmpty(results.fallback) then [DidYouMean(FallbackRows(results.fallback.value, r))] else [NoMatch])
       else [])
    // case 4: any other status
    + (if debouncedValue != "" && StatusOrZero(statusCode) !in {1000, 1001, 1002, 9999} then [NoMatch] else [])
  }

  /** No skeleton, failure message or recommendation section. */
  predicate Quiet(sections: seq<Section>) {
    forall s :: s in sections ==> !s.Recommendations? && s != NoRecommendations && s != Loading && s != LoadFailed
  }

  lemma QuietConcat(a: seq<Section>, b: seq<Section>, c: seq<Section>)
    requires Quiet(a) && Quiet(b) && Quiet(c)
    ensures Quiet(a + b + c)
  {
  }

  /** Cases 2 to 4 never show the skeleton, the failure message or the recommendations. */
  lemma ResultPartsOnly(debouncedValue: string, statusCode: Option<int>, results: Results, r: Renderer)
    ensures Quiet(ResultParts(debouncedValue, statusCode, results, r))
  {
    var hit := if debouncedValue != "" && statusCode == Some(1001) then CategorySections(results, r) else [];
    var miss := if debouncedValue != "" && statusCode == Some(1002) then
                  (if NonEmpty(results.fallback) then [DidYouMean(FallbackRows(results.fallback.value, r))] else [NoMatch])
                else [];
    var other := if debouncedValue != "" && StatusOrZero(statusCode) !in {1000, 1001, 1002, 9999} then [NoMatch] else [];
    CategoriesOnly(results, r);
    QuietConcat(hit, miss, other);
  }

  // ---------------------------------------------------------------------------
  // The decision table
  // ---------------------------------------------------------------------------

  function StatusOf(queryResult: Option<QueryResult>): Option<int> {
    if queryResult.Some? then Some(queryResult.value.statusCode) else None
  }

  function ResultsOf(queryResult: Option<QueryResult>): Results {
    if queryResult.Some? then queryResult.value.results else NoResults
  }

  /** The recommendation block: the list when there is one, the "no recommendations" message otherwise. */
  function RecommendationBlock(results: Results, keccak: Keccak): seq<Section> {
    if NonEmpty(results.recommendations)
    then [Recommendations(MapRows(results.recommendations.value, (item: AddressItem) => AddressRow(item, keccak)))]
    else [NoRecommendations]
  }

  /** Loading shows only the skeleton; an error (when not loading) shows only the failure message. */
  lemma LoadingThenError(isLoading: bool, isError: bool, queryResult: Option<QueryResult>, dv: string, keccak: Keccak)
    ensures isLoading ==> SearchResultsList(isLoading, isError, queryResult, dv, keccak) == [Loading]
    ensures !isLoading && isError ==> SearchResultsList(isLoading, isError, queryResult, dv, keccak) == [LoadFailed]
    ensures !isLoading && !isError ==>
              && Loading !in SearchResultsList(isLoading, isError, queryResult, dv, keccak)
              && LoadFailed !in SearchResultsList(isLoading, isError, queryResult, dv, keccak)
  {
    if !isLoading && !isError {
      ResultPartsOnly(dv, StatusOf(queryResult), ResultsOf(queryResult), ListRenderer(keccak));
    }
  }

  lemma CategoriesOnly(results: Results, r: Renderer)
    ensures Loading !in CategorySections(results, r) && LoadFailed !in CategorySections(results, r)
    ensures forall s :: s in CategorySections(results, r) ==> s.CategoryList? || s == NoMatch
  {
  }

  /**
   * With a non-empty query and neither loading nor an error, the status code
   * alone picks what is shown: 1001 the category sections, 1002 the
   * suggestions (or no-match), 9999 the recommendations, 1000 nothing at
   * all, and any other code, a missing one included, the no-match message.
   */
  lemma NonEmptyQuery(queryResult: Option<QueryResult>, dv: string, keccak: Keccak)
    requires dv != ""
    ensures var out := SearchResultsList(false, false, queryResult, dv, keccak);
            var sc := StatusOf(queryResult);
            var results := ResultsOf(queryResult);
            && (sc == Some(1001) ==> out == CategorySections(results, ListRenderer(keccak)))
            && (sc == Some(1002) ==> out == (if NonEmpty(results.fallback)
                                             then [DidYouMean(FallbackRows(results.fallback.value, ListRenderer(keccak)))]
                                             else [NoMatch]))
            && (sc == Some(9999) ==> out == RecommendationBlock(results, keccak))
            && (sc == Some(1000) ==> out == [])
            && (StatusOrZero(sc) !in {1000, 1001, 1002, 9999} ==> out == [NoMatch])
  {
    var sc := StatusOf(queryResult);
    var results := ResultsOf(queryResult);
    var out := SearchResultsList(false, false, queryResult, dv, keccak);
    if sc == Some(9999) {
      assert MapRows(results.recommendations.GetOr([]), ListRenderer(keccak).addressRow)
          == MapRows(results.recommendations.GetOr([]), (item: AddressItem) => AddressRow(item, keccak));
    }
    if sc == None {
      assert StatusOrZero(sc) == 0;
    }
  }

  /** With an empty query the recommendation block shows for 1000 or 9999, and nothing shows otherwise. */
  lemma EmptyQuery(queryResult: Option<QueryResult>, keccak: Keccak)
    ensures var out := SearchResultsList(false, false, queryResult, "", keccak);
            var sc := StatusOf(queryResult);
            && (sc == Some(1000) || sc == Some(9999) ==> out == RecommendationBlock(ResultsOf(queryResult), keccak))
            && (sc != Some(1000) && sc != Some(9999) ==> out == [])
  {
    var results := ResultsOf(queryResult);
    assert MapRows(results.recommendations.GetOr([]), ListRenderer(keccak).addressRow)
        == MapRows(results.recommendations.GetOr([]), (item: AddressItem) => AddressRow(item, keccak));
  }

  /**
   * The recommendation list shows exactly when recommendations were asked for
   * and the list is non-empty; the "no recommendations" message exactly when
   * they were asked for and the list is empty or absent.
   */
  lemma RecommendationsShown(isLoading: bool, isError: bool, queryResult: Option<QueryResult>, dv: string, keccak: Keccak)
    ensures var out := SearchResultsList(isLoading, isError, queryResult, dv, keccak);
            var asked := !isLoading && !isError && RecommendationsAsked(dv, StatusOf(queryResult));
            && ((exists i :: 0 <= i < |out| && out[i].Recommendations?) <==> asked && NonEmpty(ResultsOf(queryResult).recommendations))
            && (NoRecommendations in out <==> asked && !NonEmpty(ResultsOf(queryResult).recommendations))
  {
    var out := SearchResultsList(isLoading, isError, queryResult, dv, keccak);
    if !isLoading && !isError {
      var sc, results := StatusOf(queryResult), ResultsOf(queryResult);
      var head := RecommendationPart(dv, sc, results, ListRenderer(keccak));
      ResultPartsOnly(dv, sc, results, ListRenderer(keccak));
      if head != [] {
        assert out[0] == head[0];
      }
    }
  }

  // ---------------------------------------------------------------------------
  // Rows
  // ---------------------------------------------------------------------------

  /** At most one text of a row is highlighted, and a highlighted text gets the item's own match information. */
  predicate HighlightsOneFrom(row: Row, mi: Option<MatchInfo>) {
    && (forall i, j :: 0 <= i < j < |row.fields| ==> row.fields[i].matchInfo.None? || row.fields[j].matchInfo.None?)
    && (forall i :: 0 <= i < |row.fields| && row.fields[i].matchInfo.Some? ==> row.fields[i].matchInfo == mi)
  }

  /**
   * A click on a row emits: the hash for a transaction, the checksummed
   * address for an address or a label, the block number in decimal for a
   * block (which reads back as that number).
   */
  lemma ClickValues(tx: TxItem, addr: AddressItem, lab: LabelItem, blk: BlockItem, keccak: Keccak)
    ensures TxRow(tx, keccak).click == tx.hash
    ensures AddressRow(addr, keccak).click == Checksum.Checksummed(addr.address, keccak)
    ensures LabelRow(lab, keccak).click == Checksum.Checksummed(lab.address, keccak)
    ensures AllDigits(BlockRow(blk, keccak).click) && ParseDecimal(BlockRow(blk, keccak).click) == blk.number
  {
    DecimalRoundTrip(blk.number);
  }

  /**
   * Transaction, address and block rows highlight only the field the match
   * names (so at most one); a label row always highlights its text with the
   * item's match information, whatever field it names.
   */
  lemma RowHighlighting(tx: TxItem, addr: AddressItem, lab: LabelItem, blk: BlockItem, keccak: Keccak)
    ensures HighlightsOneFrom(TxRow(tx, keccak), tx.matchInfo)
    ensures HighlightsOneFrom(AddressRow(addr, keccak), addr.matchInfo)
    ensures HighlightsOneFrom(BlockRow(blk, keccak), blk.matchInfo)
    ensures LabelRow(lab, keccak).fields[0].matchInfo == lab.matchInfo
    ensures (TxRow(tx, keccak).fields[0].matchInfo.Some? <==> tx.matchInfo.Some? && tx.matchInfo.value.matchedField == "hash")
    ensures (AddressRow(addr, keccak).fields[0].matchInfo.Some?
             <==> addr.matchInfo.Some? && addr.matchInfo.value.matchedField == "address")
    ensures (BlockRow(blk, keccak).fields[0].matchInfo.Some?
             <==> blk.matchInfo.Some? && blk.matchInfo.value.matchedField == "number_prefix")
  {
    var t := TxRow(tx, keccak);
    assert "hash" != "from" && "hash" != "to" && "from" != "to";
    assert "address" != "name";
  }

  /** The label row's text is the first non-empty of `display`, `name`, `label`, or `label` when all are empty. */
  lemma LabelText(lab: LabelItem, keccak: Keccak)
    ensures var text := LabelRow(lab, keccak).fields[0].text;
            && (lab.display != "" ==> text == lab.display)
            && (lab.display == "" && lab.name != "" ==> text == lab.name)
            && (lab.display == "" && lab.name == "" ==> text == lab.labelText)
  {
  }
}

=== FILE: tx_cells.dfy ===
/**
 * What the four transaction tables have in common: the abbreviated
 * `first 6 ... last 4` form of hashes and addresses, the linked cells
 * (addresses in their checksummed form), the placeholder shown for a missing
 * address, and the pager footer the tables driven by a `currentPage` prop
 * draw under the rows.
 */
module TxCells {
  import opened Wrappers
  import opened JsString
  import Checksum

  type Keccak = seq<Checksum.byte> -> Checksum.Digest

  /** `${s.substring(0, 6)}...${s.substring(s.length - 4)}` */
  function Abbreviate(s: string): string {
    Substring(s, 0, 6) + "..." + SubstringFrom(s, |s| - 4)
  }

  /**
   * The abbreviation is the first six characters (all of a shorter string),
   * three dots and the last four (all of a shorter string); for ten
   * characters or more it has 13 characters.
   */
  lemma AbbreviateShape(s: string)
    ensures Abbreviate(s) == s[..Min(6, |s|)] + "..." + s[Max(0, |s| - 4)..]
    ensures |s| >= 10 ==> var r := Abbreviate(s);
                          && |r| == 13 && r[..6] == s[..6] && r[6..9] == "..." && r[9..] == s[|s| - 4..]
  {
    var r := Abbreviate(s);
    if |s| >= 10 {
      assert r == s[..6] + "..." + s[|s| - 4..];
      assert r[..6] == s[..6];
      assert r[6..9] == "...";
      assert r[9..] == s[|s| - 4..];
    }
  }

  /** Abbreviating a long text twice is abbreviating it once. */
  lemma AbbreviateIdempotent(s: string)
    requires |s| >= 10
    ensures Abbreviate(Abbreviate(s)) == Abbreviate(s)
  {
    var r := Abbreviate(s);
    AbbreviateShape(s);
    AbbreviateShape(r);
    assert r[|r| - 4..] == r[9..];
  }

  /** The page a link leads to. */
  datatype Route = TxPage | BlockPage | AddressPage

  /**
   * A table cell: plain text, greyed-out text, a link showing `shown` and
   * carrying `param`, or a date: the instant, in milliseconds since the epoch,
   * handed to `new Date` (the relative and locale texts drawn from it are not
   * modelled).
   */
  datatype Cell =
    | Text(text: string)
    | Muted(text: string)
    | Link(route: Route, param: string, shown: string)
    | Instant(millis: int)

  const ContractCreation := "合约创建"
  const UnknownAddress := "未知"
  const NoContract := "-"

  /** A transaction hash: a link to the transaction, shown abbreviated. */
  function HashCell(hash: string): Cell {
    Link(TxPage, hash, Abbreviate(hash))
  }

  /** A block number: a link to the block, shown and passed in decimal. */
  function BlockCell(number: nat): Cell {
    Link(BlockPage, DecimalString(number), DecimalString(number))
  }

  /** An address: checksummed, linked in full and shown abbreviated. */
  function AddressCell(address: string, keccak: Keccak): Cell {
    var checksummed := Checksum.Checksummed(address, keccak);
    Link(AddressPage, checksummed, Abbreviate(checksummed))
  }

  /** An address that may be `null` or empty: the placeholder `marker` then, the address cell otherwise. */
  function NullableAddressCell(address: Option<string>, marker: string, keccak: Keccak): Cell {
    if address.None? || address.value == "" then Muted(marker) else AddressCell(address.value, keccak)
  }

  /**
   * A well-formed address links to its checksummed form and shows `0x`, four
   * checksummed digits, three dots and the last four: the link is itself
   * checksummed and equal, up to case, to the input's body.
   */
  lemma AddressCellShape(address: string, keccak: Keccak)
    requires Checksum.ValidAddress(address)
    ensures var c := AddressCell(address, keccak);
            && c.Link? && c.route == AddressPage
            && c.param == Checksum.Checksummed(address, keccak)
            && Checksum.Checksummed(c.param, keccak) == c.param
            && ToLower(c.param) == "0x" + ToLower(Checksum.Body(address))
            && |c.shown| == 13 && c.shown[..6] == c.param[..6] && c.shown[9..] == c.param[38..]
            && c.shown[..2] == "0x"
  {
    var cs := Checksum.Checksummed(address, keccak);
    Checksum.ChecksumShape(address, keccak);
    Checksum.ChecksumIdempotent(address, keccak);
    Checksum.ChecksumLowered(address, keccak);
    AbbreviateShape(cs);
    assert cs[..6][..2] == cs[..2];
  }

  /** A missing or empty address shows the placeholder; any other is an address link. */
  lemma NullableFallback(address: Option<string>, marker: string, keccak: Keccak)
    ensures var c := NullableAddressCell(address, marker, keccak);
            && (c == Muted(marker) <==> address.None? || address.value == "")
            && (address.Some? && address.value != "" ==> c == AddressCell(address.value, keccak) && c.Link?)
  {
  }

  /** The block link carries the number in decimal, which reads back as the number. */
  lemma BlockCellRoundTrip(number: nat)
    ensures AllDigits(BlockCell(number).param) && ParseDecimal(BlockCell(number).param) == number
  {
    DecimalRoundTrip(number);
  }

  // ---------------------------------------------------------------------------
  // The pager of the tables driven by `currentPage`
  // ---------------------------------------------------------------------------

  /** A page button: whether it is enabled, the page its click asks for, and whether it shows a spinner. */
  datatype Button = Button(enabled: bool, target: int, spinner: bool)

  /** The footer: the total, `page of pageCount`, and the two buttons. */
  datatype Footer = Footer(total: int, page: int, pageCount: int, prev: Button, next: Button)

  /**
   * The footer, shown only when `pageCount > 0`. Previous asks for
   * `currentPage - 1` and is disabled on the first page or while fetching;
   * next asks for `currentPage + 1` and is disabled on the last page or
   * while fetching. `spins`: the table replaces the labels by a spinner while
   * fetching.
   */
  function PagerFooter(pageCount: int, currentPage: int, total: int, isFetching: bool, spins: bool): Option<Footer> {
    if pageCount > 0 then
      Some(Footer(total, currentPage, pageCount,
                  Button(!(currentPage <= 1 || isFetching), currentPage - 1, spins && isFetching),
                  Button(!(currentPage >= pageCount || isFetching), currentPage + 1, spins && isFetching)))
    else None
  }

  /** The `onPageChange` call a click makes: none on a disabled button. */
  function Click(b: Button): Option<int> {
    if b.enabled then Some(b.target) else None
  }

  /**
   * The footer shows exactly when there are pages; an enabled previous button
   * asks for a page of at least 1 and an enabled next button for one of at
   * most `pageCount`, so from a page in range every click stays in range;
   * nothing can be clicked while fetching.
   */
  lemma PagerGuards(pageCount: int, currentPage: int, total: int, isFetching: bool, spins: bool)
    ensures PagerFooter(pageCount, currentPage, total, isFetching, spins).Some? <==> pageCount > 0
    ensures var f := PagerFooter(pageCount, currentPage, total, isFetching, spins);
            f.Some? ==>
              && f.value.page == currentPage && f.value.pageCount == pageCount
              && (Click(f.value.prev).Some? <==> currentPage > 1 && !isFetching)
              && (Click(f.value.prev).Some? ==> Click(f.value.prev).value == currentPage - 1 >= 1)
              && (Click(f.value.next).Some? <==> currentPage < pageCount && !isFetching)
              && (Click(f.value.next).Some? ==> Click(f.value.next).value == currentPage + 1 <= pageCount)
              && (1 <= currentPage <= pageCount ==>
                    forall b :: b in [f.value.prev, f.value.next] && Click(b).Some? ==> 1 <= Click(b).value <= pageCount)
              && (isFetching ==> Click(f.value.prev).None? && Click(f.value.next).None?)
              && (f.value.prev.spinner <==> spins && isFetching)
              && (f.value.next.spinner <==> spins && isFetching)
  {
  }

  // ---------------------------------------------------------------------------
  // The table body
  // ---------------------------------------------------------------------------

  /** A rendered row: its React key and its cells. */
  datatype TableRow = TableRow(key: string, cells: seq<Cell>)

  /** The body: the rows, or the one message row of an empty table. */
  datatype Body = Rows(rows: seq<TableRow>) | Empty(message: string)

  /** What a table draws: the 0-based index it hands the table, the body and the footer. */
  datatype TableView = TableView(pageIndex: int, body: Body, footer: Option<Footer>)

  /** The default row id of the table library: the row's position in decimal. */
  function RowId(i: nat): string {
    DecimalString(i)
  }

  /** One row per item, in order, or the message when there is none. */
  function TableBody<T>(items: seq<T>, key: (T, nat) -> string, cells: T -> seq<Cell>, message: string): (b: Body)
    ensures b.Empty? <==> |items| == 0
    ensures b.Empty? ==> b.message == message
    ensures b.Rows? ==> |b.rows| == |items|
                        && forall i :: 0 <= i < |items| ==> b.rows[i] == TableRow(key(items[i], i), cells(items[i]))
  {
    if |items| == 0 then Empty(message)
    else Rows(seq(|items|, i requires 0 <= i < |items| => TableRow(key(items[i], i), cells(items[i]))))
  }

  /** Default row ids never collide. */
  lemma RowIdsDistinct(i: nat, j: nat)
    ensures RowId(i) == RowId(j) <==> i == j
  {
    if RowId(i) == RowId(j) {
      DecimalInjective(i, j);
    }
  }
}

=== FILE: tx_internal_tx_table.dfy ===
/**
 * The internal-transactions table of a transaction page (`TxInternalTxTable`):
 * driven by a `currentPage` prop, rows keyed by their `uniqueId` when they
 * have one and by position otherwise, labels replaced by a spinner while fetching.
 */
module TxInternalTxTable {
  import opened Wrappers
  import opened JsString
  import opened TxCells

  /** An internal transaction as the table reads it; the date and value texts are not modelled. */
  datatype TxInternalTx = TxInternalTx(
    uniqueId: Option<string>,
    blockNumber: nat,
    from: string,
    to: Option<string>,
    category: string)

  datatype Props = Props(
    data: Option<seq<TxInternalTx>>,
    pageCount: int,
    currentPage: int,
    pageSize: int,
    totalTransactions: int,
    isFetching: bool)

  const EmptyMessage := "无内部交易记录。"

  /** `row.original.uniqueId ?? row.id` */
  function RowKey(tx: TxInternalTx, i: nat): string {
    if tx.uniqueId.Some? then tx.uniqueId.value else RowId(i)
  }

  /** The cells of a row: block, sender, receiver (`未知` when missing), category. */
  function Cells(tx: TxInternalTx, keccak: Keccak): seq<Cell> {
    [BlockCell(tx.blockNumber), AddressCell(tx.from, keccak), NullableAddressCell(tx.to, UnknownAddress, keccak),
     Text(tx.category)]
  }

  function View(props: Props, keccak: Keccak): TableView {
    TableView(props.currentPage - 1,
              TableBody(props.data.GetOr([]), RowKey, tx => Cells(tx, keccak), EmptyMessage),
              PagerFooter(props.pageCount, props.currentPage, props.totalTransactions, props.isFetching, true))
  }

  /**
   * The table is handed `currentPage - 1`; the footer shows exactly when
   * `pageCount > 0`; enabled buttons ask for pages in `[1, pageCount]`, and
   * while fetching both are disabled and spin.
   */
  lemma Paging(props: Props, keccak: Keccak)
    ensures var v := View(props, keccak);
            && v.pageIndex + 1 == props.currentPage
            && (v.footer.Some? <==> props.pageCount > 0)
            && (v.footer.Some? ==>
                  && (Click(v.footer.value.prev).Some? ==> Click(v.footer.value.prev) == Some(props.currentPage - 1)
                                                           && props.currentPage - 1 >= 1)
                  && (Click(v.footer.value.next).Some? ==> Click(v.footer.value.next) == Some(props.currentPage + 1)
                                                           && props.currentPage + 1 <= props.pageCount)
                  && (v.footer.value.prev.spinner <==> props.isFetching)
                  && (v.footer.value.next.spinner <==> props.isFetching)
                  && (props.isFetching ==> !v.footer.value.prev.enabled && !v.footer.value.next.enabled))
  {
    PagerGuards(props.pageCount, props.currentPage, props.totalTransactions, props.isFetching, true);
  }

  /**
   * Missing or empty data shows `无内部交易记录。`; otherwise one row per
   * transaction whose key is its `uniqueId`, or its position when it has
   * none, so rows without ids never share a key; a missing receiver shows `未知`.
   */
  lemma Rows(props: Props, keccak: Keccak)
    ensures var b := View(props, keccak).body;
            var data := props.data.GetOr([]);
            && (b == Empty(EmptyMessage) <==> |data| == 0)
            && (b.Rows? ==>
                  && |b.rows| == |data|
                  && (forall i :: 0 <= i < |data| && data[i].uniqueId.Some? ==> b.rows[i].key == data[i].uniqueId.value)
                  && (forall i, j :: 0 <= i < j < |data| && data[i].uniqueId.None? && data[j].uniqueId.None? ==>
                        b.rows[i].key != b.rows[j].key)
                  && forall i :: 0 <= i < |data| ==>
                       (b.rows[i].cells[2] == Muted(UnknownAddress) <==> data[i].to.None? || data[i].to.value == ""))
  {
    var b := View(props, keccak).body;
    var data := props.data.GetOr([]);
    if b.Rows? {
      forall i, j | 0 <= i < j < |data| && data[i].uniqueId.None? && data[j].uniqueId.None?
        ensures b.rows[i].key != b.rows[j].key
      {
        RowIdsDistinct(i, j);
      }
      forall i | 0 <= i < |data|
        ensures b.rows[i].cells[2] == Muted(UnknownAddress) <==> data[i].to.None? || data[i].to.value == ""
      {
        NullableFallback(data[i].to, UnknownAddress, keccak);
      }
    }
  }
}

=== FILE: wrappers.dfy ===
/** Optional values: JavaScript's `undefined`/`null` alternatives. */
module Wrappers {

  datatype Option<+T> = None | Some(value: T) {

    /** The value, or `default` when absent (JavaScript's `??`). */
    function GetOr(default: T): T {
      match this
      case Some(v) => v
      case None => default
    }
  }
}
